=== FILE: README.md ===
# Netlify CMS source for Gridsome, modelled in Dafny

This project models the core of `gridsome-source-netlifycms`, a Gridsome source plugin that reads a Netlify CMS configuration and turns the content it describes into Gridsome nodes. The model covers:

- **Configuration defaulting** (`config.js`).
  - `setDefaultPublicFolder`.
  - The recursive field-tree walker `traverseFields`, with its updater, its early-stop predicate and its dotted field paths.
  - `applyDefaults`: the defaults merge; the `display_url`, `public_folder` and `slug.*` defaults; and the per-collection defaults (`publish`, folder trimming, `media_folder`/`public_folder`, meta fields, `files` clean-up, `view_filters` ids).
- **Widgets** (`widgets/*.js` and `parseFields`/`getWidget` in `main.js`).
  - Dispatch on the field's `widget` setting.
  - The base, list, image, file and Markdown parsers.
  - The record `parseFields` builds, one key per field name.
- **The plugin object** (`main.js`), a class `Source.NetlifyCmsSource`. It holds the table of collections (`this.collections`) and the host's node store, modelled as a map from type name to the sequence of nodes in that collection. Its members are:
  - `createCollections`, `createPath`, `createNodeOptions` with its mime fallback, the mime gate of `transformNodeFiles`, and `createNodeFileOptions`;
  - the watcher's config-change, `add`, `unlink` and `change` handlers.
- **The mime allow-list** (`constants/plugin.js`).

## Value and error model

- JavaScript values, Immutable.js maps and lists, and parsed JSON content are one datatype, `Values.Value`. A map keeps its keys in insertion order next to its values, and every iteration over a map follows that order. Immutable.js leaves the iteration order of a `Map` undefined; it agrees with insertion order only for maps of up to 8 entries (see "## Left out").
- A thrown exception or a rejected promise is an `Err` of the `Result` datatype. It carries a `TypeError` where JavaScript throws one, `Thrown` for a plain `Error` (Immutable's `invalid keyPath`), or `UnsupportedMime` for the `is not supported for file parsing` error. The error kind and the point where the run stops are modelled; the message text is representative (see "## Left out").
- Host capabilities are uninterpreted functions in `Source.Host`:
  - `actions.slugify`;
  - the md5 digest behind `createUid`;
  - `camelcase` behind `createTypeName`;
  - `mime.lookup`;
  - `path.relative`;
  - `marked`.
- File contents and the result of `fs.readJson` arrive as parameters.
- `path.join`, `path.basename`, `path.dirname` and `path.parse` are modelled for `/`-separated paths in `Paths`. lodash's `trim`/`trimStart`/`trimEnd` for one character are modelled in `Strings`.

## Where the code and its description differ

The model follows the code in each of these cases:

- **Walker early stop.** After `done()` turns true, the `map` in `traverseFields` still runs the updater on the remaining siblings. Each of them is returned without descending. Traversal does not halt at once (config.js:27-33).
- **`field` child.** A node with a `field` child (and no `fields`) always fails: `.get(0)` is called on a plain array (config.js:52).
- **Public-folder default.** The per-field default copies the field's own `media_folder`, not the collection's (config.js:8-13, 115).
- **YAML files.** Files of type `text/yaml` pass the mime gate but are never parsed: the YAML branch calls `fs.readFile()` without a path, which rejects (main.js:103). Only JSON file entries become nodes.
- **Config change.** The config-change handler empties every node collection of the table, runs `createCollections` again and then `createNodes`, which refills the collections from disk. It does not re-read the configuration and does not clear `this.collections`, so stale keys stay (main.js:176-184).
- **`add` handler.** `add` only acts on folder entries; a file entry is ignored (main.js:195).
- **Path segments.** `createPath` slugifies every directory segment, including empty ones, and drops the segments whose slug is empty (main.js:267-281).
- **List fields.** The list widget spreads an Immutable map when only `field` is set. The model therefore takes that map's `[key, value]` entries as the subfields (widgets/list.js:6).
- **File widget.** The file widget's `replace` is not anchored: the first occurrence of `public_folder` is removed wherever it is (widgets/file.js:15-16).

## Model

| member | source | states |
|---|---|---|
| Config.SetDefaultPublicFolder | config.js:8-13 | `public_folder` becomes `media_folder` exactly when `media_folder` is present and `public_folder` absent; every other key is kept; otherwise the map is returned unchanged |
| Config.SetDefaultPublicFolderIdempotent | config.js:8-13 | applying the public-folder default twice is the same as applying it once |
| Walker.Traverse | config.js:18-69 | when `done()` holds on entry the list comes back unchanged; a successful walk returns a list of the same length |
| Walker.MapItems | config.js:27-68 | mapping a list of nodes keeps its length |
| Walker.VisitNode | config.js:27-66 | a node for which `done()` holds after its update is returned as updated, without descending; a `field` child (without `fields`) makes the walk fail |
| WalkerLaws.IdentityTraverse | config.js:34-66 | with an identity updater and `done` always false, a tree without `field` nodes comes back equal to itself, and only such trees succeed |
| WalkerLaws.IdentityItems | config.js:27-68 | the same law for a list of sibling nodes |
| WalkerLaws.IdentityNode | config.js:34-66 | the same law for one node: each of `fields`, `field`, `types` is recursed in that precedence |
| WalkerLaws.NodePathIsDotted | config.js:28-31 | for dot-free names the path given to the updater is the ancestor names and the node's name joined by `.` |
| WalkerLaws.DotPrefixJoin | config.js:37-62 | the prefix a node at depth n receives is its ancestors' dotted path followed by one `.`, and the dotted path has no dot at either end |
| WalkerLaws.RecordedTraverse | config.js:18-69 | a recording updater sees every node of a tree exactly once, in pre-order, each with its dotted path, and the tree is unchanged |
| WalkerLaws.RecordedItems | config.js:27-68 | the same pre-order log for a list of siblings |
| WalkerLaws.RecordedNode | config.js:28-66 | the same pre-order log for one node and its descendants |
| WalkerLaws.MapItemsAt | config.js:27-68 | where the `map` succeeds, its item `i` is the visit of input item `i` from the state the visits of the items before it left: items are visited front to back with the state threaded through |
| WalkerLaws.StoppedItems | config.js:27-33 | for any updater that keeps children and any `done` that stays true once true: when `done()` holds, every remaining sibling (each a map) is still passed to the updater in order, none is descended into, and the map returns exactly the updated siblings |
| WalkerLaws.StopAfterFirstUpdate | config.js:24-68 | for any updater that keeps children and any `done` that stays true once true and turns true at the first update: every top-level node is updated once, in order, and the list of updated nodes is returned without any descent |
| Config.DefaultsTraverse | config.js:113-116 | walking a field list with the public-folder default succeeds exactly on trees without `field` nodes and yields the defaulted tree |
| Config.DefaultsItems | config.js:113-116 | the same for a list of siblings |
| Config.DefaultsNode | config.js:113-116 | the same for one node |
| Config.DefaultedItems | config.js:113-116 | defaulting a list of fields keeps its length |
| Config.PublicFolderUpdaterKeepsChildren | config.js:8-13 | the public-folder default never touches `fields`, `field` or `types` |
| Config.Merge | config.js:70-72 | merging the config over the defaults gives `publish_mode` the config's value when present, else the default mode, and keeps every other key |
| Defaults.DefaultPublicFolder | config.js:80 | the default public folder starts with exactly one `/`, followed by `media_folder` with its leading slashes removed |
| Defaults.DisplayUrlStage | config.js:74-77 | `display_url` becomes `site_url` exactly when `display_url` is falsy and `site_url` truthy; nothing else changes |
| Defaults.PublicFolderStage | config.js:79-83 | an absent `public_folder` becomes the default public folder, a present one is kept; nothing else changes |
| Config.SlugDefault | config.js:85-96 | a falsy `slug.<key>` becomes the default and a truthy one is kept; a missing `slug` map is created and a list `slug` is left as it is; only `slug` changes; any other `slug` with a falsy key fails with Immutable 3's plain `Error` `invalid keyPath` |
| Defaults.SlugStage | config.js:85-96 | `encoding`, `clean_accents` and `sanitize_replacement` become `unicode`, `false` and `-` when falsy and are kept when truthy; only `slug` changes |
| Defaults.TopStage | config.js:71-96 | the merge and the top-level defaults together, failing only where the slug defaults fail; only the keys they name change |
| Defaults.UrlsCarried | config.js:71-77 | the `publish_mode` and `display_url` defaults survive the later top-level stages |
| Defaults.PublicFolderCarried | config.js:79-83 | the `public_folder` default survives the slug stage |
| Defaults.CollectionsStage | config.js:98-171 | every collection is defaulted, in order; the stage fails exactly when some collection cannot be defaulted; only `collections` changes |
| Defaults.ApplyDefaults | config.js:70-173 | the whole of `applyDefaults`: the top-level defaults and every collection's defaults, with every other key kept |
| Defaults.KeptByCollections | config.js:98-171 | the collection stage keeps every top-level default |
| Collections.PublishDefault | config.js:102-104 | `publish` defaults to `true` and is kept when present; only `publish` changes |
| Collections.FolderKeys | config.js:106-117 | `folder` is trimmed of `/` at both ends; `path` without `media_folder` gives `media_folder` = `''`; `public_folder` falls back to the (new) `media_folder` |
| Config.FolderNameTrimmed | config.js:117 | the trimmed folder has no `/` at either end, and a folder without one is unchanged |
| Config.MetaField | config.js:121-127 | a meta entry becomes a field exactly when its value is a map; otherwise `withMutations` fails |
| Config.MetaFieldSpec | config.js:122-126 | a meta field is its value with `name` = the key, `meta` = true and `required` = true, every other key kept |
| Config.ForEachPairs | config.js:121 | `forEach` visits a map's entries in the map's stored (insertion) order and a list's items with their indexes; other values have no `forEach` |
| Config.MetaFields | config.js:118-128 | the meta fields are the meta entries' fields in the `meta` map's stored order; a `meta` without `forEach` fails |
| Config.CollectMetaFields | config.js:119-128 | the `forEach` loop pushing into `metaFields` computes exactly the meta fields |
| Config.MapAll | config.js:159-166 | an Immutable `map` succeeds exactly when every element's callback does, and its results line up with the elements |
| Config.MapAllFirstError | config.js:159-166 | a failing `map` fails with the error of its first failing element |
| Collections.FolderFields | config.js:113-135 | `fields` becomes the meta fields followed by the defaulted declared fields (the defaulted fields alone without `meta`); a missing `meta` becomes an empty map |
| Config.DefaultFile | config.js:144-151 | a file entry can be defaulted exactly when it is a map whose fields can be walked |
| Config.DefaultFileSpec | config.js:145-150 | a defaulted file has its `file` stripped of leading slashes, its fields defaulted and its `public_folder` defaulted from its own `media_folder`; every other key is kept |
| Config.FileNameTrimmed | config.js:145 | the file path loses exactly its leading slashes |
| Config.DefaultFiles | config.js:144-152 | every file of a list is defaulted in place and order |
| Collections.FilesKeys | config.js:138-154 | a `files` collection loses `nested` and `meta` and gets its defaulted files |
| Config.WithId | config.js:164 | a view filter gets an id exactly when it is a map |
| Config.WithIdSpec | config.js:164 | the filter's id is `field + '__' + pattern` and its other keys are kept |
| Config.ViewFilters | config.js:159-166 | every filter of the list gets its id, in order |
| Collections.ViewFiltersKey | config.js:156-167 | missing `view_filters` becomes `[]`; present ones get their ids; only `view_filters` changes |
| Collections.FolderStage | config.js:106-136 | the folder stage fails exactly when a truthy `folder` comes with fields that cannot be walked or meta fields that cannot be made; otherwise it applies the folder defaults (none for a falsy `folder`) and keeps the other keys |
| Collections.FilesStage | config.js:138-154 | the files stage fails exactly when truthy `files` cannot all be defaulted; otherwise it applies the files defaults (none for falsy `files`) and keeps the other keys |
| Collections.FiltersStage | config.js:156-167 | the filters stage fails exactly when a present `view_filters` holds a non-map; otherwise it defaults `view_filters` and keeps the other keys |
| Collections.DefaultCollection | config.js:101-170 | one collection's defaulting: it succeeds exactly when each stage can run, and the result carries every per-collection default |
| Collections.StagesDefaulted | config.js:101-170 | the four stages in source order together establish every per-collection default |
| Collections.PublishCarried | config.js:102-104 | the `publish` default survives the later stages |
| Collections.FolderPathsCarried | config.js:106-117 | the folder path defaults survive the later stages |
| Collections.FolderFieldsCarried | config.js:113-135 | the meta and field defaults survive the later stages |
| Collections.FilesCarried | config.js:138-154 | the files defaults survive the filters stage |
| Collections.FiltersCarried | config.js:156-167 | the filters default is what the filters stage leaves |
| Plugin.IsSupportedMime | constants/plugin.js:1-4 | a mime type is supported exactly when it is the string `application/json` or `text/yaml` |
| Plugin.JsonAndYamlSupported | constants/plugin.js:1-3 | `application/json` and `text/yaml` are supported |
| Plugin.OthersUnsupported | constants/plugin.js:2-4 | `application/x-yaml`, `text/markdown` and the `false` of an unknown extension are not |
| Widgets.KindOf | main.js:128-141 | `list`, `markdown`, `image` and `file` select their widgets, each exactly for that string; anything else selects the base widget |
| Widgets.ParsePlain | widgets/widget.js:9-16 | falsy content or a missing own key gives `null`; otherwise the content's value under the field name, verbatim |
| Widgets.ParseMarkdown | widgets/markdown.js:5-13 | the guard gives `null`; otherwise the renderer's result on the value |
| Widgets.ParseImage | widgets/image.js:5-21 | the guard gives `null`; otherwise a string path, failing exactly when the value or the root `media_folder` is not a string |
| Widgets.ImageInMediaFolder | widgets/image.js:12-20 | when the value's basename is a plain name, the image path is the root `media_folder` under the context with that basename appended |
| Widgets.ImageIgnoresDirectories | widgets/image.js:12 | `dir/x` and `x` resolve to the same image path |
| Widgets.StripPublicFolder | widgets/file.js:14-19 | the file path never starts with `/`; a value without `public_folder` just loses its leading slashes |
| Widgets.StripUnderPublicFolder | widgets/file.js:14-19 | `public_folder + '/' + rest`, with `rest` not starting with `/`, gives `rest` |
| Widgets.StripInsidePath | widgets/file.js:15-16 | the first occurrence of `public_folder` is removed wherever it occurs, then leading slashes |
| Widgets.ParseFile | widgets/file.js:6-21 | the guard gives `null`; otherwise a string not starting with `/`, failing exactly when the value is not a string |
| Widgets.IterateSpec | main.js:121 | the `for ... of` over `fields` yields a list's items, a map's entries as `[key, value]` in the map's stored order, or a string's characters; anything else is not iterable |
| Widgets.GetFields | widgets/list.js:5-7 | the list widget's subfields: `fields` when present, even an empty list; otherwise the entries of `field`; otherwise none |
| Widgets.ParseWith | main.js:122-123 | every widget answers `null` when the guard fails |
| Widgets.ParseList | widgets/list.js:9-28 | the guard gives `null`; otherwise a list |
| Widgets.ListRecords | widgets/list.js:16-27 | a list value, or a bare value as one row, gives one record per row, in row order, each the row's `parseFields` with the subfields; it fails exactly when a row does |
| Widgets.ListOfNoRows | widgets/list.js:16-27 | an empty list value gives an empty list |
| Widgets.RowResultsAt | widgets/list.js:19-26 | row i's result is `parseFields` of row i |
| Widgets.ParseRecord | main.js:119-126 | a successful `parseFields` is a map |
| Widgets.RecordOk | main.js:119-126 | `parseFields` succeeds exactly when every field is a map whose widget succeeds |
| Widgets.RecordKeys | main.js:119-126 | the record has exactly one key per field name |
| Widgets.RecordValue | main.js:119-126 | a field's key holds that field's widget result, unless a later field has the same name and overwrites it |
| Widgets.RecordOfFalsy | widgets/list.js:19-25 | a falsy row (e.g. `null`) gives a record whose every value is `null` |
| Widgets.AllOkIff | widgets/list.js:18-27 | `Promise.all` succeeds exactly when every row succeeds |
| Widgets.AllOkFirstError | widgets/list.js:18-27 | a failing `Promise.all` fails with the first failing row's error |
| Widgets.AllOkValues | widgets/list.js:18-27 | a successful `Promise.all` gives every row's value, in order |
| Widgets.AssembleKeys | main.js:120-125 | the loop's record has one key per field name |
| Widgets.AssembleValue | main.js:123 | each name holds the last field of that name's result |
| Widgets.AssembleErrPrefix | main.js:121-124 | the first failing field ends the loop with its error |
| Widgets.ParseFields | main.js:119-126 | the `for` loop computes the record of the content under the iterated fields, or the iteration error |
| Widgets.ParseEach | main.js:121-125 | the loop body run over every field builds exactly the assembled record |
| Paths.Join | main.js:312-314 | `path.join` never gives the empty string |
| Paths.Basename | widgets/image.js:12 | `path.basename` contains no `/` |
| Paths.Dirname | main.js:194 | `path.dirname` is never empty (`.` for a bare name) |
| Paths.NormalizeIdempotent | widgets/image.js:14-20 | normalising an already normalised absolute path changes nothing, so the outer `path.join` of the joined image path leaves it as it is |
| Routes.Slugs | main.js:267-271 | every directory segment is slugified, one slug per segment |
| Routes.SegmentsInSteps | main.js:267-279 | the slugified directories, the slugified name pushed unless it is an index name, and the prefix put in front unless empty, are the route's segments |
| Routes.RouteRooted | main.js:281-283 | a route is never empty and always starts with `/` |
| Routes.RouteTrailingSlash | main.js:265-283 | with `trailingSlash` on, a route ends in `/`; with it off, only the route `/` does |
| Routes.RouteOfSegments | main.js:281-283 | when no slug holds a `/`, the route is `/` when no segment is kept, else `/` + the kept segments joined by `/` + the suffix |
| Routes.NameSegment | main.js:273-281 | an index name adds no segment; any other name with a non-empty slug adds its slug as the last segment |
| Routes.NonEmptyAppend | main.js:281 | dropping empty segments works segment by segment |
| Routes.PrefixKept | main.js:264-279 | a non-empty trimmed prefix is the first kept segment |
| Routes.PrefixFirst | main.js:264-283 | a non-empty trimmed prefix follows the route's leading `/` |
| Registry.FileRegistration | main.js:64-75 | a file of a `files` collection is registered under its `file` value, with its own configuration, as a file entry |
| Registry.FileRegs | main.js:63-76 | one registration per file |
| Registry.FilesPlan | main.js:63-76 | a `files` collection registers at most one entry per file |
| Registry.FilesRegistrations | main.js:63-76 | when every file is a map, each is registered in order and nothing fails |
| Registry.FilesStop | main.js:63-67 | the first file that is neither a map nor a list stops the loop with a `TypeError` (`file.get is not a function` for a value other than `null`/`undefined`), after the files before it are registered |
| Registry.FolderRegistration | main.js:77-86 | a collection without `files` and with a plain relative `folder` registers one folder entry keyed `folder + '/*.*'`, typed by its name |
| Registry.CollectionWithoutHas | main.js:61-62 | a collection that is neither a map nor a list stops the run with a `TypeError` (`collection.has is not a function` for a value other than `null`/`undefined`) |
| Registry.RegisteredLast | main.js:67-79 | the last registration under a key wins |
| Registry.RegisteredUntouched | main.js:67-79 | keys nobody registers keep their entries |
| Registry.RegisteredOverride | main.js:58-89 | registering overrides the old table with the new entries |
| Registry.RegisteredTwice | main.js:176-184 | registering the same configuration twice gives the same table as once |
| Registry.WithCollectionsKeeps | main.js:68-83 | `addCollection` keeps existing node collections and provides an empty one for every new type name |
| Registry.WithCollectionsNoop | main.js:68-83 | adding collections that all exist changes nothing |
| Registry.WithCollectionsTwice | main.js:176-184 | adding the same collections twice is the same as once |
| Registry.Cleared | main.js:177-181 | emptying collections keeps the set of type names |
| Registry.ConfigChangeEmpties | main.js:176-182 | after the config-change handler's emptying and re-registration, before `createNodes` refills them, every collection of the old table is present and empty |
| Registry.Owner | main.js:192-194 | the owning entry is a table entry; no entry means neither the path nor its folder glob is a key |
| Registry.OwnerOfFolderChild | main.js:192-194 | a file directly inside a plain folder, not itself a key, belongs to that folder's entry when there is one |
| Registry.FindId | main.js:219-220 | the first node with the id, or -1 when there is none |
| Registry.FindOrigin | main.js:207-209 | the first folder node with the origin, or -1 when there is none |
| Registry.ReplaceId | main.js:219-220 | updating a node replaces the first node with its id and nothing else, and keeps the count |
| Registry.RemoveId | main.js:179 | removing by id drops one node when the id is present and none otherwise |
| Registry.RemoveOrigin | main.js:207-209 | removing by origin drops one node when the origin is present and none otherwise |
| Registry.ReplaceIdTwice | main.js:219-220 | updating with the same node twice is the same as once |
| Registry.RemoveAdded | main.js:206-209 | removing a just-added node by its origin undoes the add |
| Registry.RemoveFirstId | main.js:178-180 | removing the first node by its id leaves the rest |
| Source.MimeFallback | main.js:241-243 | the looked-up type when truthy, else `application/x-` followed by the extension without its dot |
| Source.OnlyJsonTransforms | main.js:95-107 | a file entry is transformed only when its path is a string, its type is JSON and its JSON can be read |
| Source.UnsupportedRejected | main.js:96-99 | every type outside the allow-list is rejected with its own name, before the file is read |
| Source.NeighboursRejected | main.js:96-99 | `text/markdown`, `application/x-yaml` and a failed lookup (`false`) are among the rejected types |
| Source.YamlRejected | main.js:100-107 | a YAML file passes the gate but is rejected, since `readFile()` gets no path |
| Source.TransformedData | main.js:108-116 | a transformed file keeps its configuration, is routed by its directory and name, and its data has one key per field name |
| Source.ChangeReplacesAdded | main.js:213-220 | a change to a folder file replaces the node its add created, since both get the same id |
| Source.UnlinkUndoesAdd | main.js:201-209 | unlinking a file removes the node its add created |
| Source.NetlifyCmsSource.constructor | main.js:33-52 | the plugin starts with no collections and an empty store |
| Source.NetlifyCmsSource.CreatePath | main.js:262-284 | the push/unshift steps compute the route of the file |
| Source.NetlifyCmsSource.CreateNodeOptions | main.js:237-260 | the node for a folder file: id from its relative path, its route, its file info, its mime type with the fallback, its content and its absolute origin |
| Source.NetlifyCmsSource.CreateNodeFileOptions | main.js:232-235 | the id is the digest of the record's `name`; a name that is not a string fails |
| Source.FileIdStable | main.js:232-235 | a file entry's node id is the digest of its `name` whatever the file holds, so every re-read of the file yields a node under the same id |
| Source.NetlifyCmsSource.TransformNodeFiles | main.js:91-117 | the steps of `transformNodeFiles` compute the transformed record or the first error |
| Source.NetlifyCmsSource.Register | main.js:67-86 | one `collections.set`: the table maps the key to the entry, and the entry's node collection exists |
| Source.NetlifyCmsSource.RegisterCollection | main.js:62-87 | one collection's registrations are applied to the table and store in order, up to its first error |
| Source.NetlifyCmsSource.CreateCollections | main.js:58-89 | the loop applies the configuration's registrations, up to the first error, and every entry's node collection exists |
| Source.NetlifyCmsSource.EmptyCollection | main.js:178-180 | removing every node by id empties that collection |
| Source.NetlifyCmsSource.ClearCollections | main.js:177-181 | every collection of the table is emptied and nothing else changes |
| Source.NetlifyCmsSource.OnConfigChange | main.js:176-184 | the collections are emptied, then the same configuration is registered again over the old table |
| Source.NetlifyCmsSource.OnAdd | main.js:191-199 | a path owned by a folder entry appends its node to that collection; anything else changes nothing |
| Source.NetlifyCmsSource.OnUnlink | main.js:201-211 | a path owned by a folder entry removes the node of its absolute origin; anything else changes nothing |
| Source.NetlifyCmsSource.ReplaceNode | main.js:219-225 | `updateNode` replaces the node with the same id in that collection |
| Source.NetlifyCmsSource.ChangeFile | main.js:221-226 | the whole file entry is transformed again and its node replaced, or the error is returned and nothing changes |
| Source.NetlifyCmsSource.OnChange | main.js:213-228 | an unowned path changes nothing; a folder file's node is replaced; a file entry is re-transformed and replaced |

## Left out

- `parseConfig`, `getConfig` and `loadConfig` read and parse YAML files (I/O and a foreign parser). `validateConfig` and the publish modes live in files that are not part of this model. The default publish mode is a parameter.
- `createNodes` is not modelled: it is glob expansion and file reading, so I/O. The node a folder file gets is `Source.FolderNodeOf`, and the node a file entry gets is `Source.FileNodeOf`.
- The chokidar watchers, `loadSource`, the webpack alias and the constructor's option defaults (main.js:33-52) are host wiring. The constructor keeps only the state the handlers use.
- `transformNodeContent` (main.js:290-306) is never called and reaches into host internals.
- `Promise.all` fan-out and await ordering are not modelled. Handlers and list rows are sequential; a failing row or field reports the first error in order.
- The Widget class (widgets/widget.js:1-7) is not an object here. Each parse function takes the parser and the field its widget would store. The collection and schema it stores are never read, and the ignored `path` argument is dropped.
- `slash()` is the identity: paths are `/`-separated.
- Immutable's rendering of a list or map inside a template string is a fixed placeholder (`Values.Stringify`).
- `Defaults.CollectionsStage`: a `collections` value that is not a list is an error. Immutable would map a map's values; the configuration schema requires a list.
- `Source.NetlifyCmsSource.OnChange`, `ReplaceNode` and `OnUnlink`: the host store's behaviour for an id or origin it does not hold is not modelled. The model leaves the collection unchanged.
- `Source.NetlifyCmsSource.Register`: `addCollection` for a type name that already exists is modelled as returning the existing collection. Its nodes are kept.
- `Registry.FolderRegistration` and `Registry.OwnerOfFolderChild` are stated for plain relative folders (no `.`/`..`/empty segments). `path.join` normalises other folders; `Paths.Join` models that but the two lemmas do not cover it.
- `Source.NetlifyCmsSource.OnConfigChange`: the final `await this.createNodes(actions)` (main.js:183) is not modelled (glob expansion and file reads). The model's state after the handler is the emptied and re-registered table, before the collections are refilled.
- `Config.ForEachPairs`, `Config.MetaFields` and `Widgets.IterateSpec`: a map is always iterated in insertion order. `fromJS` builds an Immutable `Map`, whose iteration order is undefined; it matches insertion order only for maps of up to 8 entries, and larger maps iterate in hash order. The order of the meta fields prepended to `fields` (config.js:121-131) can therefore differ from the model's for a `meta` map of more than 8 entries.
- `Registry.FilesStop`, `Registry.CollectionWithoutHas`, `Registry.FilesPlan`, `Registry.CollectionPlan`, `Walker.Traverse`, `Walker.VisitNode` and `Config.MetaFields`: error messages are representative. For a `null` or `undefined` receiver, JavaScript throws `Cannot read properties of null (reading 'get')` (or `undefined`) rather than `x.get is not a function`. This affects, for example, `files: [null]` (main.js:65), `collections: [null]` (main.js:62) and a folder collection without `fields` (config.js:27, 115). The model uses the `is not a function` message for every non-map value. Node's `ERR_INVALID_ARG_TYPE` messages also carry a `Received …` suffix that `Widgets.PathTypeError` drops. Only the error kind and where the run stops are modelled.
- `Values.Num` holds integers only: JSON floats in file contents and configuration values are not represented.
- `Walker.VisitNode`: an Immutable List where a field map is expected is an error here. Immutable's List has `get`, `has` and `set`, so JavaScript would carry on with it. The configuration schema admits only maps there, so the model treats this schema-rejected shape as an error. The Ok-iff statements of `WalkerLaws.IdentityTraverse`, `Config.DefaultsTraverse` and `Collections.FiltersStage` therefore name failures JavaScript does not have for such lists.
- `Walker.Traverse`, `Walker.MapItems` and `Walker.VisitNode` are defined only for updaters that leave a field's `fields`, `field` and `types` untouched (`Walker.KeepsChildren`). That condition gives the walk a termination measure, the tree it starts from. JavaScript's exported `traverseFields` accepts any updater, and one that drops or replaces children still terminates there. The model does not describe walks with such updaters. The two core call sites (config.js:115, 149) pass `setDefaultPublicFolder`, which keeps children (`Config.PublicFolderUpdaterKeepsChildren`).
- `Walker.Traverse`: an Immutable Map where a list of fields is expected is an error here. Immutable's `Map.map` would map its values instead. The schema requires a list.
- `Config.MetaField`: a `meta` entry that is an Immutable List is an error here; JavaScript's `withMutations` would accept it. The schema requires a map.
- `Config.WithId`: a view filter that is an Immutable List is an error here; JavaScript's `set` would accept it. The schema requires a map.
- `Config.ViewFilters`: a `view_filters` value that is an Immutable Map is an error here; Immutable would map its values. The schema requires a list.
- `Config.DefaultFiles`: a `files` value that is an Immutable Map is an error here; Immutable would map its values. The schema requires a list.
- `Collections.DefaultCollection`: a collection that is an Immutable List is an error here; JavaScript would call its `has` and go on. Its Ok-iff statement therefore names a failure JavaScript does not have for such a collection. The schema requires a map.
- `Widgets.Assemble`: a field that is an Immutable List is an error here; JavaScript would call its `get`. The schema requires a map.
- `Registry.FilesPlan`: a map-valued `files` is iterated as `[key, value]` pairs. JavaScript's `for...of` yields plain arrays, which have no `get`, so `file.get is not a function` is thrown (main.js:64). The model cannot tell a plain array from an Immutable List and registers an entry keyed `undefined` instead.
- `Registry.CollectionPlan`: a map-valued `collections` is iterated as `[key, value]` pairs. JavaScript throws `collection.has is not a function` on them (main.js:62); the model, which reads them as Immutable Lists, gives the path type error of the folder branch instead.
- `Paths.Dirname`: only its `/`-separated behaviour is modelled; Windows separators are not.

=== FILE: apply.dfy ===
/**
 * `applyDefaults(config)` (config.js): the defaults merge, then the
 * top-level rules and the per-collection rules, each a `set` on the
 * transient map of `withMutations`.
 */
module Defaults {
  import opened Values
  import opened Strings
  import opened Config
  import opened Collections

  /** The slug keys that get a default. */
  const SlugKeys: set<string> := {"encoding", "clean_accents", "sanitize_replacement"}

  /** The top-level keys the defaults may touch, besides `collections`. */
  const TopKeys: set<string> := {"publish_mode", "display_url", "public_folder", "slug"}

  /**
   * `/${trimStart(media_folder, '/')}`: the default top-level
   * `public_folder`, with exactly one leading slash, followed by the media
   * folder less its leading slashes.
   */
  function DefaultPublicFolder(mediaFolder: Value): (r: string)
    ensures |r| >= 1 && r[0] == '/' && (|r| == 1 || r[1] != '/')
    ensures var s := LodashString(mediaFolder);
      && |r| - 1 <= |s| && r[1..] == s[|s| - (|r| - 1)..]
      && forall i :: 0 <= i < |s| - (|r| - 1) ==> s[i] == '/'
  {
    TrimStartSpec(LodashString(mediaFolder), '/');
    "/" + TrimStart(LodashString(mediaFolder), '/')
  }

  /** The three slug defaults: a falsy entry becomes the default, a truthy one is kept, nothing else changes. */
  ghost predicate SlugDefaulted(base: Value, slug: Value)
  {
    && slug.Obj?
    && Frame(base, slug, SlugKeys)
    && Get(slug, "encoding") ==
         (if Truthy(Get(base, "encoding")) then Get(base, "encoding") else Str("unicode"))
    && Get(slug, "clean_accents") ==
         (if Truthy(Get(base, "clean_accents")) then Get(base, "clean_accents") else Bool(false))
    && Get(slug, "sanitize_replacement") ==
         (if Truthy(Get(base, "sanitize_replacement")) then Get(base, "sanitize_replacement") else Str("-"))
  }

  /** The slug defaults can be written: `slug` is missing, a map, or a list. */
  predicate SlugSettable(m: Value)
  {
    SlugBase(m).Some? || Get(m, "slug").List?
  }

  /** The three `setIn(['slug', ...])` defaults, in order. */
  method SlugStage(m0: Value) returns (r: Result<Value>)
    requires m0.Obj?
    ensures r.Ok? <==> SlugSettable(m0)
    ensures r.Ok? ==> r.value.Obj? && Frame(m0, r.value, {"slug"})
    ensures r.Ok? && Get(m0, "slug").List? ==> r.value == m0
    ensures r.Ok? && SlugBase(m0).Some? ==> SlugDefaulted(SlugBase(m0).value, Get(r.value, "slug"))
  {
    var s1 := SlugDefault(m0, "encoding", Str("unicode"));
    if s1.Err? {
      return s1;
    }
    var m1 := s1.value;
    var s2 := SlugDefault(m1, "clean_accents", Bool(false));
    if s2.Err? {
      return s2;
    }
    var m2 := s2.value;
    r := SlugDefault(m2, "sanitize_replacement", Str("-"));
    if r.Ok? {
      var m3 := r.value;
      FrameTrans(m0, m1, m2, {"slug"});
      FrameTrans(m0, m2, m3, {"slug"});
      if SlugBase(m0).Some? {
        SlugChain(SlugBase(m0).value, Get(m1, "slug"), Get(m2, "slug"), Get(m3, "slug"));
      }
    }
  }

  /** Three one-key defaults, one after another, give the three slug defaults. */
  lemma SlugChain(base: Value, s1: Value, s2: Value, s3: Value)
    requires base.Obj? && s1.Obj? && s2.Obj? && s3.Obj?
    requires Frame(base, s1, {"encoding"}) && Frame(s1, s2, {"clean_accents"}) && Frame(s2, s3, {"sanitize_replacement"})
    requires Get(s1, "encoding") == if Truthy(Get(base, "encoding")) then Get(base, "encoding") else Str("unicode")
    requires Get(s2, "clean_accents") ==
      if Truthy(Get(s1, "clean_accents")) then Get(s1, "clean_accents") else Bool(false)
    requires Get(s3, "sanitize_replacement") ==
      if Truthy(Get(s2, "sanitize_replacement")) then Get(s2, "sanitize_replacement") else Str("-")
    ensures SlugDefaulted(base, s3)
  {
    FrameGet(base, s1, {"encoding"}, "clean_accents");
    FrameGet(base, s1, {"encoding"}, "sanitize_replacement");
    FrameGet(s1, s2, {"clean_accents"}, "encoding");
    FrameGet(s1, s2, {"clean_accents"}, "sanitize_replacement");
    FrameGet(s2, s3, {"sanitize_replacement"}, "encoding");
    FrameGet(s2, s3, {"sanitize_replacement"}, "clean_accents");
    FrameWiden(base, s1, {"encoding"}, SlugKeys);
    FrameWiden(s1, s2, {"clean_accents"}, SlugKeys);
    FrameWiden(s2, s3, {"sanitize_replacement"}, SlugKeys);
    FrameTrans(base, s1, s2, SlugKeys);
    FrameTrans(base, s2, s3, SlugKeys);
  }

  /** `publish_mode` merged in from the defaults; `display_url` defaulted from `site_url`. */
  ghost predicate UrlsDefaulted(config: Value, m: Value, simple: Value)
  {
    && Get(m, "publish_mode") == (if Has(config, "publish_mode") then Get(config, "publish_mode") else simple)
    && Has(m, "display_url") == (Has(config, "display_url") || Truthy(Get(config, "site_url")))
    && Get(m, "display_url") ==
         (if !Truthy(Get(config, "display_url")) && Truthy(Get(config, "site_url"))
          then Get(config, "site_url") else Get(config, "display_url"))
  }

  /** A missing top-level `public_folder` becomes the default public folder; a present one is kept. */
  ghost predicate PublicFolderDefaulted(config: Value, m: Value)
  {
    && Has(m, "public_folder")
    && Get(m, "public_folder") ==
         (if Has(config, "public_folder") then Get(config, "public_folder")
          else Str(DefaultPublicFolder(Get(config, "media_folder"))))
  }

  /** The slug defaults, written into the slug map; a list-valued `slug` is left as it is. */
  ghost predicate SlugsDefaulted(config: Value, m: Value)
  {
    && (Get(config, "slug").List? ==> Get(m, "slug") == Get(config, "slug"))
    && (SlugBase(config).Some? ==> SlugDefaulted(SlugBase(config).value, Get(m, "slug")))
  }

  /** What the top-level rules make of the configuration. */
  ghost predicate TopDefaulted(config: Value, m: Value, simple: Value)
  {
    UrlsDefaulted(config, m, simple) && PublicFolderDefaulted(config, m) && SlugsDefaulted(config, m)
  }

  /** `display_url` takes `site_url` when it is falsy and `site_url` is truthy. */
  method DisplayUrlStage(m: Value) returns (m': Value)
    requires m.Obj?
    ensures m'.Obj? && Frame(m, m', {"display_url"})
    ensures Has(m', "display_url") == (Has(m, "display_url") || Truthy(Get(m, "site_url")))
    ensures Get(m', "display_url") ==
      if !Truthy(Get(m, "display_url")) && Truthy(Get(m, "site_url")) then Get(m, "site_url") else Get(m, "display_url")
  {
    m' := m;
    if !Truthy(Get(m', "display_url")) && Truthy(Get(m', "site_url")) {
      FrameSet(m', "display_url", Get(m', "site_url"), {"display_url"});
      m' := Set(m', "display_url", Get(m', "site_url"));
    }
  }

  /** A missing `public_folder` becomes the default public folder. */
  method PublicFolderStage(m: Value) returns (m': Value)
    requires m.Obj?
    ensures m'.Obj? && Frame(m, m', {"public_folder"}) && Has(m', "public_folder")
    ensures Get(m', "public_folder") ==
      if Has(m, "public_folder") then Get(m, "public_folder") else Str(DefaultPublicFolder(Get(m, "media_folder")))
  {
    m' := m;
    var defaultPublicFolder := DefaultPublicFolder(Get(m', "media_folder"));
    if !Has(m', "public_folder") {
      FrameSet(m', "public_folder", Str(defaultPublicFolder), {"public_folder"});
      m' := Set(m', "public_folder", Str(defaultPublicFolder));
    }
  }

  /** The merge with the defaults, then the `display_url`, `public_folder` and slug rules. */
  method TopStage(config: Value, simple: Value) returns (r: Result<Value>)
    requires config.Obj?
    ensures r.Ok? <==> SlugSettable(config)
    ensures r.Ok? ==> r.value.Obj? && Frame(config, r.value, TopKeys) && TopDefaulted(config, r.value, simple)
  {
    var m0 := Merge(config, simple);
    var m1 := DisplayUrlStage(m0);
    var m2 := PublicFolderStage(m1);
    SameSlug(config, m0, {"publish_mode"});
    SameSlug(m0, m1, {"display_url"});
    SameSlug(m1, m2, {"public_folder"});
    r := SlugStage(m2);
    if r.Ok? {
      UrlsCarried(config, m0, m1, m2, r.value, simple);
      PublicFolderCarried(config, m0, m1, m2, r.value);
      TopFrame(config, m0, m1, m2, r.value);
    }
  }

  /** A step that leaves `slug` alone leaves where the slug defaults go alone. */
  lemma SameSlug(a: Value, b: Value, keys: set<string>)
    requires Frame(a, b, keys) && "slug" !in keys
    ensures SlugBase(b) == SlugBase(a) && Get(b, "slug") == Get(a, "slug")
  {
    FrameGet(a, b, keys, "slug");
  }

  lemma TopFrame(config: Value, m0: Value, m1: Value, m2: Value, m3: Value)
    requires Frame(config, m0, {"publish_mode"}) && Frame(m0, m1, {"display_url"})
    requires Frame(m1, m2, {"public_folder"}) && Frame(m2, m3, {"slug"})
    ensures Frame(config, m3, TopKeys)
  {
    FrameWiden(config, m0, {"publish_mode"}, TopKeys);
    FrameWiden(m0, m1, {"display_url"}, TopKeys);
    FrameWiden(m1, m2, {"public_folder"}, TopKeys);
    FrameWiden(m2, m3, {"slug"}, TopKeys);
    FrameTrans(config, m0, m1, TopKeys);
    FrameTrans(config, m1, m2, TopKeys);
    FrameTrans(config, m2, m3, TopKeys);
  }

  // The top-level steps, one after another, give the top-level defaults.

  lemma UrlsCarried(config: Value, m0: Value, m1: Value, m2: Value, m3: Value, simple: Value)
    requires config.Obj? && Frame(config, m0, {"publish_mode"})
    requires Get(m0, "publish_mode") == if Has(config, "publish_mode") then Get(config, "publish_mode") else simple
    requires Frame(m0, m1, {"display_url"})
    requires Has(m1, "display_url") == (Has(m0, "display_url") || Truthy(Get(m0, "site_url")))
    requires Get(m1, "display_url") ==
      if !Truthy(Get(m0, "display_url")) && Truthy(Get(m0, "site_url")) then Get(m0, "site_url") else Get(m0, "display_url")
    requires Frame(m1, m2, {"public_folder"}) && Frame(m2, m3, {"slug"})
    ensures UrlsDefaulted(config, m3, simple)
  {
    FrameGet(config, m0, {"publish_mode"}, "display_url");
    FrameGet(config, m0, {"publish_mode"}, "site_url");
    FrameGet(m0, m1, {"display_url"}, "publish_mode");
    FrameGet(m1, m2, {"public_folder"}, "publish_mode");
    FrameGet(m1, m2, {"public_folder"}, "display_url");
    FrameGet(m2, m3, {"slug"}, "publish_mode");
    FrameGet(m2, m3, {"slug"}, "display_url");
  }

  lemma PublicFolderCarried(config: Value, m0: Value, m1: Value, m2: Value, m3: Value)
    requires config.Obj? && Frame(config, m0, {"publish_mode"}) && Frame(m0, m1, {"display_url"})
    requires Frame(m1, m2, {"public_folder"}) && Has(m2, "public_folder")
    requires Get(m2, "public_folder") ==
      if Has(m1, "public_folder") then Get(m1, "public_folder") else Str(DefaultPublicFolder(Get(m1, "media_folder")))
    requires Frame(m2, m3, {"slug"})
    ensures PublicFolderDefaulted(config, m3)
  {
    FrameGet(config, m0, {"publish_mode"}, "public_folder");
    FrameGet(config, m0, {"publish_mode"}, "media_folder");
    FrameGet(m0, m1, {"display_url"}, "public_folder");
    FrameGet(m0, m1, {"display_url"}, "media_folder");
    FrameGet(m2, m3, {"slug"}, "public_folder");
  }

  /** Every collection can be defaulted. */
  predicate AllDefaultable(cs: Value)
  {
    cs.List? && forall i :: 0 <= i < |cs.items| ==> CollectionDefaultable(cs.items[i])
  }

  /** `cs` is `cs0` with every collection defaulted, in order. */
  ghost predicate AllDefaulted(cs0: Value, cs: Value)
    requires AllDefaultable(cs0)
  {
    && cs.List? && |cs.items| == |cs0.items|
    && forall i :: 0 <= i < |cs0.items| ==> CollectionDefaulted(cs0.items[i], cs.items[i])
  }

  /** `map.set('collections', map.get('collections').map(...))`. */
  method CollectionsStage(m: Value) returns (r: Result<Value>)
    requires m.Obj?
    ensures r.Ok? <==> AllDefaultable(Get(m, "collections"))
    ensures r.Ok? ==> r.value.Obj? && Frame(m, r.value, {"collections"})
    ensures r.Ok? ==> AllDefaulted(Get(m, "collections"), Get(r.value, "collections"))
  {
    var cs := Get(m, "collections");
    if !cs.List? {
      return Err(TypeError("map.get(...).map is not a function"));
    }
    var out: seq<Value> := [];
    var i := 0;
    while i < |cs.items|
      invariant 0 <= i <= |cs.items| && |out| == i
      invariant forall j :: 0 <= j < i ==> CollectionDefaultable(cs.items[j])
      invariant forall j :: 0 <= j < i ==> CollectionDefaulted(cs.items[j], out[j])
    {
      var c := DefaultCollection(cs.items[i]);
      if c.Err? {
        return Err(c.error);
      }
      out := out + [c.value];
      i := i + 1;
    }
    FrameSet(m, "collections", List(out), {"collections"});
    return Ok(Set(m, "collections", List(out)));
  }

  /**
   * `applyDefaults(config)`: it succeeds exactly when the slug defaults can
   * be written and every collection can be defaulted; the result has the
   * top-level defaults, every collection defaulted in order, and every
   * other key of the configuration as it was.  `simple` is the simple
   * publish mode, whose value is not part of this model.
   */
  method ApplyDefaults(config: Value, simple: Value) returns (r: Result<Value>)
    requires config.Obj?
    ensures r.Ok? <==> SlugSettable(config) && AllDefaultable(Get(config, "collections"))
    ensures r.Ok? ==> r.value.Obj? && Frame(config, r.value, TopKeys + {"collections"})
    ensures r.Ok? ==> TopDefaulted(config, r.value, simple)
    ensures r.Ok? ==> AllDefaulted(Get(config, "collections"), Get(r.value, "collections"))
  {
    var top := TopStage(config, simple);
    if top.Err? {
      return top;
    }
    var m := top.value;
    FrameGet(config, m, TopKeys, "collections");
    r := CollectionsStage(m);
    if r.Ok? {
      KeptByCollections(config, m, r.value, simple);
    }
  }

  /** The collections stage keeps the top-level defaults. */
  lemma KeptByCollections(config: Value, m: Value, m': Value, simple: Value)
    requires Frame(config, m, TopKeys) && TopDefaulted(config, m, simple)
    requires Frame(m, m', {"collections"})
    ensures Frame(config, m', TopKeys + {"collections"}) && TopDefaulted(config, m', simple)
  {
    FrameGet(m, m', {"collections"}, "publish_mode");
    FrameGet(m, m', {"collections"}, "display_url");
    FrameGet(m, m', {"collections"}, "public_folder");
    FrameGet(m, m', {"collections"}, "slug");
    FrameWiden(config, m, TopKeys, TopKeys + {"collections"});
    FrameWiden(m, m', {"collections"}, TopKeys + {"collections"});
    FrameTrans(config, m, m', TopKeys + {"collections"});
  }
}

=== FILE: collections.dfy ===
/**
 * The per-collection part of `applyDefaults` (config.js): the callback of
 * `map.get('collections').map(...)`, one defaulting rule after another,
 * each reassigning `collection`.
 */
module Collections {
  import opened Values
  import opened Walker
  import opened Config

  /** The keys of a collection that `applyDefaults` may touch. */
  const TouchedKeys: set<string> :=
    {"publish", "folder", "media_folder", "public_folder", "fields", "meta", "nested", "files", "view_filters"}

  /** The keys the `folder` defaults may touch. */
  const FolderKeySet: set<string> := {"folder", "media_folder", "public_folder", "fields", "meta"}

  /** The keys the `files` defaults may touch. */
  const FilesKeySet: set<string> := {"nested", "meta", "files"}


  /** The `folder` defaults do not throw: the fields walk through, and the meta fields can be made. */
  predicate FolderDefaultable(c: Value)
  {
    Truthy(Get(c, "folder")) ==>
      WalkableList(Get(c, "fields"), false) && (Has(c, "meta") ==> MetaFields(Get(c, "meta")).Ok?)
  }

  /** The `files` defaults do not throw. */
  predicate FilesDefaultable(c: Value)
  {
    Truthy(Get(c, "files")) ==> DefaultFiles(Get(c, "files")).Ok?
  }

  /** The `view_filters` defaults do not throw. */
  predicate FiltersDefaultable(c: Value)
  {
    Has(c, "view_filters") ==> ViewFilters(Get(c, "view_filters")).Ok?
  }

  /** Whether a collection's defaults can be applied without a throw. */
  predicate CollectionDefaultable(c0: Value)
  {
    c0.Obj? && FolderDefaultable(c0) && FilesDefaultable(c0) && FiltersDefaultable(c0)
  }

  // ---------------------------------------------------------------------------
  // The defaulting rules, in the order the callback applies them

  /** `publish` defaults to `true`. */
  function PublishDefault(c0: Value): (c: Value)
    requires c0.Obj?
    ensures c.Obj? && Has(c, "publish")
    ensures Get(c, "publish") == if Has(c0, "publish") then Get(c0, "publish") else Bool(true)
    ensures Frame(c0, c, {"publish"})
  {
    if !Has(c0, "publish") then
      FrameSet(c0, "publish", Bool(true), {"publish"});
      Set(c0, "publish", Bool(true))
    else c0
  }

  /** The folder defaults of a collection with a truthy `folder`: `media_folder`, `public_folder`, `folder`. */
  function FolderKeys(c0: Value): (c: Value)
    requires c0.Obj?
    ensures c.Obj?
    ensures Get(c, "folder") == Str(FolderName(Get(c0, "folder")))
    ensures Get(c, "media_folder") ==
      (if Has(c0, "path") && !Has(c0, "media_folder") then Str("") else Get(c0, "media_folder"))
    ensures Get(c, "public_folder") ==
      (if !Has(c0, "public_folder") && (Has(c0, "media_folder") || Has(c0, "path"))
       then Get(c, "media_folder") else Get(c0, "public_folder"))
    ensures Frame(c0, c, {"folder", "media_folder", "public_folder"})
  {
    var keys := {"folder", "media_folder", "public_folder"};
    var c1 := if Has(c0, "path") && !Has(c0, "media_folder") then Set(c0, "media_folder", Str("")) else c0;
    FrameSet(c0, "media_folder", Str(""), keys);
    var c2 := SetDefaultPublicFolder(c1);
    FrameSet(c1, "public_folder", Get(c1, "media_folder"), keys);
    FrameTrans(c0, c1, c2, keys);
    var c3 := Set(c2, "folder", Str(FolderName(Get(c0, "folder"))));
    FrameSet(c2, "folder", Str(FolderName(Get(c0, "folder"))), keys);
    FrameTrans(c0, c2, c3, keys);
    c3
  }

  /** The field defaults of a folder collection: the walk, then the meta fields in front (or an empty `meta`). */
  method FolderFields(c0: Value) returns (r: Result<Value>)
    requires c0.Obj?
    ensures r.Ok? <==> WalkableList(Get(c0, "fields"), false) && (Has(c0, "meta") ==> MetaFields(Get(c0, "meta")).Ok?)
    ensures r.Ok? ==> (r.value.Obj?
      && Get(r.value, "fields") ==
           (if Has(c0, "meta")
            then List(MetaFields(Get(c0, "meta")).value + DefaultedList(Get(c0, "fields")).items)
            else DefaultedList(Get(c0, "fields")))
      && Get(r.value, "meta") == (if Has(c0, "meta") then Get(c0, "meta") else EmptyObj())
      && Frame(c0, r.value, {"fields", "meta"}))
  {
    var keys := {"fields", "meta"};
    var c := c0;
    DefaultsTraverse(Get(c, "fields"), "");
    var walked := Traverse<()>((), Get(c, "fields"), PublicFolderUpdater(), NeverDone(), "");
    if walked.out.Err? {
      return Err(walked.out.error);
    }
    c := Set(c, "fields", walked.out.value);
    FrameSet(c0, "fields", walked.out.value, keys);
    ghost var c1 := c;
    if Has(c, "meta") {
      var fields := Get(c, "fields");
      var metaFields := CollectMetaFields(Get(c, "meta"));
      if metaFields.Err? {
        return Err(metaFields.error);
      }
      c := Set(c, "fields", List(metaFields.value + fields.items));
      FrameSet(c1, "fields", List(metaFields.value + fields.items), keys);
    } else {
      c := Set(c, "meta", EmptyObj());
      FrameSet(c1, "meta", EmptyObj(), keys);
    }
    FrameTrans(c0, c1, c, keys);
    return Ok(c);
  }

  /** A `files` collection loses `nested` and `meta`, and every file gets its defaults. */
  function FilesKeys(c0: Value): (r: Result<Value>)
    requires c0.Obj?
    ensures r.Ok? <==> DefaultFiles(Get(c0, "files")).Ok?
    ensures r.Ok? ==> (r.value.Obj? && !Has(r.value, "nested") && !Has(r.value, "meta")
      && Has(r.value, "files") && DefaultFiles(Get(c0, "files")) == Ok(Get(r.value, "files"))
      && Frame(c0, r.value, FilesKeySet))
  {
    var defaulted := DefaultFiles(Get(c0, "files"));
    if defaulted.Err? then Err(defaulted.error)
    else
      var c1 := Delete(c0, "nested");
      FrameDelete(c0, "nested", FilesKeySet);
      var c2 := Delete(c1, "meta");
      FrameDelete(c1, "meta", FilesKeySet);
      FrameTrans(c0, c1, c2, FilesKeySet);
      var c3 := Set(c2, "files", defaulted.value);
      FrameSet(c2, "files", defaulted.value, FilesKeySet);
      FrameTrans(c0, c2, c3, FilesKeySet);
      Ok(c3)
  }

  /** `view_filters` defaults to an empty list; each present filter gets its `id`. */
  function ViewFiltersKey(c0: Value): (r: Result<Value>)
    requires c0.Obj?
    ensures r.Ok? <==> (Has(c0, "view_filters") ==> ViewFilters(Get(c0, "view_filters")).Ok?)
    ensures r.Ok? ==> (r.value.Obj?
      && Get(r.value, "view_filters") ==
           (if Has(c0, "view_filters") then ViewFilters(Get(c0, "view_filters")).value else List([]))
      && Frame(c0, r.value, {"view_filters"}))
  {
    if !Has(c0, "view_filters") then
      FrameSet(c0, "view_filters", List([]), {"view_filters"});
      Ok(Set(c0, "view_filters", List([])))
    else
      var filters := ViewFilters(Get(c0, "view_filters"));
      if filters.Err? then Err(filters.error)
      else
        FrameSet(c0, "view_filters", filters.value, {"view_filters"});
        Ok(Set(c0, "view_filters", filters.value))
  }


  // ---------------------------------------------------------------------------
  // What the defaults make of a collection

  /** `publish` defaults to `true`. */
  ghost predicate PublishDefaulted(c0: Value, c: Value)
  {
    Get(c, "publish") == if Has(c0, "publish") then Get(c0, "publish") else Bool(true)
  }

  /**
   * With a truthy `folder`: the folder trimmed of slashes, `media_folder`
   * defaulted to `''` for a `path`, a missing `public_folder` copied from
   * the (defaulted) `media_folder`.  Without one, these keys do not change.
   */
  ghost predicate FolderPathsDefaulted(c0: Value, c: Value)
  {
    var folder := Get(c0, "folder");
    && (Truthy(folder) ==>
          && Get(c, "folder") == Str(FolderName(folder))
          && Get(c, "media_folder") ==
               (if Has(c0, "path") && !Has(c0, "media_folder") then Str("") else Get(c0, "media_folder"))
          && Get(c, "public_folder") ==
               (if !Has(c0, "public_folder") && (Has(c0, "media_folder") || Has(c0, "path"))
                then Get(c, "media_folder") else Get(c0, "public_folder")))
    && (!Truthy(folder) ==>
          && Get(c, "folder") == folder
          && Get(c, "media_folder") == Get(c0, "media_folder") && Get(c, "public_folder") == Get(c0, "public_folder"))
  }

  /**
   * With a truthy `folder`: the meta fields in front of the defaulted
   * fields, and (for a collection without `files`) `meta` at least an empty
   * map.  Without one, `fields` does not change.
   */
  ghost predicate FolderFieldsDefaulted(c0: Value, c: Value)
    requires FolderDefaultable(c0)
  {
    var folder := Get(c0, "folder");
    var files := Get(c0, "files");
    && (Truthy(folder) ==>
          && Get(c, "fields") ==
               (if Has(c0, "meta")
                then List(MetaFields(Get(c0, "meta")).value + DefaultedList(Get(c0, "fields")).items)
                else DefaultedList(Get(c0, "fields")))
          && (!Truthy(files) ==> Get(c, "meta") == if Has(c0, "meta") then Get(c0, "meta") else EmptyObj()))
    && (!Truthy(folder) ==>
          && Get(c, "fields") == Get(c0, "fields")
          && (!Truthy(files) ==> Get(c, "meta") == Get(c0, "meta")))
  }

  /** With truthy `files`: no `nested`, no `meta`, every file defaulted; otherwise those keys are kept. */
  ghost predicate FilesDefaulted(c0: Value, c: Value)
    requires FilesDefaultable(c0)
  {
    var files := Get(c0, "files");
    && (Truthy(files) ==> !Has(c, "nested") && !Has(c, "meta") && DefaultFiles(files) == Ok(Get(c, "files")))
    && (!Truthy(files) ==> Get(c, "nested") == Get(c0, "nested") && Get(c, "files") == files)
  }

  /** `view_filters` is an empty list by default, and every filter has its `id`. */
  ghost predicate FiltersDefaulted(c0: Value, c: Value)
    requires FiltersDefaultable(c0)
  {
    Get(c, "view_filters") ==
      (if Has(c0, "view_filters") then ViewFilters(Get(c0, "view_filters")).value else List([]))
  }

  /** What `applyDefaults` makes of one collection `c0`: `c` is the defaulted collection. */
  ghost predicate CollectionDefaulted(c0: Value, c: Value)
    requires CollectionDefaultable(c0)
  {
    && c.Obj?
    && PublishDefaulted(c0, c)
    && FolderPathsDefaulted(c0, c)
    && FolderFieldsDefaulted(c0, c)
    && FilesDefaulted(c0, c)
    && FiltersDefaulted(c0, c)
    && Frame(c0, c, TouchedKeys)
  }

  // ---------------------------------------------------------------------------
  // The stages and the whole callback

  /** What the `folder` stage makes of `c`. */
  ghost predicate FolderStaged(c: Value, c': Value)
    requires FolderDefaultable(c)
  {
    && c'.Obj? && Frame(c, c', FolderKeySet)
    && FolderPathsDefaulted(c, c') && FolderFieldsDefaulted(c, c')
  }

  /** What the `files` stage makes of `c`. */
  ghost predicate FilesStaged(c: Value, c': Value)
    requires FilesDefaultable(c)
  {
    && c'.Obj? && Frame(c, c', FilesKeySet) && FilesDefaulted(c, c')
    && (!Truthy(Get(c, "files")) ==> c' == c)
  }

  /** What the `view_filters` stage makes of `c`. */
  ghost predicate FiltersStaged(c: Value, c': Value)
    requires FiltersDefaultable(c)
  {
    c'.Obj? && Frame(c, c', {"view_filters"}) && FiltersDefaulted(c, c')
  }

  /** The defaults that apply only to a collection with a truthy `folder`. */
  method FolderStage(c: Value) returns (r: Result<Value>)
    requires c.Obj?
    ensures r.Ok? <==> FolderDefaultable(c)
    ensures r.Ok? ==> FolderStaged(c, r.value)
  {
    if !Truthy(Get(c, "folder")) {
      return Ok(c);
    }
    var keyed := FolderKeys(c);
    FrameGet(c, keyed, {"folder", "media_folder", "public_folder"}, "fields");
    FrameGet(c, keyed, {"folder", "media_folder", "public_folder"}, "meta");
    r := FolderFields(keyed);
    if r.Ok? {
      FrameGet(keyed, r.value, {"fields", "meta"}, "folder");
      FrameGet(keyed, r.value, {"fields", "meta"}, "media_folder");
      FrameGet(keyed, r.value, {"fields", "meta"}, "public_folder");
      FrameWiden(c, keyed, {"folder", "media_folder", "public_folder"}, FolderKeySet);
      FrameWiden(keyed, r.value, {"fields", "meta"}, FolderKeySet);
      FrameTrans(c, keyed, r.value, FolderKeySet);
    }
  }

  /** The defaults that apply only to a collection with truthy `files`. */
  method FilesStage(c: Value) returns (r: Result<Value>)
    requires c.Obj?
    ensures r.Ok? <==> FilesDefaultable(c)
    ensures r.Ok? ==> FilesStaged(c, r.value)
  {
    if Truthy(Get(c, "files")) {
      r := FilesKeys(c);
    } else {
      r := Ok(c);
    }
  }

  /** The `view_filters` stage. */
  method FiltersStage(c: Value) returns (r: Result<Value>)
    requires c.Obj?
    ensures r.Ok? <==> FiltersDefaultable(c)
    ensures r.Ok? ==> FiltersStaged(c, r.value)
  {
    r := ViewFiltersKey(c);
  }

  /**
   * The callback of `map.get('collections').map(...)` in `applyDefaults`:
   * it succeeds exactly on a defaultable collection, and then gives the
   * defaulted collection.
   */
  method DefaultCollection(c0: Value) returns (r: Result<Value>)
    ensures r.Ok? <==> CollectionDefaultable(c0)
    ensures r.Ok? ==> CollectionDefaulted(c0, r.value)
  {
    if !c0.Obj? {
      return Err(TypeError("collection.has is not a function"));
    }
    var c1 := PublishDefault(c0);
    DefaultableKept(c0, c1, {"publish"});
    var s2 := FolderStage(c1);
    if s2.Err? {
      return s2;
    }
    var c2 := s2.value;
    DefaultableKept(c1, c2, FolderKeySet);
    var s3 := FilesStage(c2);
    if s3.Err? {
      return s3;
    }
    var c3 := s3.value;
    DefaultableKept(c2, c3, FilesKeySet);
    r := FiltersStage(c3);
    if r.Ok? {
      StagesDefaulted(c0, c1, c2, c3, r.value);
    }
  }

  /** The four stages, one after another, give the defaulted collection. */
  lemma StagesDefaulted(c0: Value, c1: Value, c2: Value, c3: Value, c4: Value)
    requires c0.Obj? && c1 == PublishDefault(c0) && CollectionDefaultable(c0)
    requires FolderDefaultable(c1) && FolderStaged(c1, c2)
    requires FilesDefaultable(c2) && FilesStaged(c2, c3)
    requires FiltersDefaultable(c3) && FiltersStaged(c3, c4)
    ensures CollectionDefaulted(c0, c4)
  {
    FrameWiden(c2, c3, FilesKeySet, FilesKeySet + {"view_filters"});
    FrameWiden(c3, c4, {"view_filters"}, FilesKeySet + {"view_filters"});
    FrameTrans(c2, c3, c4, FilesKeySet + {"view_filters"});
    FrameWiden(c1, c2, FolderKeySet, TouchedKeys - {"publish"});
    FrameWiden(c2, c4, FilesKeySet + {"view_filters"}, TouchedKeys - {"publish"});
    FrameTrans(c1, c2, c4, TouchedKeys - {"publish"});
    var early := FolderKeySet + {"publish"};
    FrameWiden(c0, c1, {"publish"}, early);
    FrameWiden(c1, c2, FolderKeySet, early);
    FrameTrans(c0, c1, c2, early);
    var notFilters := TouchedKeys - {"view_filters"};
    FrameWiden(c0, c2, early, notFilters);
    FrameWiden(c2, c3, FilesKeySet, notFilters);
    FrameTrans(c0, c2, c3, notFilters);
    PublishCarried(c0, c1, c4);
    FolderPathsCarried(c0, c1, c2, c4);
    FolderFieldsCarried(c0, c1, c2, c3, c4);
    FilesCarried(c0, c2, c3, c4);
    FiltersCarried(c0, c3, c4);
    FrameWiden(c0, c1, {"publish"}, TouchedKeys);
    FrameWiden(c1, c4, TouchedKeys - {"publish"}, TouchedKeys);
    FrameTrans(c0, c1, c4, TouchedKeys);
  }

  /** What one stage keeps of the keys the later stages and the defaulted collection look at. */
  lemma KeptByStage(a: Value, b: Value, keys: set<string>)
    requires Frame(a, b, keys)
    ensures "publish" !in keys ==> Get(b, "publish") == Get(a, "publish")
    ensures "folder" !in keys ==> Get(b, "folder") == Get(a, "folder")
    ensures "path" !in keys ==> Has(b, "path") == Has(a, "path")
    ensures "media_folder" !in keys ==> Has(b, "media_folder") == Has(a, "media_folder") && Get(b, "media_folder") == Get(a, "media_folder")
    ensures "public_folder" !in keys ==> Has(b, "public_folder") == Has(a, "public_folder") && Get(b, "public_folder") == Get(a, "public_folder")
    ensures "fields" !in keys ==> Get(b, "fields") == Get(a, "fields")
    ensures "meta" !in keys ==> Has(b, "meta") == Has(a, "meta") && Get(b, "meta") == Get(a, "meta")
    ensures "nested" !in keys ==> Has(b, "nested") == Has(a, "nested") && Get(b, "nested") == Get(a, "nested")
    ensures "files" !in keys ==> Get(b, "files") == Get(a, "files")
    ensures "view_filters" !in keys ==> Has(b, "view_filters") == Has(a, "view_filters") && Get(b, "view_filters") == Get(a, "view_filters")
  {
    if "publish" !in keys { FrameGet(a, b, keys, "publish"); }
    if "folder" !in keys { FrameGet(a, b, keys, "folder"); }
    if "path" !in keys { FrameGet(a, b, keys, "path"); }
    if "media_folder" !in keys { FrameGet(a, b, keys, "media_folder"); }
    if "public_folder" !in keys { FrameGet(a, b, keys, "public_folder"); }
    if "fields" !in keys { FrameGet(a, b, keys, "fields"); }
    if "meta" !in keys { FrameGet(a, b, keys, "meta"); }
    if "nested" !in keys { FrameGet(a, b, keys, "nested"); }
    if "files" !in keys { FrameGet(a, b, keys, "files"); }
    if "view_filters" !in keys { FrameGet(a, b, keys, "view_filters"); }
  }

  /** A stage that leaves the keys a later stage reads alone does not change whether that stage throws. */
  lemma DefaultableKept(a: Value, b: Value, keys: set<string>)
    requires Frame(a, b, keys)
    ensures keys !! {"folder", "fields", "meta"} ==> FolderDefaultable(b) == FolderDefaultable(a)
    ensures "files" !in keys ==> FilesDefaultable(b) == FilesDefaultable(a)
    ensures "view_filters" !in keys ==> FiltersDefaultable(b) == FiltersDefaultable(a)
  {
    KeptByStage(a, b, keys);
  }

  // Each property of the defaulted collection, carried from the stage that
  // establishes it to the original collection and the final one.

  lemma PublishCarried(c0: Value, c1: Value, c4: Value)
    requires c0.Obj? && c1 == PublishDefault(c0)
    requires Frame(c1, c4, TouchedKeys - {"publish"})
    ensures PublishDefaulted(c0, c4)
  {
    FrameGet(c1, c4, TouchedKeys - {"publish"}, "publish");
  }

  lemma FolderPathsCarried(c0: Value, c1: Value, c2: Value, c4: Value)
    requires Frame(c0, c1, {"publish"}) && FolderPathsDefaulted(c1, c2)
    requires Frame(c2, c4, FilesKeySet + {"view_filters"})
    ensures FolderPathsDefaulted(c0, c4)
  {
    KeptByStage(c0, c1, {"publish"});
    KeptByStage(c2, c4, FilesKeySet + {"view_filters"});
  }

  lemma FolderFieldsCarried(c0: Value, c1: Value, c2: Value, c3: Value, c4: Value)
    requires Frame(c0, c1, {"publish"}) && FolderDefaultable(c0) && FolderDefaultable(c1)
    requires FolderFieldsDefaulted(c1, c2) && Frame(c1, c2, FolderKeySet)
    requires Frame(c2, c3, FilesKeySet) && (!Truthy(Get(c2, "files")) ==> c3 == c2)
    requires Frame(c3, c4, {"view_filters"})
    ensures FolderFieldsDefaulted(c0, c4)
  {
    KeptByStage(c0, c1, {"publish"});
    KeptByStage(c1, c2, FolderKeySet);
    KeptByStage(c2, c3, FilesKeySet);
    KeptByStage(c3, c4, {"view_filters"});
  }

  lemma FilesCarried(c0: Value, c2: Value, c3: Value, c4: Value)
    requires Frame(c0, c2, FolderKeySet + {"publish"})
    requires FilesDefaultable(c0) && FilesDefaultable(c2) && FilesDefaulted(c2, c3)
    requires Frame(c3, c4, {"view_filters"})
    ensures FilesDefaulted(c0, c4)
  {
    KeptByStage(c0, c2, FolderKeySet + {"publish"});
    KeptByStage(c3, c4, {"view_filters"});
  }

  lemma FiltersCarried(c0: Value, c3: Value, c4: Value)
    requires Frame(c0, c3, TouchedKeys - {"view_filters"})
    requires FiltersDefaultable(c0) && FiltersDefaultable(c3) && FiltersDefaulted(c3, c4)
    ensures FiltersDefaulted(c0, c4)
  {
    KeptByStage(c0, c3, TouchedKeys - {"view_filters"});
  }
}

=== FILE: config.dfy ===
/**
 * The defaulting pass over a loaded CMS configuration (config.js):
 * `setDefaultPublicFolder` on one map, the field-tree walk that applies it
 * to every field, and `applyDefaults` over the whole configuration.
 */
module Config {
  import opened Values
  import opened Strings
  import opened Walker

  /** `setDefaultPublicFolder(map)`: copy `media_folder` into a missing `public_folder`. */
  function SetDefaultPublicFolder(m: Value): (r: Value)
    requires m.Obj?
    ensures r.Obj?
    ensures Has(m, "media_folder") && !Has(m, "public_folder") ==>
      Has(r, "public_folder") && Get(r, "public_folder") == Get(m, "media_folder")
      && forall k :: k != "public_folder" ==> Has(r, k) == Has(m, k) && Get(r, k) == Get(m, k)
    ensures !(Has(m, "media_folder") && !Has(m, "public_folder")) ==> r == m
  {
    if Has(m, "media_folder") && !Has(m, "public_folder") then Set(m, "public_folder", Get(m, "media_folder"))
    else m
  }

  /** Applying the default twice is applying it once. */
  lemma SetDefaultPublicFolderIdempotent(m: Value)
    requires m.Obj?
    ensures SetDefaultPublicFolder(SetDefaultPublicFolder(m)) == SetDefaultPublicFolder(m)
  {
  }

  /** The walk's updater: no state, every field gets its own default. */
  function PublicFolderUpdater(): Updater<()>
  {
    (u: (), f: Value, p: string) => ((), if f.Obj? then SetDefaultPublicFolder(f) else f)
  }

  function NeverDone(): (()) -> bool
  {
    (u: ()) => false
  }

  lemma PublicFolderUpdaterKeepsChildren()
    ensures KeepsChildren(PublicFolderUpdater())
  {
  }

  // ---------------------------------------------------------------------------
  // What the walk with `setDefaultPublicFolder` makes of a field tree

  /**
   * The tree with every field defaulted from ITS OWN `media_folder`: a
   * field's default never looks at the collection's or a parent's folder.
   */
  function DefaultedList(v: Value): Value
    requires WalkableList(v, false)
    decreases v, 2
  {
    List(DefaultedItems(v.items))
  }

  function DefaultedItems(items: seq<Value>): (r: seq<Value>)
    requires WalkableItems(items, false)
    ensures |r| == |items|
    decreases items, 1
  {
    if items == [] then []
    else
      [DefaultedNode(items[0])] + DefaultedItems(items[1..])
  }

  function DefaultedNode(f: Value): Value
    requires WalkableNode(f, false)
    decreases f, 0
  {
    var g := SetDefaultPublicFolder(f);
    if Has(f, "fields") then
      GetSmaller(f, "fields");
      Set(g, "fields", DefaultedList(Get(f, "fields")))
    else if Has(f, "types") then
      GetSmaller(f, "types");
      Set(g, "types", DefaultedList(Get(f, "types")))
    else g
  }

  /**
   * The walk `traverseFields(fields, setDefaultPublicFolder)` succeeds
   * exactly on the trees it can get through, and then gives the tree with
   * every field defaulted from its own `media_folder`.
   */
  lemma {:induction false} DefaultsTraverse(v: Value, prefix: string)
    ensures KeepsChildren(PublicFolderUpdater())
    ensures Traverse<()>((), v, PublicFolderUpdater(), NeverDone(), prefix).out.Ok? <==> WalkableList(v, false)
    ensures WalkableList(v, false) ==>
      Traverse<()>((), v, PublicFolderUpdater(), NeverDone(), prefix).out == Ok(DefaultedList(v))
    decreases v, 2
  {
    PublicFolderUpdaterKeepsChildren();
    if v.List? {
      DefaultsItems(v.items, prefix);
    }
  }

  lemma DefaultsStep(items: seq<Value>, prefix: string)
    requires items != []
    requires KeepsChildren(PublicFolderUpdater())
    requires VisitNode<()>((), items[0], PublicFolderUpdater(), NeverDone(), prefix).out.Ok? <==> WalkableNode(items[0], false)
    requires WalkableNode(items[0], false) ==>
      VisitNode<()>((), items[0], PublicFolderUpdater(), NeverDone(), prefix).out == Ok(DefaultedNode(items[0]))
    requires MapItems<()>((), items[1..], PublicFolderUpdater(), NeverDone(), prefix).1.Ok? <==> WalkableItems(items[1..], false)
    requires WalkableItems(items[1..], false) ==>
      MapItems<()>((), items[1..], PublicFolderUpdater(), NeverDone(), prefix).1 == Ok(DefaultedItems(items[1..]))
    ensures MapItems<()>((), items, PublicFolderUpdater(), NeverDone(), prefix).1.Ok? <==> WalkableItems(items, false)
    ensures WalkableItems(items, false) ==>
      MapItems<()>((), items, PublicFolderUpdater(), NeverDone(), prefix).1 == Ok(DefaultedItems(items))
  {
    MapItemsCons<()>((), items, PublicFolderUpdater(), NeverDone(), prefix);
    var first := VisitNode<()>((), items[0], PublicFolderUpdater(), NeverDone(), prefix);
    assert first.state == ();
    assert WalkableItems(items, false) <==> WalkableNode(items[0], false) && WalkableItems(items[1..], false);
    if WalkableItems(items, false) {
      assert DefaultedItems(items) == [DefaultedNode(items[0])] + DefaultedItems(items[1..]);
    }
  }

  lemma {:induction false} DefaultsItems(items: seq<Value>, prefix: string)
    ensures KeepsChildren(PublicFolderUpdater())
    ensures MapItems<()>((), items, PublicFolderUpdater(), NeverDone(), prefix).1.Ok? <==> WalkableItems(items, false)
    ensures WalkableItems(items, false) ==>
      MapItems<()>((), items, PublicFolderUpdater(), NeverDone(), prefix).1 == Ok(DefaultedItems(items))
    decreases items, 1
  {
    PublicFolderUpdaterKeepsChildren();
    if items != [] {
      DefaultsNode(items[0], prefix);
      DefaultsItems(items[1..], prefix);
      DefaultsStep(items, prefix);
    }
  }

  lemma {:induction false} DefaultsNode(f: Value, prefix: string)
    ensures KeepsChildren(PublicFolderUpdater())
    ensures VisitNode<()>((), f, PublicFolderUpdater(), NeverDone(), prefix).out.Ok? <==> WalkableNode(f, false)
    ensures WalkableNode(f, false) ==>
      VisitNode<()>((), f, PublicFolderUpdater(), NeverDone(), prefix).out == Ok(DefaultedNode(f))
    decreases f, 0
  {
    PublicFolderUpdaterKeepsChildren();
    if f.Obj? {
      var g := SetDefaultPublicFolder(f);
      assert PublicFolderUpdater()((), f, NodePath(prefix, f)) == ((), g);
      var cp := ChildPrefix(prefix, g);
      if Has(f, "fields") {
        GetSmaller(f, "fields");
        DefaultsTraverse(Get(f, "fields"), cp);
      } else if Has(f, "types") {
        GetSmaller(f, "types");
        DefaultsTraverse(Get(f, "types"), cp);
      }
    }
  }

  // ---------------------------------------------------------------------------
  // Lists mapped by a callback that may throw

  /**
   * `items.map(f)`, or a `forEach` that pushes `f` of each item, where `f`
   * may throw: the first throw wins, otherwise every item is mapped in order.
   */
  function MapAll<A>(items: seq<A>, f: A -> Result<Value>): (r: Result<seq<Value>>)
    ensures r.Ok? <==> forall i :: 0 <= i < |items| ==> f(items[i]).Ok?
    ensures r.Ok? ==> |r.value| == |items| && forall i :: 0 <= i < |items| ==> f(items[i]) == Ok(r.value[i])
  {
    if items == [] then Ok([])
    else
      var n := |items| - 1;
      var init := items[..n];
      var front := MapAll(init, f);
      var last := f(items[n]);
      assert forall i :: 0 <= i < n ==> init[i] == items[i];
      if front.Err? then front
      else if last.Err? then Err(last.error)
      else
        var r := front.value + [last.value];
        assert forall i :: 0 <= i < n ==> r[i] == front.value[i];
        Ok(r)
  }

  /** The throw that ends `MapAll` is that of the first item that throws. */
  lemma {:induction false} MapAllFirstError<A>(items: seq<A>, f: A -> Result<Value>)
    requires MapAll(items, f).Err?
    ensures exists i :: (0 <= i < |items| && f(items[i]) == Err(MapAll(items, f).error)
      && forall j :: 0 <= j < i ==> f(items[j]).Ok?)
  {
    var n := |items| - 1;
    var init := items[..n];
    assert forall i :: 0 <= i < n ==> init[i] == items[i];
    if MapAll(init, f).Err? {
      MapAllFirstError(init, f);
      var i :| 0 <= i < n && f(init[i]) == Err(MapAll(init, f).error) && forall j :: 0 <= j < i ==> f(init[j]).Ok?;
      assert f(items[i]) == Err(MapAll(items, f).error);
    } else {
      assert f(items[n]) == Err(MapAll(items, f).error);
    }
  }

  /** Mapping one more item: the earlier throw, else this item's throw, else one more result. */
  lemma MapAllPrefix<A>(items: seq<A>, i: nat, f: A -> Result<Value>)
    requires i < |items|
    ensures var front := MapAll(items[..i], f);
      MapAll(items[..i + 1], f) ==
        if front.Err? then front
        else if f(items[i]).Err? then Err(f(items[i]).error)
        else Ok(front.value + [f(items[i]).value])
  {
    assert items[..i + 1][..i] == items[..i];
  }

  /** Once a prefix throws, mapping more items throws the same error. */
  lemma {:induction false} MapAllErrPrefix<A>(items: seq<A>, i: nat, f: A -> Result<Value>)
    requires i <= |items| && MapAll(items[..i], f).Err?
    ensures MapAll(items, f) == MapAll(items[..i], f)
    decreases |items| - i
  {
    if i < |items| {
      var n := |items| - 1;
      assert items[..n][..i] == items[..i];
      MapAllErrPrefix(items[..n], i, f);
    } else {
      assert items[..i] == items;
    }
  }

  // ---------------------------------------------------------------------------
  // Meta fields

  /** The `(value, key)` pairs `forEach` visits: a map's entries, or a list's items with their indices. */
  function ForEachPairs(v: Value): (r: Option<seq<(Value, Value)>>)
    ensures v.Obj? ==> (r.Some? && |r.value| == |v.keys|
      && forall i :: 0 <= i < |v.keys| ==> r.value[i] == (Str(v.keys[i]), Get(v, v.keys[i])))
    ensures v.List? ==> (r.Some? && |r.value| == |v.items|
      && forall i :: 0 <= i < |v.items| ==> r.value[i] == (Num(i), v.items[i]))
    ensures !v.Obj? && !v.List? ==> r.None?
  {
    match v
    case Obj(keys, _) => Some(seq(|keys|, i requires 0 <= i < |keys| => (Str(keys[i]), Get(v, keys[i]))))
    case List(items) => Some(seq(|items|, i requires 0 <= i < |items| => (Num(i), items[i])))
    case _ => None
  }

  /** One meta field: the meta entry's map with `name`, `meta` and `required` set. */
  function MetaField(key: Value, value: Value): (r: Result<Value>)
    ensures value.Obj? <==> r.Ok?
    ensures r.Err? ==> r.error == TypeError("value.withMutations is not a function")
  {
    if value.Obj? then Ok(Set(Set(Set(value, "name", key), "meta", Bool(true)), "required", Bool(true)))
    else Err(TypeError("value.withMutations is not a function"))
  }

  /** A meta field is its meta entry with `name` the entry's key and `meta` and `required` true. */
  lemma MetaFieldSpec(key: Value, value: Value)
    requires value.Obj?
    ensures var r := MetaField(key, value).value;
      && r.Obj? && Get(r, "name") == key && Get(r, "meta") == Bool(true) && Get(r, "required") == Bool(true)
      && forall k :: k != "name" && k != "meta" && k != "required" ==> Has(r, k) == Has(value, k) && Get(r, k) == Get(value, k)
  {
  }

  /** `MetaField` on one `(key, value)` pair. */
  function MetaFieldOfPair(p: (Value, Value)): (r: Result<Value>)
    ensures r == MetaField(p.0, p.1)
  {
    MetaField(p.0, p.1)
  }

  /** The meta fields built from a collection's `meta`, in `meta` order. */
  function MetaFields(meta: Value): (r: Result<seq<Value>>)
    ensures ForEachPairs(meta).None? ==> r == Err(TypeError("meta.forEach is not a function"))
    ensures ForEachPairs(meta).Some? ==> r == MapAll(ForEachPairs(meta).value, MetaFieldOfPair)
  {
    match ForEachPairs(meta)
    case None => Err(TypeError("meta.forEach is not a function"))
    case Some(pairs) => MapAll(pairs, MetaFieldOfPair)
  }

  /** The `forEach` of `applyDefaults` that pushes one meta field per meta entry. */
  method CollectMetaFields(meta: Value) returns (r: Result<seq<Value>>)
    ensures r == MetaFields(meta)
  {
    var pairs := ForEachPairs(meta);
    if pairs.None? {
      return Err(TypeError("meta.forEach is not a function"));
    }
    var metaFields: seq<Value> := [];
    var i := 0;
    while i < |pairs.value|
      invariant 0 <= i <= |pairs.value|
      invariant MapAll(pairs.value[..i], MetaFieldOfPair) == Ok(metaFields)
    {
      MapAllPrefix(pairs.value, i, MetaFieldOfPair);
      var field := MetaFieldOfPair(pairs.value[i]);
      if field.Err? {
        MapAllErrPrefix(pairs.value, i + 1, MetaFieldOfPair);
        return Err(field.error);
      }
      metaFields := metaFields + [field.value];
      i := i + 1;
    }
    assert pairs.value[..i] == pairs.value;
    return Ok(metaFields);
  }

  // ---------------------------------------------------------------------------
  // View filters and files

  /** `trim(folder, '/')`. */
  function FolderName(folder: Value): string
  {
    Trim(LodashString(folder), '/')
  }

  /** `trimStart(file, '/')`. */
  function FileName(file: Value): string
  {
    TrimStart(LodashString(file), '/')
  }

  /** `${v.get('field')}__${v.get('pattern')}`. */
  function FilterId(v: Value): string
  {
    Stringify(Get(v, "field")) + "__" + Stringify(Get(v, "pattern"))
  }

  /** A collection folder neither starts nor ends with a slash after the defaults. */
  lemma FolderNameTrimmed(folder: Value)
    ensures var n := FolderName(folder); n == [] || (n[0] != '/' && n[|n| - 1] != '/')
    ensures folder.Str? && (folder.s == [] || (folder.s[0] != '/' && folder.s[|folder.s| - 1] != '/')) ==>
      FolderName(folder) == folder.s
  {
  }

  /** A file path never starts with a slash after the defaults. */
  lemma FileNameTrimmed(file: Value)
    ensures var n := FileName(file); n == [] || n[0] != '/'
    ensures file.Str? ==> var n := FileName(file);
      n == file.s[|file.s| - |n|..] && forall i :: 0 <= i < |file.s| - |n| ==> file.s[i] == '/'
  {
    TrimStartSpec(LodashString(file), '/');
  }

  /** A view filter with its `id` set to `${field}__${pattern}`. */
  function WithId(v: Value): (r: Result<Value>)
    ensures v.Obj? <==> r.Ok?
  {
    if v.Obj? then Ok(Set(v, "id", Str(FilterId(v))))
    else Err(TypeError("v.set is not a function"))
  }

  /** A filter's `id` is overwritten with `${field}__${pattern}`; nothing else changes. */
  lemma WithIdSpec(v: Value)
    requires v.Obj?
    ensures var r := WithId(v).value;
      && r.Obj? && Get(r, "id") == Str(FilterId(v))
      && forall k :: k != "id" ==> Has(r, k) == Has(v, k) && Get(r, k) == Get(v, k)
  {
  }

  function ViewFilters(vs: Value): (r: Result<Value>)
    ensures r.Ok? <==> vs.List? && forall i :: 0 <= i < |vs.items| ==> vs.items[i].Obj?
    ensures r.Ok? ==> (r.value.List? && |r.value.items| == |vs.items|
      && forall i :: 0 <= i < |vs.items| ==> WithId(vs.items[i]) == Ok(r.value.items[i]))
  {
    if !vs.List? then Err(TypeError("view_filters.map is not a function"))
    else
      var m := MapAll(vs.items, WithId);
      if m.Err? then Err(m.error) else Ok(List(m.value))
  }

  /** One entry of a `files` collection: leading slashes off `file`, defaults on it and on its fields. */
  function DefaultFile(file: Value): (r: Result<Value>)
    ensures r.Ok? <==> file.Obj? && WalkableList(Get(file, "fields"), false)
  {
    if !file.Obj? then Err(TypeError("file.set is not a function"))
    else
      var f1 := Set(file, "file", Str(FileName(Get(file, "file"))));
      var f2 := SetDefaultPublicFolder(f1);
      assert Get(f2, "fields") == Get(file, "fields");
      DefaultsTraverse(Get(f2, "fields"), "");
      var w := Traverse<()>((), Get(f2, "fields"), PublicFolderUpdater(), NeverDone(), "");
      if w.out.Err? then Err(w.out.error) else Ok(Set(f2, "fields", w.out.value))
  }

  /**
   * A defaulted file: `file` without leading slashes, a missing
   * `public_folder` from the file's own `media_folder`, every field
   * defaulted, nothing else changed.
   */
  lemma DefaultFileSpec(file: Value)
    requires file.Obj? && WalkableList(Get(file, "fields"), false)
    ensures var r := DefaultFile(file).value;
      && r.Obj?
      && Get(r, "file") == Str(FileName(Get(file, "file")))
      && Get(r, "fields") == DefaultedList(Get(file, "fields"))
      && Get(r, "public_folder") ==
           (if Has(file, "public_folder") then Get(file, "public_folder") else Get(file, "media_folder"))
      && forall k :: k != "file" && k != "fields" && k != "public_folder" ==> Has(r, k) == Has(file, k) && Get(r, k) == Get(file, k)
  {
    var f1 := Set(file, "file", Str(FileName(Get(file, "file"))));
    assert Get(f1, "fields") == Get(file, "fields");
    DefaultsTraverse(Get(file, "fields"), "");
  }

  function DefaultFiles(files: Value): (r: Result<Value>)
    ensures r.Ok? <==> files.List? && forall i :: 0 <= i < |files.items| ==> DefaultFile(files.items[i]).Ok?
    ensures r.Ok? ==> (r.value.List? && |r.value.items| == |files.items|
      && forall i :: 0 <= i < |files.items| ==> DefaultFile(files.items[i]) == Ok(r.value.items[i]))
  {
    if !files.List? then Err(TypeError("files.map is not a function"))
    else
      var m := MapAll(files.items, DefaultFile);
      if m.Err? then Err(m.error) else Ok(List(m.value))
  }

  // ---------------------------------------------------------------------------
  // Top-level defaults

  /**
   * `Map(defaults).mergeDeep(config)`: `publish_mode` first, defaulting to
   * the simple publish mode, then the configuration's own keys.
   */
  function Merge(config: Value, simple: Value): (r: Value)
    requires config.Obj?
    ensures r.Obj?
    ensures Get(r, "publish_mode") == if Has(config, "publish_mode") then Get(config, "publish_mode") else simple
    ensures forall k :: k != "publish_mode" ==> Has(r, k) == Has(config, k) && Get(r, k) == Get(config, k)
    ensures Frame(config, r, {"publish_mode"})
  {
    var pm := if Has(config, "publish_mode") then Get(config, "publish_mode") else simple;
    assert config.vals["publish_mode" := pm] - {"publish_mode"} == config.vals - {"publish_mode"};
    Obj(["publish_mode"] + RemoveKey(config.keys, "publish_mode"), config.vals["publish_mode" := pm])
  }

  /** The slug map the `setIn(['slug', key], ...)` defaults write into: the `slug` map, or a new one when `slug` is missing. */
  function SlugBase(m: Value): (r: Option<Value>)
    ensures r.Some? ==> r.value.Obj?
  {
    var slug := Get(m, "slug");
    if !Has(m, "slug") then Some(EmptyObj()) else if slug.Obj? then Some(slug) else None
  }

  /**
   * `if (!map.getIn(['slug', key])) map.setIn(['slug', key], value)`.  A
   * missing `slug` becomes a new map; a list is left as it is (a list
   * ignores a non-index key); any other value in the way throws.  The
   * nested values of the configuration are Immutable 3 collections (made by
   * `mergeDeep`), so that throw is Immutable 3's `invariant` failure, a
   * plain `Error` with the message `invalid keyPath`.
   */
  function SlugDefault(m: Value, key: string, value: Value): (r: Result<Value>)
    requires m.Obj?
    ensures r.Err? <==> !Truthy(Get(Get(m, "slug"), key)) && SlugBase(m).None? && !Get(m, "slug").List?
    ensures r.Err? ==> r.error == Thrown("invalid keyPath")
    ensures Get(m, "slug").List? || Truthy(Get(Get(m, "slug"), key)) ==> r == Ok(m)
    ensures r.Ok? ==> r.value.Obj? && Frame(m, r.value, {"slug"})
    ensures r.Ok? && SlugBase(m).Some? ==>
      var base := SlugBase(m).value;
      var slug := Get(r.value, "slug");
      && slug.Obj? && Frame(base, slug, {key})
      && Get(slug, key) == if Truthy(Get(base, key)) then Get(base, key) else value
  {
    var slug := Get(m, "slug");
    if Truthy(Get(slug, key)) then Ok(m)
    else if !Has(m, "slug") then
      FrameSet(m, "slug", Set(EmptyObj(), key, value), {"slug"});
      FrameSet(EmptyObj(), key, value, {key});
      Ok(Set(m, "slug", Set(EmptyObj(), key, value)))
    else if slug.Obj? then
      FrameSet(m, "slug", Set(slug, key, value), {"slug"});
      FrameSet(slug, key, value, {key});
      Ok(Set(m, "slug", Set(slug, key, value)))
    else if slug.List? then Ok(m)
    else Err(Thrown("invalid keyPath"))
  }
}

=== FILE: paths.dfy ===
/**
 * The parts of Node's `path` module (POSIX flavour) that the plugin relies
 * on: `join`, `basename`, `dirname` and the `dir`/`name`/`ext` of `parse`,
 * for `/`-separated paths.
 */
module Paths {
  import opened Strings

  /** One step of `normalizeString`: how a segment changes the resolved list. */
  function Step(acc: seq<string>, seg: string, absolute: bool): seq<string>
  {
    if seg == "" || seg == "." then acc
    else if seg == ".." then
      if acc != [] && acc[|acc| - 1] != ".." then acc[..|acc| - 1]
      else if absolute then acc
      else acc + [".."]
    else acc + [seg]
  }

  /** The segments left after `.`, empty segments and `..` are resolved. */
  function Resolve(segs: seq<string>, absolute: bool): (r: seq<string>)
    ensures forall j :: 0 <= j < |r| ==> r[j] != "" && r[j] != "."
    ensures (forall j :: 0 <= j < |segs| ==> '/' !in segs[j]) ==> forall j :: 0 <= j < |r| ==> '/' !in r[j]
  {
    if segs == [] then []
    else Step(Resolve(segs[..|segs| - 1], absolute), segs[|segs| - 1], absolute)
  }

  predicate EndsWithSlash(p: string) { p != [] && p[|p| - 1] == '/' }

  /** `path.normalize(p)`. */
  function Normalize(p: string): (r: string)
    ensures r != ""
  {
    if p == "" then "."
    else
      var absolute := p[0] == '/';
      var body := JoinWith(Resolve(Split(p, '/'), absolute), "/");
      if body == "" then
        if absolute then "/" else if EndsWithSlash(p) then "./" else "."
      else
        var withSlash := if EndsWithSlash(p) then body + "/" else body;
        if absolute then "/" + withSlash else withSlash
  }

  function NonEmpty(parts: seq<string>): (r: seq<string>)
    ensures forall j :: 0 <= j < |r| ==> r[j] != ""
  {
    if parts == [] then []
    else if parts[|parts| - 1] == "" then NonEmpty(parts[..|parts| - 1])
    else NonEmpty(parts[..|parts| - 1]) + [parts[|parts| - 1]]
  }

  /** `path.join(...parts)`: the non-empty parts joined with `/`, then normalised. */
  function Join(parts: seq<string>): (r: string)
    ensures r != ""
  {
    var joined := JoinWith(NonEmpty(parts), "/");
    if joined == "" then "." else Normalize(joined)
  }

  /** `path.basename(p)`: the last segment, trailing slashes ignored. */
  function Basename(p: string): (r: string)
    ensures '/' !in r
  {
    var q := TrimEnd(p, '/');
    var k := LastIndexOf(q, '/');
    var r := q[k + 1..];
    assert forall i :: 0 <= i < |r| ==> r[i] == q[k + 1 + i];
    r
  }

  /** The backwards scan of `path.dirname` for the slash that ends the directory part. */
  function DirEnd(p: string, i: int, matchedSlash: bool): (r: int)
    requires i < |p|
    ensures r == -1 || 1 <= r <= i
    decreases i
  {
    if i < 1 then -1
    else if p[i] == '/' then
      if !matchedSlash then i else DirEnd(p, i - 1, matchedSlash)
    else DirEnd(p, i - 1, false)
  }

  /** `path.dirname(p)`. */
  function Dirname(p: string): (r: string)
    ensures r != ""
  {
    if p == "" then "."
    else
      var hasRoot := p[0] == '/';
      var end := DirEnd(p, |p| - 1, true);
      if end == -1 then (if hasRoot then "/" else ".")
      else if hasRoot && end == 1 then "//"
      else p[..end]
  }

  /** The `dir` of `path.parse(p)`. */
  function ParseDir(p: string): string
  {
    var q := TrimEnd(p, '/');
    var k := LastIndexOf(q, '/');
    if k > 0 then p[..k]
    else if p != "" && p[0] == '/' then "/"
    else ""
  }

  /** The `ext` of `path.parse(p)`: from the last dot of the base name, unless that dot leads it. */
  function ParseExt(p: string): (r: string)
  {
    var base := Basename(p);
    var d := LastIndexOf(base, '.');
    if d <= 0 || base == ".." then "" else base[d..]
  }

  /** The `name` of `path.parse(p)`: the base name without its extension. */
  function ParseName(p: string): string
  {
    var base := Basename(p);
    var d := LastIndexOf(base, '.');
    if d <= 0 || base == ".." then base else base[..d]
  }

  // ---------------------------------------------------------------------------
  // Facts about these helpers

  predicate PlainSegment(b: string)
  {
    b != "" && b != "." && b != ".." && '/' !in b
  }

  /** The base name of `d/b` is `b` for a slash-free `b`, whatever `d` holds. */
  lemma BasenameOfChild(d: string, b: string)
    requires b != "" && '/' !in b
    ensures Basename(d + "/" + b) == b
    ensures Basename(b) == b
  {
    var p := d + "/" + b;
    assert p[|p| - 1] == b[|b| - 1];
    assert TrimEnd(p, '/') == p;
    assert TrimEnd(b, '/') == b;
    assert p[|d|] == '/';
    assert forall i :: |d| < i < |p| ==> p[i] == b[i - |d| - 1];
    assert LastIndexOf(p, '/') == |d|;
    assert LastIndexOf(b, '/') == -1;
    assert p[|d| + 1..] == b;
  }

  lemma {:induction false} DirEndOfChild(d: string, b: string, i: int)
    requires b != "" && '/' !in b && d != []
    requires |d| <= i < |d| + 1 + |b|
    ensures DirEnd(d + "/" + b, i, i == |d| + |b|) == |d|
    decreases i
  {
    var p := d + "/" + b;
    if i > |d| {
      assert p[i] == b[i - |d| - 1];
      DirEndOfChild(d, b, i - 1);
    }
  }

  /** The directory of `d/b` is `d`, for a slash-free `b` and a `d` that does not end in a slash. */
  lemma DirnameOfChild(d: string, b: string)
    requires b != "" && '/' !in b
    requires d != [] && d[|d| - 1] != '/'
    ensures Dirname(d + "/" + b) == d
  {
    var p := d + "/" + b;
    DirEndOfChild(d, b, |p| - 1);
    assert p[..|d|] == d;
  }

  lemma {:induction false} JoinWithNonEmpty(parts: seq<string>)
    requires forall j :: 0 <= j < |parts| ==> parts[j] != ""
    ensures JoinWith(parts, "/") == "" <==> parts == []
  {
  }

  /** Resolving a list that ends in a plain segment ends in that segment. */
  lemma ResolveAppend(segs: seq<string>, b: string, absolute: bool)
    requires PlainSegment(b)
    ensures Resolve(segs + [b], absolute) == Resolve(segs, absolute) + [b]
  {
    assert (segs + [b])[..|segs|] == segs;
  }

  lemma JoinWithAppend(parts: seq<string>, b: string)
    requires parts != []
    ensures JoinWith(parts + [b], "/") == JoinWith(parts, "/") + "/" + b
  {
    assert (parts + [b])[..|parts|] == parts;
  }

  lemma {:induction false} JoinWithLast(parts: seq<string>)
    requires parts != [] && parts[|parts| - 1] != "" && '/' !in parts[|parts| - 1]
    ensures JoinWith(parts, "/") != ""
    ensures !EndsWithSlash(JoinWith(parts, "/"))
  {
    var s := JoinWith(parts, "/");
    var last := parts[|parts| - 1];
    if |parts| > 1 {
      assert s == JoinWith(parts[..|parts| - 1], "/") + "/" + last;
    }
    assert s[|s| - 1] == last[|last| - 1];
  }

  lemma JoinTwo(dir: string, b: string)
    requires dir != [] && b != []
    ensures Join([dir, b]) == Normalize(dir + "/" + b)
  {
    assert [dir, b][..1] == [dir];
    assert [dir][..0] == [];
    assert NonEmpty([dir]) == [dir];
    assert NonEmpty([dir, b]) == [dir, b];
    assert JoinWith([dir, b], "/") == dir + "/" + b;
  }

  /** The normal form of an absolute path whose resolved segments are `R`, by whether it ended in a slash. */
  function Render(R: seq<string>, slash: bool): string
  {
    if R == [] then "/" else "/" + JoinWith(R, "/") + (if slash then "/" else "")
  }

  /** The normal form of an absolute path, by its resolved segments. */
  lemma NormalizeAbsolute(p: string)
    requires p != [] && p[0] == '/'
    ensures Normalize(p) == Render(Resolve(Split(p, '/'), true), EndsWithSlash(p))
  {
    var R := Resolve(Split(p, '/'), true);
    var body := JoinWith(R, "/");
    JoinWithNonEmpty(R);
    if R != [] {
      if EndsWithSlash(p) {
        assert Normalize(p) == "/" + (body + "/");
        assert "/" + (body + "/") == "/" + body + "/";
      } else {
        assert Normalize(p) == "/" + body;
      }
    }
  }

  lemma NormalizeChildSegments(dir: string, b: string)
    requires dir != [] && dir[0] == '/'
    requires PlainSegment(b)
    ensures Normalize(dir + "/" + b) == Render(Resolve(Split(dir, '/'), true) + [b], false)
  {
    var p := dir + "/" + b;
    assert p[0] == '/';
    assert !EndsWithSlash(p) by {
      assert p[|p| - 1] == b[|b| - 1];
    }
    var segs := Split(dir, '/');
    SplitAppend(dir, '/', b);
    ResolveAppend(segs, b, true);
    NormalizeAbsolute(p);
    assert Resolve(segs, true) + [b] != [];
  }

  lemma RenderAppend(R: seq<string>, b: string)
    requires R != [] && R[|R| - 1] != "" && '/' !in R[|R| - 1]
    ensures "/" + JoinWith(R + [b], "/") == "/" + JoinWith(R, "/") + "/" + b
  {
    JoinWithAppend(R, b);
  }

  lemma RenderNoSlash(R: seq<string>)
    requires R != [] && R[|R| - 1] != "" && '/' !in R[|R| - 1]
    ensures !EndsWithSlash("/" + JoinWith(R, "/"))
  {
    JoinWithLast(R);
    var J := JoinWith(R, "/");
    var N := "/" + J;
    assert N[|N| - 1] == J[|J| - 1];
  }

  lemma RenderChildOfRoot(b: string, slash: bool)
    ensures Render([b], false) == Render([], slash) + b
  {
  }

  lemma RenderChildNoSlash(R: seq<string>, b: string)
    requires R != [] && R[|R| - 1] != "" && '/' !in R[|R| - 1]
    ensures !EndsWithSlash(Render(R, false))
    ensures Render(R + [b], false) == Render(R, false) + "/" + b
  {
    RenderAppend(R, b);
    RenderNoSlash(R);
    assert Render(R, false) == "/" + JoinWith(R, "/");
  }

  lemma RenderChildSlash(R: seq<string>, b: string)
    requires R != [] && R[|R| - 1] != "" && '/' !in R[|R| - 1]
    ensures EndsWithSlash(Render(R, true))
    ensures Render(R + [b], false) == Render(R, true) + b
  {
    RenderAppend(R, b);
    var J := "/" + JoinWith(R, "/");
    assert Render(R, true) == J + "/";
    assert Render(R + [b], false) == J + "/" + b;
  }

  /** A plain name rendered under resolved segments `R`: the rendering of `R`, one slash, the name. */
  lemma RenderChild(R: seq<string>, b: string, slash: bool)
    requires forall j :: 0 <= j < |R| ==> R[j] != "" && '/' !in R[j]
    ensures var N := Render(R, slash);
      Render(R + [b], false) == N + (if EndsWithSlash(N) then "" else "/") + b
  {
    if R == [] {
      assert R + [b] == [b];
      RenderChildOfRoot(b, slash);
    } else if slash {
      RenderChildSlash(R, b);
    } else {
      RenderChildNoSlash(R, b);
    }
  }

  lemma NormalizeChild(dir: string, b: string)
    requires dir != [] && dir[0] == '/'
    requires PlainSegment(b)
    ensures Normalize(dir + "/" + b) == Normalize(dir) + (if EndsWithSlash(Normalize(dir)) then "" else "/") + b
  {
    NormalizeChildSegments(dir, b);
    NormalizeAbsolute(dir);
    RenderChild(Resolve(Split(dir, '/'), true), b, EndsWithSlash(dir));
  }

  /**
   * Joining a plain name under an absolute directory puts it directly
   * inside that directory: the result is the directory's own normal form
   * followed by the name, with exactly one slash between them.
   */
  lemma JoinChild(dir: string, b: string)
    requires dir != [] && dir[0] == '/'
    requires PlainSegment(b)
    ensures Join([dir, b]) == Normalize(dir) + (if EndsWithSlash(Normalize(dir)) then "" else "/") + b
  {
    JoinTwo(dir, b);
    NormalizeChild(dir, b);
  }

  // ---------------------------------------------------------------------------
  // Normal forms are fixed points

  /** Segments that `normalize` keeps as they are. */
  predicate PlainSegments(R: seq<string>)
  {
    forall j :: 0 <= j < |R| ==> PlainSegment(R[j])
  }

  /** Resolving against the root leaves only plain segments: no `..` survives. */
  lemma {:induction false} ResolveRootedPlain(segs: seq<string>)
    requires forall j :: 0 <= j < |segs| ==> '/' !in segs[j]
    ensures PlainSegments(Resolve(segs, true))
  {
    if segs != [] {
      var init := segs[..|segs| - 1];
      ResolveRootedPlain(init);
    }
  }

  lemma SplitEmpty()
    ensures Split("", '/') == [""]
  {
  }

  /** Splitting `/a/b/c` at `/` gives an empty first piece, then the segments. */
  lemma SplitRooted(R: seq<string>)
    requires R != [] && PlainSegments(R)
    ensures Split("/" + JoinWith(R, "/"), '/') == [""] + R
  {
    var P := [""] + R;
    assert JoinWith(P, "/") == "/" + JoinWith(R, "/") by {
      JoinWithCons("", R, "/");
    }
    assert forall j :: 0 <= j < |P| ==> '/' !in P[j] by {
      assert forall j :: 1 <= j < |P| ==> P[j] == R[j - 1];
    }
    JoinSplit(P, '/');
  }

  /** Resolving an empty first piece followed by plain segments gives the segments. */
  lemma {:induction false} ResolveRooted(R: seq<string>)
    requires PlainSegments(R)
    ensures Resolve([""] + R, true) == R
  {
    if R != [] {
      var init := R[..|R| - 1];
      ResolveRooted(init);
      assert [""] + R == ([""] + init) + [R[|R| - 1]];
      ResolveAppend([""] + init, R[|R| - 1], true);
    }
  }

  /** An empty last piece resolves away. */
  lemma ResolveTrailingEmpty(segs: seq<string>, absolute: bool)
    ensures Resolve(segs + [""], absolute) == Resolve(segs, absolute)
  {
    assert (segs + [""])[..|segs|] == segs;
  }

  lemma SplitRoot()
    ensures Split("/", '/') == ["", ""]
  {
    SplitAppend("", '/', "");
    SplitEmpty();
    assert "" + ['/'] + "" == "/";
  }

  lemma SplitRenderSlash(R: seq<string>)
    requires R != [] && PlainSegments(R)
    ensures Split(Render(R, true), '/') == [""] + R + [""]
  {
    var J := "/" + JoinWith(R, "/");
    SplitRooted(R);
    SplitAppend(J, '/', "");
    assert J + ['/'] + "" == Render(R, true);
  }

  lemma NormalizeRoot()
    ensures Normalize("/") == "/"
  {
    NormalizeAbsolute("/");
    SplitRoot();
    assert Resolve(["", ""], true) == [];
  }

  lemma NormalizeRenderSlash(R: seq<string>)
    requires R != [] && PlainSegments(R)
    ensures Normalize(Render(R, true)) == Render(R, true)
  {
    var p := Render(R, true);
    var J := "/" + JoinWith(R, "/");
    assert p == J + "/";
    assert p[0] == '/' && EndsWithSlash(p);
    NormalizeAbsolute(p);
    SplitRenderSlash(R);
    ResolveTrailingEmpty([""] + R, true);
    ResolveRooted(R);
    assert Resolve(Split(p, '/'), true) == R;
  }

  lemma NormalizeRenderNoSlash(R: seq<string>)
    requires R != [] && PlainSegments(R)
    ensures Normalize(Render(R, false)) == Render(R, false)
  {
    var J := "/" + JoinWith(R, "/");
    assert Render(R, false) == J;
    assert J[0] == '/';
    NormalizeAbsolute(J);
    SplitRooted(R);
    ResolveRooted(R);
    RenderNoSlash(R);
    assert Resolve(Split(J, '/'), true) == R;
  }

  /** A rendering of plain segments is its own normal form. */
  lemma NormalizeRender(R: seq<string>, slash: bool)
    requires PlainSegments(R)
    ensures Normalize(Render(R, slash)) == Render(R, slash)
  {
    if R == [] {
      NormalizeRoot();
    } else if slash {
      NormalizeRenderSlash(R);
    } else {
      NormalizeRenderNoSlash(R);
    }
  }

  /** `normalize` of an absolute path is already normal. */
  lemma NormalizeIdempotent(p: string)
    requires p != [] && p[0] == '/'
    ensures Normalize(Normalize(p)) == Normalize(p)
  {
    NormalizeAbsolute(p);
    ResolveRootedPlain(Split(p, '/'));
    NormalizeRender(Resolve(Split(p, '/'), true), EndsWithSlash(p));
  }

  /** `path.join(p)` of one non-empty part normalises it. */
  lemma JoinOne(p: string)
    requires p != []
    ensures Join([p]) == Normalize(p)
  {
    assert [p][..0] == [];
    assert NonEmpty([p]) == [p];
  }

  /** `path.join(dir, '')` drops the empty part. */
  lemma JoinEmptySecond(dir: string)
    requires dir != []
    ensures Join([dir, ""]) == Normalize(dir)
  {
    assert [dir, ""][..1] == [dir];
    assert [dir][..0] == [];
    assert NonEmpty([dir]) == [dir];
    assert NonEmpty([dir, ""]) == [dir];
  }

  /** `path.join(dir, mid, b)` as one normalised string. */
  lemma JoinThree(dir: string, mid: string, b: string)
    requires dir != [] && b != []
    ensures Join([dir, mid, b]) == Normalize(if mid == "" then dir + "/" + b else (dir + "/" + mid) + "/" + b)
  {
    assert [dir, mid, b][..2] == [dir, mid];
    assert [dir, mid][..1] == [dir];
    assert [dir][..0] == [];
    assert NonEmpty([dir]) == [dir];
    if mid == "" {
      assert NonEmpty([dir, mid]) == [dir];
      assert NonEmpty([dir, mid, b]) == [dir, b];
      assert JoinWith([dir, b], "/") == dir + "/" + b;
    } else {
      assert NonEmpty([dir, mid]) == [dir, mid];
      assert NonEmpty([dir, mid, b]) == [dir, mid, b];
      assert JoinWith([dir, mid], "/") == dir + "/" + mid;
      assert JoinWith([dir, mid, b], "/") == (dir + "/" + mid) + "/" + b;
    }
  }

  /**
   * `join(join(dir, mid, b))` for an absolute `dir` and a plain name `b`:
   * `b` directly inside `join(dir, mid)`, with exactly one slash between.
   */
  lemma JoinInside(dir: string, mid: string, b: string)
    requires dir != [] && dir[0] == '/'
    requires PlainSegment(b)
    ensures var D := Join([dir, mid]);
      Join([Join([dir, mid, b])]) == D + (if EndsWithSlash(D) then "" else "/") + b
  {
    var q := if mid == "" then dir + "/" + b else (dir + "/" + mid) + "/" + b;
    JoinThree(dir, mid, b);
    if mid == "" {
      JoinEmptySecond(dir);
      NormalizeChild(dir, b);
    } else {
      JoinTwo(dir, mid);
      NormalizeChild(dir + "/" + mid, b);
    }
    NormalizeIdempotent(q);
    JoinOne(Join([dir, mid, b]));
  }

  /** A plain name placed inside a directory, one slash between, is its base name. */
  lemma BasenameInside(D: string, b: string)
    requires PlainSegment(b)
    ensures Basename(D + (if EndsWithSlash(D) then "" else "/") + b) == b
  {
    if EndsWithSlash(D) {
      var D0 := D[..|D| - 1];
      assert D0 + "/" == D;
      assert D + "" + b == D0 + "/" + b;
      BasenameOfChild(D0, b);
    } else {
      BasenameOfChild(D, b);
    }
  }

  // ---------------------------------------------------------------------------
  // Relative paths made of plain segments

  /** Plain segments resolve to themselves. */
  lemma {:induction false} ResolvePlain(R: seq<string>, absolute: bool)
    requires PlainSegments(R)
    ensures Resolve(R, absolute) == R
  {
    if R != [] {
      var init := R[..|R| - 1];
      ResolvePlain(init, absolute);
      assert init + [R[|R| - 1]] == R;
    }
  }

  /** A `/`-joined list of non-empty segments starts with the first segment's first character. */
  lemma {:induction false} JoinWithFirst(R: seq<string>)
    requires R != [] && R[0] != ""
    ensures JoinWith(R, "/") != "" && JoinWith(R, "/")[0] == R[0][0]
  {
    if |R| > 1 {
      var init := R[..|R| - 1];
      JoinWithFirst(init);
    }
  }

  /** `normalize` of a relative path that does not end in a slash and does not resolve to nothing. */
  lemma NormalizeRelative(p: string)
    requires p != [] && p[0] != '/' && !EndsWithSlash(p)
    requires Resolve(Split(p, '/'), false) != []
    ensures Normalize(p) == JoinWith(Resolve(Split(p, '/'), false), "/")
  {
    JoinWithNonEmpty(Resolve(Split(p, '/'), false));
  }

  lemma SplitDoubleSlash(s: string, b: string)
    requires '/' !in b
    ensures Split(s + "/" + "/" + b, '/') == Split(s, '/') + [""] + [b]
  {
    SplitAppend(s, '/', "");
    assert s + ['/'] + "" == s + "/";
    SplitAppend(s + "/", '/', b);
    assert (s + "/") + ['/'] + b == s + "/" + "/" + b;
  }

  lemma ResolveEmptyThenPlain(R: seq<string>, b: string)
    requires PlainSegments(R) && PlainSegment(b)
    ensures Resolve(R + [""] + [b], false) == R + [b]
  {
    var R1 := R + [""];
    assert Resolve(R1, false) == R by {
      assert R1[..|R|] == R;
      ResolvePlain(R, false);
    }
    assert (R1 + [b])[..|R1|] == R1;
    assert Resolve(R1 + [b], false) == Step(R, b, false);
  }


  /** `normalize` drops the empty segment of `folder//b` for a relative folder of plain segments. */
  lemma NormalizeDoubleSlash(folder: string, b: string)
    requires folder != [] && folder[0] != '/'
    requires PlainSegments(Split(folder, '/')) && PlainSegment(b)
    ensures Normalize(folder + "/" + "/" + b) == folder + "/" + b
  {
    var R := Split(folder, '/');
    var p := folder + "/" + "/" + b;
    assert Resolve(Split(p, '/'), false) == R + [b] by {
      SplitDoubleSlash(folder, b);
      ResolveEmptyThenPlain(R, b);
    }
    assert p[0] == folder[0] && p[|p| - 1] == b[|b| - 1];
    NormalizeRelative(p);
    assert JoinWith(R + [b], "/") == folder + "/" + b by {
      SplitJoin(folder, '/');
      JoinWithAppend(R, b);
    }
  }

  lemma GlobSuffix(folder: string)
    ensures folder + "/" + "/*.*" == folder + "/" + "/" + "*.*"
    ensures folder + "/" + "*.*" == folder + "/*.*"
  {
    assert "/*.*" == "/" + "*.*";
    var x := folder + "/";
    assert x + ("/" + "*.*") == x + "/" + "*.*";
    assert folder + ("/" + "*.*") == folder + "/" + "*.*";
  }

  // The glob `path.join(folder, '/*.*')` of a relative folder made of plain segments is `folder/*.*`.
  lemma FolderGlobPlain(folder: string)
    requires PlainSegments(Split(folder, '/'))
    ensures Join([folder, "/*.*"]) == folder + "/*.*"
  {
    assert folder != [] && folder[0] != '/' by {
      SplitJoin(folder, '/');
      JoinWithFirst(Split(folder, '/'));
    }
    JoinTwo(folder, "/*.*");
    GlobSuffix(folder);
    NormalizeDoubleSlash(folder, "*.*");
  }
}

=== FILE: plugin.dfy ===
/** The MIME allow-list that decides which backing files are parsed (constants/plugin.js). */
module Plugin {
  import opened Values

  const SupportedMimeTypes: seq<string> := ["application/json", "text/yaml"]

  /**
   * `isSupportedMime(mime)`: `Array.includes` with strict equality, so only
   * a string equal to one of the two entries is supported.  `mime.lookup`
   * hands in `false` for an unknown extension.
   */
  function IsSupportedMime(mime: Value): (r: bool)
    ensures r <==> mime.Str? && (mime.s == "application/json" || mime.s == "text/yaml")
  {
    mime.Str? && mime.s in SupportedMimeTypes
  }

  lemma JsonAndYamlSupported()
    ensures IsSupportedMime(Str("application/json"))
    ensures IsSupportedMime(Str("text/yaml"))
  {
  }

  /** Neighbouring types (another YAML spelling, Markdown) and the `false` of an unknown extension are not. */
  lemma OthersUnsupported()
    ensures !IsSupportedMime(Str("application/x-yaml"))
    ensures !IsSupportedMime(Str("text/markdown"))
    ensures !IsSupportedMime(Bool(false))
  {
  }
}

=== FILE: registry.dfy ===
/**
 * The key-to-collection table `createCollections` fills (main.js), how the
 * watch handlers find the entry that owns a path, and the host's node store
 * seen as add / update-by-id / remove-by-origin operations on the records of
 * one node collection.
 */
module Registry {
  import opened Values
  import opened Strings
  import opened Paths
  import Widgets

  /**
   * A value of `this.collections`: the type name of its node collection, the
   * configuration it came from (a collection, or one file of a `files`
   * collection) and whether it stands for a single file.
   */
  datatype Entry = Entry(typeName: string, props: Value, isFile: bool)

  /** `fileInfo` of a folder node. */
  datatype FileInfo = FileInfo(extension: string, directory: string, path: string, name: string)

  /**
   * A record of the node store.  Folder nodes carry the file they were read
   * from in `origin` (`internal.origin`); a file node is the configuration of
   * a single-file entry with its route and parsed data.
   */
  datatype Node =
    | FolderNode(id: string, path: string, fileInfo: FileInfo, mimeType: Value, content: string, origin: string)
    | FileNode(id: string, path: string, props: Value, data: Value)

  /** One `this.collections.set(key, entry)` of `createCollections`. */
  datatype Registration = Registration(key: Value, entry: Entry)

  /** The registrations a run makes, in order, and the error that stops it, if any. */
  datatype Plan = Plan(regs: seq<Registration>, failure: Option<Error>)

  const HasError := "collection.has is not a function"
  const FileGetError := "file.get is not a function"

  /** `getFolderGlob(folder)`: the glob of the files directly inside `folder`. */
  function FolderGlob(folder: string): string
  {
    Join([folder, "/*.*"])
  }

  /**
   * `createTypeName(name)`: the host's pascal-case `camelCase` of the plugin's
   * type name, a space and the name; an absent name counts as empty.
   */
  function TypeName(camelCase: string -> string, base: string, name: Value): string
  {
    camelCase(base + " " + (if name.Undefined? then "" else Stringify(name)))
  }

  // ---------------------------------------------------------------------------
  // What createCollections registers

  /** What one file of a `files` collection registers. */
  function FileRegistration(camelCase: string -> string, base: string, cname: Value, f: Value): (r: Registration)
    ensures r.key == Get(f, "file") && r.entry.props == f && r.entry.isFile
  {
    Registration(Get(f, "file"), Entry(FileTypeName(camelCase, base, cname, f), f, true))
  }

  /** The type name of one file: `createTypeName` of the collection's and the file's names. */
  function FileTypeName(camelCase: string -> string, base: string, cname: Value, f: Value): string
  {
    TypeName(camelCase, base, Str(Stringify(cname) + " " + Stringify(Get(f, "name"))))
  }

  /** One registration per file, in order. */
  function FileRegs(camelCase: string -> string, base: string, cname: Value, files: seq<Value>): (r: seq<Registration>)
    ensures |r| == |files|
  {
    if files == [] then []
    else FileRegs(camelCase, base, cname, files[..|files| - 1]) + [FileRegistration(camelCase, base, cname, files[|files| - 1])]
  }

  /**
   * The inner loop over the `files` of collection `cname`: one registration
   * per file, keyed by its `file`; a file that has no `get` stops the run.
   */
  function FilesPlan(camelCase: string -> string, base: string, cname: Value, files: seq<Value>): (r: Plan)
    ensures |r.regs| <= |files|
  {
    if files == [] then Plan([], None)
    else
      var init := FilesPlan(camelCase, base, cname, files[..|files| - 1]);
      var f := files[|files| - 1];
      if init.failure.Some? then init
      else if !(f.Obj? || f.List?) then Plan(init.regs, Some(TypeError(FileGetError)))
      else Plan(init.regs + [FileRegistration(camelCase, base, cname, f)], None)
  }

  /** One pass of the outer loop of `createCollections`. */
  function CollectionPlan(camelCase: string -> string, base: string, c: Value): Plan
  {
    if !(c.Obj? || c.List?) then Plan([], Some(TypeError(HasError)))
    else if Has(c, "files") then
      match Widgets.Iterate(Get(c, "files"))
      case Err(e) => Plan([], Some(e))
      case Ok(files) => FilesPlan(camelCase, base, Get(c, "name"), files)
    else
      var folder := Get(c, "folder");
      if !folder.Str? then Plan([], Some(TypeError(Widgets.PathTypeError)))
      else Plan([Registration(Str(FolderGlob(folder.s)), Entry(TypeName(camelCase, base, Get(c, "name")), c, false))], None)
  }

  /** The outer loop over the collections, up to the first error. */
  function PlanAll(camelCase: string -> string, base: string, cs: seq<Value>): Plan
  {
    if cs == [] then Plan([], None)
    else
      var init := PlanAll(camelCase, base, cs[..|cs| - 1]);
      if init.failure.Some? then init
      else
        var last := CollectionPlan(camelCase, base, cs[|cs| - 1]);
        Plan(init.regs + last.regs, last.failure)
  }

  /** Everything `createCollections` registers for a configuration. */
  function ConfigPlan(camelCase: string -> string, base: string, config: Value): Plan
  {
    match Widgets.Iterate(Get(config, "collections"))
    case Err(e) => Plan([], Some(e))
    case Ok(cs) => PlanAll(camelCase, base, cs)
  }

  /** The table after the registrations, in order. */
  function Registered(m: map<Value, Entry>, regs: seq<Registration>): map<Value, Entry>
  {
    if regs == [] then m
    else
      var last := regs[|regs| - 1];
      Registered(m, regs[..|regs| - 1])[last.key := last.entry]
  }

  /**
   * The node store after `addCollection` for every registration: a type name
   * seen for the first time gets an empty collection, an existing one is
   * returned as it is.
   */
  function WithCollections(store: map<string, seq<Node>>, regs: seq<Registration>): map<string, seq<Node>>
  {
    if regs == [] then store
    else
      var s := WithCollections(store, regs[..|regs| - 1]);
      var tn := regs[|regs| - 1].entry.typeName;
      if tn in s then s else s[tn := []]
  }

  // ---------------------------------------------------------------------------
  // Properties of the registrations

  lemma {:induction false} RegisteredAppend(m: map<Value, Entry>, a: seq<Registration>, b: seq<Registration>)
    ensures Registered(m, a + b) == Registered(Registered(m, a), b)
  {
    if b == [] {
      assert a + b == a;
    } else {
      RegisteredAppend(m, a, b[..|b| - 1]);
      assert (a + b)[..|a + b| - 1] == a + b[..|b| - 1];
    }
  }

  lemma {:induction false} WithCollectionsAppend(store: map<string, seq<Node>>, a: seq<Registration>, b: seq<Registration>)
    ensures WithCollections(store, a + b) == WithCollections(WithCollections(store, a), b)
  {
    if b == [] {
      assert a + b == a;
    } else {
      WithCollectionsAppend(store, a, b[..|b| - 1]);
      assert (a + b)[..|a + b| - 1] == a + b[..|b| - 1];
    }
  }

  /** A later registration under the same key overwrites an earlier one: the last one for a key wins. */
  lemma {:induction false} RegisteredLast(m: map<Value, Entry>, regs: seq<Registration>, i: nat)
    requires i < |regs|
    requires forall j :: i < j < |regs| ==> regs[j].key != regs[i].key
    ensures regs[i].key in Registered(m, regs) && Registered(m, regs)[regs[i].key] == regs[i].entry
  {
    if i < |regs| - 1 {
      RegisteredLast(m, regs[..|regs| - 1], i);
    }
  }

  /** A key no registration uses keeps its entry, or stays absent. */
  lemma {:induction false} RegisteredUntouched(m: map<Value, Entry>, regs: seq<Registration>, k: Value)
    requires forall j :: 0 <= j < |regs| ==> regs[j].key != k
    ensures k in Registered(m, regs) <==> k in m
    ensures k in m ==> Registered(m, regs)[k] == m[k]
  {
    if regs != [] {
      RegisteredUntouched(m, regs[..|regs| - 1], k);
    }
  }

  /** Registering is overriding the old table with the table the registrations alone build. */
  lemma {:induction false} RegisteredOverride(m: map<Value, Entry>, regs: seq<Registration>)
    ensures Registered(m, regs) == m + Registered(map[], regs)
  {
    if regs != [] {
      RegisteredOverride(m, regs[..|regs| - 1]);
    }
  }

  /** Registering the same plan twice leaves the table as one run left it. */
  lemma RegisteredTwice(m: map<Value, Entry>, regs: seq<Registration>)
    ensures Registered(Registered(m, regs), regs) == Registered(m, regs)
  {
    RegisteredOverride(m, regs);
    RegisteredOverride(Registered(m, regs), regs);
    var R := Registered(map[], regs);
    assert (m + R) + R == m + R;
  }

  /**
   * `addCollection` never drops a collection or its nodes: every type name
   * registered has a collection afterwards, the old collections are kept as
   * they were, and the new ones are empty.
   */
  lemma {:induction false} WithCollectionsKeeps(store: map<string, seq<Node>>, regs: seq<Registration>)
    ensures var s := WithCollections(store, regs);
      (forall tn :: tn in store ==> tn in s && s[tn] == store[tn])
      && (forall j :: 0 <= j < |regs| ==> regs[j].entry.typeName in s)
      && (forall tn :: tn in s && tn !in store ==> s[tn] == [])
  {
    if regs != [] {
      WithCollectionsKeeps(store, regs[..|regs| - 1]);
    }
  }

  /** When every registered type name already has a collection, the store is unchanged. */
  lemma {:induction false} WithCollectionsNoop(store: map<string, seq<Node>>, regs: seq<Registration>)
    requires forall j :: 0 <= j < |regs| ==> regs[j].entry.typeName in store
    ensures WithCollections(store, regs) == store
  {
    if regs != [] {
      WithCollectionsNoop(store, regs[..|regs| - 1]);
    }
  }

  /** Adding the same collections twice is the same as adding them once. */
  lemma WithCollectionsTwice(store: map<string, seq<Node>>, regs: seq<Registration>)
    ensures WithCollections(WithCollections(store, regs), regs) == WithCollections(store, regs)
  {
    WithCollectionsKeeps(store, regs);
    WithCollectionsNoop(WithCollections(store, regs), regs);
  }

  /** A map file adds its registration after those of the files before it. */
  lemma FilesPlanStep(camelCase: string -> string, base: string, cname: Value, files: seq<Value>)
    requires files != [] && files[|files| - 1].Obj?
    requires FilesPlan(camelCase, base, cname, files[..|files| - 1]).failure == None
    ensures FilesPlan(camelCase, base, cname, files)
      == Plan(FilesPlan(camelCase, base, cname, files[..|files| - 1]).regs + [FileRegistration(camelCase, base, cname, files[|files| - 1])], None)
  {
  }

  /**
   * A `files` collection whose files are all maps registers one entry per
   * file, in order, keyed by the file's `file`, holding the file and
   * marked as a single file.
   */
  lemma {:induction false} FilesRegistrations(camelCase: string -> string, base: string, cname: Value, files: seq<Value>)
    requires forall i :: 0 <= i < |files| ==> files[i].Obj?
    ensures FilesPlan(camelCase, base, cname, files) == Plan(FileRegs(camelCase, base, cname, files), None)
  {
    if files != [] {
      FilesRegistrations(camelCase, base, cname, files[..|files| - 1]);
      FilesPlanStep(camelCase, base, cname, files);
    }
  }

  /**
   * A file without `get` stops the loop: the files before it are
   * registered, nothing after it is.
   */
  lemma {:induction false} FilesStop(camelCase: string -> string, base: string, cname: Value, files: seq<Value>, i: nat)
    requires i < |files| && !(files[i].Obj? || files[i].List?)
    requires forall j :: 0 <= j < i ==> files[j].Obj?
    ensures var p := FilesPlan(camelCase, base, cname, files);
      p.failure == Some(TypeError(FileGetError)) && p.regs == FileRegs(camelCase, base, cname, files[..i])
  {
    if i < |files| - 1 {
      FilesStop(camelCase, base, cname, files[..|files| - 1], i);
      assert files[..|files| - 1][..i] == files[..i];
    } else {
      assert files[..|files| - 1] == files[..i];
      FilesRegistrations(camelCase, base, cname, files[..i]);
    }
  }

  // A collection without `files` registers one entry, keyed by the glob of
  // its folder (for a plain relative folder, the folder followed by `/*.*`),
  // holding the collection and not marked as a file.
  lemma FolderRegistration(camelCase: string -> string, base: string, c: Value)
    requires c.Obj? && !Has(c, "files") && Get(c, "folder").Str?
    requires PlainSegments(Split(Get(c, "folder").s, '/'))
    ensures CollectionPlan(camelCase, base, c)
      == Plan([Registration(Str(Get(c, "folder").s + "/*.*"), Entry(TypeName(camelCase, base, Get(c, "name")), c, false))], None)
  {
    FolderGlobPlain(Get(c, "folder").s);
  }

  /** A collection the loop cannot ask `has` registers nothing and stops the run. */
  lemma CollectionWithoutHas(camelCase: string -> string, base: string, cs: seq<Value>, i: nat)
    requires i < |cs| && !(cs[i].Obj? || cs[i].List?)
    requires PlanAll(camelCase, base, cs[..i]).failure == None
    ensures PlanAll(camelCase, base, cs[..i + 1]) == Plan(PlanAll(camelCase, base, cs[..i]).regs, Some(TypeError(HasError)))
  {
    assert cs[..i + 1][..i] == cs[..i];
    assert PlanAll(camelCase, base, cs[..i]).regs + [] == PlanAll(camelCase, base, cs[..i]).regs;
  }

  // ---------------------------------------------------------------------------
  // Steps of the loops that carry out a plan

  /** One more registration: one `set` on the table and one `addCollection` on the store. */
  lemma RegisterOne(m: map<Value, Entry>, store: map<string, seq<Node>>, regs: seq<Registration>, r: Registration)
    ensures Registered(m, regs + [r]) == Registered(m, regs)[r.key := r.entry]
    ensures var s := WithCollections(store, regs);
      WithCollections(store, regs + [r]) == if r.entry.typeName in s then s else s[r.entry.typeName := []]
  {
    assert (regs + [r])[..|regs|] == regs;
  }

  lemma FilesFailStep(camelCase: string -> string, base: string, cname: Value, files: seq<Value>, i: nat)
    requires i < |files| && !(files[i].Obj? || files[i].List?)
    requires FilesPlan(camelCase, base, cname, files[..i]).failure == None
    ensures FilesPlan(camelCase, base, cname, files[..i + 1])
      == Plan(FilesPlan(camelCase, base, cname, files[..i]).regs, Some(TypeError(FileGetError)))
  {
    assert files[..i + 1][..i] == files[..i];
  }

  lemma FilesOkStep(camelCase: string -> string, base: string, cname: Value, files: seq<Value>, i: nat)
    requires i < |files| && (files[i].Obj? || files[i].List?)
    requires FilesPlan(camelCase, base, cname, files[..i]).failure == None
    ensures FilesPlan(camelCase, base, cname, files[..i + 1])
      == Plan(FilesPlan(camelCase, base, cname, files[..i]).regs + [FileRegistration(camelCase, base, cname, files[i])], None)
  {
    assert files[..i + 1][..i] == files[..i];
  }

  /** Once a file has stopped the loop, the later files change nothing. */
  lemma {:induction false} FilesStopped(camelCase: string -> string, base: string, cname: Value, files: seq<Value>, i: nat)
    requires i <= |files|
    requires FilesPlan(camelCase, base, cname, files[..i]).failure.Some?
    ensures FilesPlan(camelCase, base, cname, files) == FilesPlan(camelCase, base, cname, files[..i])
  {
    if i < |files| {
      var init := files[..|files| - 1];
      assert init[..i] == files[..i];
      FilesStopped(camelCase, base, cname, init, i);
    } else {
      assert files[..i] == files;
    }
  }

  lemma PlanAllStep(camelCase: string -> string, base: string, cs: seq<Value>, i: nat)
    requires i < |cs|
    requires PlanAll(camelCase, base, cs[..i]).failure == None
    ensures var c := CollectionPlan(camelCase, base, cs[i]);
      PlanAll(camelCase, base, cs[..i + 1]) == Plan(PlanAll(camelCase, base, cs[..i]).regs + c.regs, c.failure)
  {
    assert cs[..i + 1][..i] == cs[..i];
  }

  /** Once a collection has stopped the run, the later collections change nothing. */
  lemma {:induction false} PlanAllStopped(camelCase: string -> string, base: string, cs: seq<Value>, i: nat)
    requires i <= |cs|
    requires PlanAll(camelCase, base, cs[..i]).failure.Some?
    ensures PlanAll(camelCase, base, cs) == PlanAll(camelCase, base, cs[..i])
  {
    if i < |cs| {
      var init := cs[..|cs| - 1];
      assert init[..i] == cs[..i];
      PlanAllStopped(camelCase, base, init, i);
    } else {
      assert cs[..i] == cs;
    }
  }

  // ---------------------------------------------------------------------------
  // Emptying node collections

  /** The type names of the entries under `keys`. */
  function TypesOf(m: map<Value, Entry>, keys: set<Value>): set<string>
  {
    set k | k in keys && k in m :: m[k].typeName
  }

  /** The store with the collections named in `types` emptied. */
  function Cleared(store: map<string, seq<Node>>, types: set<string>): (r: map<string, seq<Node>>)
    ensures r.Keys == store.Keys
  {
    map tn | tn in store :: if tn in types then [] else store[tn]
  }

  lemma ClearedStep(store: map<string, seq<Node>>, m: map<Value, Entry>, done: set<Value>, k: Value)
    requires k in m && m[k].typeName in store
    ensures Cleared(store, TypesOf(m, done))[m[k].typeName := []] == Cleared(store, TypesOf(m, done + {k}))
  {
    assert TypesOf(m, done + {k}) == TypesOf(m, done) + {m[k].typeName};
  }

  /**
   * After the emptying and the re-registration of the config-change
   * handler, before `createNodes` refills them, every collection of the
   * table is present and empty: the handler removes all their nodes, and
   * adding the same collections again keeps them empty.
   */
  lemma ConfigChangeEmpties(store: map<string, seq<Node>>, m: map<Value, Entry>, regs: seq<Registration>, k: Value)
    requires k in m && m[k].typeName in store
    ensures var s := WithCollections(Cleared(store, TypesOf(m, m.Keys)), regs);
      m[k].typeName in s && s[m[k].typeName] == []
  {
    WithCollectionsKeeps(Cleared(store, TypesOf(m, m.Keys)), regs);
  }

  // ---------------------------------------------------------------------------
  // Which entry owns a path

  /**
   * The watch handlers' lookup: the entry keyed by the path itself, else the
   * entry keyed by the glob of the path's directory.
   */
  function Owner(m: map<Value, Entry>, file: string): (r: Option<Entry>)
    ensures r.Some? ==> exists k :: k in m && m[k] == r.value
    ensures r.None? ==> Str(file) !in m && Str(FolderGlob(Dirname(file))) !in m
  {
    if Str(file) in m then Some(m[Str(file)])
    else
      var glob := Str(FolderGlob(Dirname(file)));
      if glob in m then Some(m[glob]) else None
  }

  lemma PlainNotTrailing(folder: string)
    requires PlainSegments(Split(folder, '/'))
    ensures folder != [] && !EndsWithSlash(folder)
  {
    var parts := Split(folder, '/');
    SplitJoin(folder, '/');
    assert PlainSegment(parts[|parts| - 1]);
    JoinWithLast(parts);
  }

  /**
   * A file directly inside a plain relative folder that is not a key of its
   * own belongs to the folder's entry when there is one, and to nothing
   * otherwise.
   */
  lemma OwnerOfFolderChild(m: map<Value, Entry>, folder: string, b: string)
    requires PlainSegments(Split(folder, '/'))
    requires b != "" && '/' !in b
    requires Str(folder + "/" + b) !in m
    ensures var glob := Str(folder + "/*.*");
      Owner(m, folder + "/" + b) == if glob in m then Some(m[glob]) else None
  {
    PlainNotTrailing(folder);
    DirnameOfChild(folder, b);
    FolderGlobPlain(folder);
  }

  // ---------------------------------------------------------------------------
  // The node store of one collection

  predicate HasOrigin(n: Node, origin: string)
  {
    n.FolderNode? && n.origin == origin
  }

  /** Index of the first node with id `id`, or -1. */
  function FindId(nodes: seq<Node>, id: string): (r: int)
    ensures -1 <= r < |nodes|
    ensures r >= 0 ==> nodes[r].id == id && forall j :: 0 <= j < r ==> nodes[j].id != id
    ensures r == -1 ==> forall j :: 0 <= j < |nodes| ==> nodes[j].id != id
  {
    if nodes == [] then -1
    else if nodes[0].id == id then 0
    else
      var k := FindId(nodes[1..], id);
      if k < 0 then -1 else k + 1
  }

  /** Index of the first node read from `origin`, or -1. */
  function FindOrigin(nodes: seq<Node>, origin: string): (r: int)
    ensures -1 <= r < |nodes|
    ensures r >= 0 ==> HasOrigin(nodes[r], origin) && forall j :: 0 <= j < r ==> !HasOrigin(nodes[j], origin)
    ensures r == -1 ==> forall j :: 0 <= j < |nodes| ==> !HasOrigin(nodes[j], origin)
  {
    if nodes == [] then -1
    else if HasOrigin(nodes[0], origin) then 0
    else
      var k := FindOrigin(nodes[1..], origin);
      if k < 0 then -1 else k + 1
  }

  /**
   * `updateNode(n)`: the first node with the same id is replaced, the
   * others stay where they are; with no such node nothing changes.
   */
  function ReplaceId(nodes: seq<Node>, n: Node): (r: seq<Node>)
    ensures |r| == |nodes|
    ensures forall j :: 0 <= j < |nodes| && j != FindId(nodes, n.id) ==> r[j] == nodes[j]
    ensures FindId(nodes, n.id) >= 0 ==> r[FindId(nodes, n.id)] == n
  {
    var i := FindId(nodes, n.id);
    if i < 0 then nodes else nodes[i := n]
  }

  /** `removeNode(id)`: the first node with that id goes. */
  function RemoveId(nodes: seq<Node>, id: string): (r: seq<Node>)
    ensures FindId(nodes, id) < 0 ==> r == nodes
    ensures FindId(nodes, id) >= 0 ==> |r| == |nodes| - 1
  {
    var i := FindId(nodes, id);
    if i < 0 then nodes else nodes[..i] + nodes[i + 1..]
  }

  /** `removeNode({'internal.origin': origin})`: the first node read from `origin` goes. */
  function RemoveOrigin(nodes: seq<Node>, origin: string): (r: seq<Node>)
    ensures FindOrigin(nodes, origin) < 0 ==> r == nodes
    ensures FindOrigin(nodes, origin) >= 0 ==> |r| == |nodes| - 1
  {
    var i := FindOrigin(nodes, origin);
    if i < 0 then nodes else nodes[..i] + nodes[i + 1..]
  }

  lemma FindIdAt(nodes: seq<Node>, id: string, i: nat)
    requires i < |nodes| && nodes[i].id == id
    requires forall j :: 0 <= j < i ==> nodes[j].id != id
    ensures FindId(nodes, id) == i
  {
  }

  lemma FindOriginAt(nodes: seq<Node>, origin: string, i: nat)
    requires i < |nodes| && HasOrigin(nodes[i], origin)
    requires forall j :: 0 <= j < i ==> !HasOrigin(nodes[j], origin)
    ensures FindOrigin(nodes, origin) == i
  {
  }

  /** Updating with the same node twice is updating once. */
  lemma ReplaceIdTwice(nodes: seq<Node>, n: Node)
    ensures ReplaceId(ReplaceId(nodes, n), n) == ReplaceId(nodes, n)
  {
    var i := FindId(nodes, n.id);
    if i >= 0 {
      var once := nodes[i := n];
      assert forall j :: 0 <= j < i ==> once[j] == nodes[j];
      FindIdAt(once, n.id, i);
    }
  }

  /**
   * Removing by origin undoes adding: a node appended to a collection
   * holding no node from the same file is exactly what removal by that
   * file takes away.
   */
  lemma RemoveAdded(nodes: seq<Node>, n: Node)
    requires n.FolderNode?
    requires forall j :: 0 <= j < |nodes| ==> !HasOrigin(nodes[j], n.origin)
    ensures RemoveOrigin(nodes + [n], n.origin) == nodes
  {
    var all := nodes + [n];
    assert forall j :: 0 <= j < |nodes| ==> all[j] == nodes[j];
    FindOriginAt(all, n.origin, |nodes|);
    assert all[..|nodes|] == nodes;
  }

  /** Removing the nodes of a collection by id, first to last, empties it. */
  lemma RemoveFirstId(nodes: seq<Node>)
    requires nodes != []
    ensures RemoveId(nodes, nodes[0].id) == nodes[1..]
  {
    FindIdAt(nodes, nodes[0].id, 0);
  }
}

=== FILE: routes.dfy ===
/**
 * `createPath` (main.js): the route of a node, built from the directory and
 * the name of its file.  The directory's segments and the name are
 * slugified, the name is left out when it is one of the index names, a
 * path prefix goes first, empty segments are dropped, and the permalink
 * setting decides the trailing slash.
 */
module Routes {
  import opened Values
  import opened Strings
  import opened Paths

  /**
   * What a route depends on besides the file: the host's `slugify`, the
   * plugin's `index` and `pathPrefix` options, and the site's
   * `permalinks.trailingSlash`.
   */
  datatype RouteOptions = RouteOptions(slugify: string -> string, index: seq<string>, pathPrefix: Value, trailingSlash: bool)

  /** `trim(pathPrefix, '/')`; an absent prefix is the empty string. */
  function Prefix(o: RouteOptions): string
  {
    Trim(LodashString(o.pathPrefix), '/')
  }

  function Suffix(o: RouteOptions): string
  {
    if o.trailingSlash then "/" else ""
  }

  /** Every part slugified, in order. */
  function Slugs(slugify: string -> string, parts: seq<string>): (r: seq<string>)
    ensures |r| == |parts|
  {
    if parts == [] then [] else Slugs(slugify, parts[..|parts| - 1]) + [slugify(parts[|parts| - 1])]
  }

  /** The prefix (when not empty) and the slugified directory segments. */
  function BaseSegments(o: RouteOptions, dir: string): seq<string>
  {
    (if Prefix(o) != "" then [Prefix(o)] else []) + Slugs(o.slugify, Split(dir, '/'))
  }

  /** The segments of the route before empty ones are dropped. */
  function Segments(o: RouteOptions, dir: string, name: string): seq<string>
  {
    BaseSegments(o, dir) + (if name in o.index then [] else [o.slugify(name)])
  }

  /** The route made of the kept (non-empty) segments and the suffix. */
  function Assembled(kept: seq<string>, suffix: string): string
  {
    var res := TrimEnd("/" + JoinWith(kept, "/"), '/');
    if res + suffix == "" then "/" else res + suffix
  }

  /** The route `createPath` returns for a file in `dir` named `name`. */
  function Route(o: RouteOptions, dir: string, name: string): string
  {
    Assembled(NonEmpty(Segments(o, dir, name)), Suffix(o))
  }

  /**
   * The segments as `createPath` builds them: the slugified directories,
   * the slugified name pushed unless it is an index name, then the prefix
   * put in front unless it is empty.
   */
  lemma SegmentsInSteps(o: RouteOptions, dir: string, name: string, slugs: seq<string>, pushed: seq<string>)
    requires slugs == Slugs(o.slugify, Split(dir, '/'))
    requires pushed == if name in o.index then slugs else slugs + [o.slugify(name)]
    ensures Segments(o, dir, name) == if Prefix(o) != "" then [Prefix(o)] + pushed else pushed
  {
    var base := BaseSegments(o, dir);
    if name in o.index {
      assert Segments(o, dir, name) == base + [];
      assert base + [] == base;
    } else {
      assert Segments(o, dir, name) == base + [o.slugify(name)];
    }
    if Prefix(o) != "" {
      assert base == [Prefix(o)] + slugs;
    } else {
      assert base == [] + slugs;
      assert [] + slugs == slugs;
    }
  }

  // ---------------------------------------------------------------------------
  // Properties of routes

  /** Dropping empty segments distributes over concatenation. */
  lemma {:induction false} NonEmptyAppend(a: seq<string>, b: seq<string>)
    ensures NonEmpty(a + b) == NonEmpty(a) + NonEmpty(b)
  {
    if b == [] {
      assert a + b == a;
    } else {
      var n := |b| - 1;
      NonEmptyAppend(a, b[..n]);
      assert (a + b)[..|a + b| - 1] == a + b[..n];
      assert (a + b)[|a + b| - 1] == b[n];
    }
  }

  /** A route is never empty and always starts at the root. */
  lemma AssembledRooted(kept: seq<string>, suffix: string)
    requires suffix == "" || suffix == "/"
    ensures var r := Assembled(kept, suffix);
      r != "" && r[0] == '/'
  {
    var s := "/" + JoinWith(kept, "/");
    var res := TrimEnd(s, '/');
    TrimEndSpec(s, '/');
    if res != "" {
      assert res[0] == s[0];
      assert (res + suffix)[0] == res[0];
    }
  }

  lemma RouteRooted(o: RouteOptions, dir: string, name: string)
    ensures var r := Route(o, dir, name);
      r != "" && r[0] == '/'
  {
    AssembledRooted(NonEmpty(Segments(o, dir, name)), Suffix(o));
  }

  lemma AssembledTrailingSlash(kept: seq<string>, slash: bool)
    ensures slash ==> EndsWithSlash(Assembled(kept, "/"))
    ensures !slash ==> Assembled(kept, "") == "/" || !EndsWithSlash(Assembled(kept, ""))
  {
    var res := TrimEnd("/" + JoinWith(kept, "/"), '/');
    if !slash && res != "" {
      assert res + "" == res;
    }
  }

  /** With trailing slashes on, a route ends in `/`; with them off, only the root route does. */
  lemma RouteTrailingSlash(o: RouteOptions, dir: string, name: string)
    ensures o.trailingSlash ==> EndsWithSlash(Route(o, dir, name))
    ensures !o.trailingSlash ==> Route(o, dir, name) == "/" || !EndsWithSlash(Route(o, dir, name))
  {
    AssembledTrailingSlash(NonEmpty(Segments(o, dir, name)), o.trailingSlash);
  }

  lemma AssembledPlain(kept: seq<string>, suffix: string)
    requires forall j :: 0 <= j < |kept| ==> kept[j] != "" && '/' !in kept[j]
    requires suffix == "" || suffix == "/"
    ensures Assembled(kept, suffix) == if kept == [] then "/" else "/" + JoinWith(kept, "/") + suffix
  {
    var s := "/" + JoinWith(kept, "/");
    if kept == [] {
      assert s == "/";
      assert TrimEnd(s, '/') == TrimEnd(s[..0], '/') == "";
      assert Assembled(kept, suffix) == if "" + suffix == "" then "/" else "" + suffix;
    } else {
      JoinWithLast(kept);
      var J := JoinWith(kept, "/");
      assert s[|s| - 1] == J[|J| - 1];
    }
  }

  /**
   * When no kept segment holds a slash, the route is the kept segments
   * joined under the root, followed by the suffix; no segments give `/`.
   */
  lemma RouteOfSegments(o: RouteOptions, dir: string, name: string)
    requires forall j :: 0 <= j < |NonEmpty(Segments(o, dir, name))| ==> '/' !in NonEmpty(Segments(o, dir, name))[j]
    ensures var kept := NonEmpty(Segments(o, dir, name));
      Route(o, dir, name) == if kept == [] then "/" else "/" + JoinWith(kept, "/") + Suffix(o)
  {
    AssembledPlain(NonEmpty(Segments(o, dir, name)), Suffix(o));
  }

  /**
   * The slugified name is the last kept segment exactly when the name is
   * not an index name (and does not slugify to nothing); an index name
   * leaves only the prefix and the directories.
   */
  lemma NameSegment(o: RouteOptions, dir: string, name: string)
    ensures name in o.index ==> NonEmpty(Segments(o, dir, name)) == NonEmpty(BaseSegments(o, dir))
    ensures name !in o.index && o.slugify(name) != "" ==>
      NonEmpty(Segments(o, dir, name)) == NonEmpty(BaseSegments(o, dir)) + [o.slugify(name)]
  {
    var tail := if name in o.index then [] else [o.slugify(name)];
    NonEmptyAppend(BaseSegments(o, dir), tail);
    if name in o.index {
      assert NonEmpty(tail) == [];
    } else if o.slugify(name) != "" {
      assert tail[..0] == [];
      assert NonEmpty(tail) == [o.slugify(name)];
    }
  }

  /** A non-empty prefix is the first kept segment. */
  lemma PrefixKept(o: RouteOptions, dir: string, name: string)
    requires Prefix(o) != ""
    ensures var kept := NonEmpty(Segments(o, dir, name));
      kept != [] && kept[0] == Prefix(o)
  {
    var P := Prefix(o);
    var rest := Slugs(o.slugify, Split(dir, '/')) + (if name in o.index then [] else [o.slugify(name)]);
    assert Segments(o, dir, name) == [P] + rest;
    NonEmptyAppend([P], rest);
    assert [P][..0] == [];
    assert NonEmpty([P]) == [P];
  }

  /** A joined list starts with its first part. */
  lemma JoinWithHead(parts: seq<string>)
    requires parts != []
    ensures var J := JoinWith(parts, "/");
      |J| >= |parts[0]| && J[..|parts[0]|] == parts[0]
  {
    if |parts| == 1 {
      assert parts == [parts[0]];
    } else {
      assert parts == [parts[0]] + parts[1..];
      JoinWithCons(parts[0], parts[1..], "/");
    }
  }

  /** Trimming trailing `c`s keeps every character up to the last one that is not `c`. */
  lemma TrimEndKeeps(s: string, c: char, k: nat)
    requires 0 < k <= |s| && s[k - 1] != c
    ensures |TrimEnd(s, c)| >= k && TrimEnd(s, c)[..k] == s[..k]
  {
    TrimEndSpec(s, c);
  }

  /** A route starts with `/` and its first kept segment, when that does not end in `/`. */
  lemma AssembledHead(kept: seq<string>, suffix: string)
    requires kept != [] && kept[0] != "" && kept[0][|kept[0]| - 1] != '/'
    ensures var P := kept[0]; var r := Assembled(kept, suffix);
      |r| > |P| && r[..|P| + 1] == "/" + P
  {
    var P := kept[0];
    var J := JoinWith(kept, "/");
    JoinWithHead(kept);
    var s := "/" + J;
    assert s[..|P| + 1] == "/" + P by {
      assert s[..|P| + 1] == "/" + J[..|P|];
    }
    assert s[|P|] == P[|P| - 1];
    var res := TrimEnd(s, '/');
    TrimEndKeeps(s, '/', |P| + 1);
    assert Assembled(kept, suffix) == res + suffix;
    assert (res + suffix)[..|P| + 1] == res[..|P| + 1];
  }

  /** With a non-empty prefix, every route starts with `/` and the prefix. */
  lemma PrefixFirst(o: RouteOptions, dir: string, name: string)
    requires Prefix(o) != ""
    ensures var P := Prefix(o); var r := Route(o, dir, name);
      |r| > |P| && r[..|P| + 1] == "/" + P
  {
    PrefixKept(o, dir, name);
    AssembledHead(NonEmpty(Segments(o, dir, name)), Suffix(o));
  }
}

=== FILE: source.dfy ===
/**
 * The plugin object of main.js, `NetlifyCmsSource`: its table of
 * collections, the node store it writes to, and the steps it takes when the
 * CMS configuration is loaded and when a watched file is added, removed or
 * changed.  The host (slugify, md5, camelcase, mime lookup, `path.relative`,
 * the Markdown renderer) is a set of uninterpreted functions; file contents
 * arrive as parameters.
 */
module Source {
  import opened Values
  import opened Strings
  import opened Paths
  import Plugin
  import Widgets
  import Routes
  import opened Registry

  /** What the plugin takes from its host and its libraries without modelling it. */
  datatype Host = Host(
    slugify: string -> string,              // actions.slugify
    md5: string -> string,                  // the hex md5 digest of createUid
    camelCase: string -> string,            // camelcase with pascalCase
    mimeLookup: string -> Value,            // mime.lookup: a type, or false
    relative: (string, string) -> string,   // path.relative
    marked: Value -> Result<Value>)         // the Markdown renderer

  /** The plugin options the core reads, and the site's `permalinks.trailingSlash`. */
  datatype Options = Options(typeName: string, index: seq<string>, pathPrefix: Value, trailingSlash: bool)

  /** What the plugin is set up with: host, options, base directory and the loaded CMS configuration. */
  datatype Setup = Setup(host: Host, options: Options, context: string, config: Value)

  /** What `transformNodeFiles` resolves to: a file's configuration with its route and its parsed data. */
  datatype FileRecord = FileRecord(props: Value, path: string, data: Value)

  const DigestTypeError := "The \"data\" argument must be of type string"

  function RouteOptionsOf(s: Setup): Routes.RouteOptions
  {
    Routes.RouteOptions(s.host.slugify, s.options.index, s.options.pathPrefix, s.options.trailingSlash)
  }

  function ParserOf(s: Setup): Widgets.Parser
  {
    Widgets.Parser(s.context, s.config, s.host.marked)
  }

  /** What `createCollections` registers for the loaded configuration. */
  function PlanOf(s: Setup): Plan
  {
    ConfigPlan(s.host.camelCase, s.options.typeName, s.config)
  }

  /**
   * `internal.mimeType` of a folder node: the looked-up type when there is
   * one, else `application/x-` followed by the extension with its first dot
   * removed.
   */
  function MimeType(lookup: Value, ext: string): Value
  {
    if Truthy(lookup) then lookup else Str("application/x-" + RemoveFirst(ext, "."))
  }

  /** An extension is empty or starts with its dot, so the fallback type names the extension without the dot. */
  lemma MimeFallback(lookup: Value, file: string)
    ensures var ext := ParseExt(file);
      (ext == "" || ext[0] == '.')
      && (Truthy(lookup) ==> MimeType(lookup, ext) == lookup)
      && (!Truthy(lookup) ==> MimeType(lookup, ext) == Str("application/x-" + (if ext == "" then "" else ext[1..])))
  {
    var ext := ParseExt(file);
    if ext != "" {
      var base := Basename(file);
      var d := LastIndexOf(base, '.');
      assert ext == base[d..];
      assert Occurs(ext, ".", 0) by {
        assert ext[0..1] == ".";
      }
      Widgets.RemoveFirstAt(ext, ".", 0);
      assert ext[..0] + ext[1..] == ext[1..];
    } else {
      assert !Contains(ext, ".");
    }
  }

  /** The node `createNodeOptions` builds for `file` of a folder collection, read as `content`. */
  function FolderNodeOf(s: Setup, file: string, content: string): Node
  {
    var dir := ParseDir(file);
    var name := ParseName(file);
    var ext := ParseExt(file);
    FolderNode(s.host.md5(s.host.relative(s.context, file)), Routes.Route(RouteOptionsOf(s), dir, name),
      FileInfo(ext, dir, file, name), MimeType(s.host.mimeLookup(file), ext), content, Join([s.context, file]))
  }

  /**
   * What `transformNodeFiles` resolves or rejects with for a single-file
   * entry `props`, given what reading its JSON yields.  YAML files are
   * rejected: the YAML branch reads a file without passing a path.
   */
  function Transformed(s: Setup, props: Value, json: Result<Value>): Result<FileRecord>
  {
    var file := Get(props, "file");
    if !file.Str? then Err(TypeError(Widgets.PathTypeError))
    else
      var mimeType := s.host.mimeLookup(file.s);
      if !Plugin.IsSupportedMime(mimeType) then Err(UnsupportedMime(Stringify(mimeType)))
      else if mimeType != Str("application/json") then Err(TypeError(Widgets.PathTypeError))
      else if json.Err? then Err(json.error)
      else
        match Widgets.Iterate(Get(props, "fields"))
        case Err(e) => Err(e)
        case Ok(fields) =>
          match Widgets.ParseRecord(ParserOf(s), json.value, fields, Get(props, "fields"))
          case Err(e) => Err(e)
          case Ok(data) => Ok(FileRecord(props, Routes.Route(RouteOptionsOf(s), ParseDir(file.s), ParseName(file.s)), data))
  }

  /** `createNodeFileOptions`: the record with its id, the digest of its `name`. */
  function WithId(s: Setup, rec: FileRecord): Result<Node>
  {
    var name := Get(rec.props, "name");
    if name.Str? then Ok(FileNode(s.host.md5(name.s), rec.path, rec.props, rec.data))
    else Err(TypeError(DigestTypeError))
  }

  /** The node a single-file entry gets from a change of its file. */
  function FileNodeOf(s: Setup, props: Value, json: Result<Value>): Result<Node>
  {
    match Transformed(s, props, json)
    case Err(e) => Err(e)
    case Ok(rec) => WithId(s, rec)
  }

  // ---------------------------------------------------------------------------
  // Properties of the nodes

  /**
   * The id of a file entry's node is the digest of the entry's `name` and
   * depends on nothing the file holds: every re-read of the file yields a
   * node under the same id, so `updateNode` on a change replaces the node
   * rather than adding one.  A name that is not a string never yields a node.
   */
  lemma FileIdStable(s: Setup, props: Value, j1: Result<Value>, j2: Result<Value>)
    ensures FileNodeOf(s, props, j1).Ok? ==>
      Get(props, "name").Str? && FileNodeOf(s, props, j1).value.id == s.host.md5(Get(props, "name").s)
    ensures FileNodeOf(s, props, j1).Ok? && FileNodeOf(s, props, j2).Ok? ==>
      FileNodeOf(s, props, j1).value.id == FileNodeOf(s, props, j2).value.id
  {
  }

  /**
   * Only JSON files become nodes: a file entry whose path is not a string,
   * whose type is not JSON, or whose JSON cannot be read is rejected.
   */
  lemma OnlyJsonTransforms(s: Setup, props: Value, json: Result<Value>)
    ensures Transformed(s, props, json).Ok? ==>
      Get(props, "file").Str? && s.host.mimeLookup(Get(props, "file").s) == Str("application/json") && json.Ok?
  {
  }

  /** Every type outside the supported two is rejected with its own name, before anything is read. */
  lemma UnsupportedRejected(s: Setup, props: Value, json: Result<Value>)
    requires Get(props, "file").Str?
    requires !Plugin.IsSupportedMime(s.host.mimeLookup(Get(props, "file").s))
    ensures Transformed(s, props, json) == Err(UnsupportedMime(Stringify(s.host.mimeLookup(Get(props, "file").s))))
  {
  }

  /** In particular Markdown, the other YAML type, and a failed lookup (`false`) are rejected. */
  lemma NeighboursRejected(s: Setup, props: Value, json: Result<Value>)
    requires Get(props, "file").Str?
    requires s.host.mimeLookup(Get(props, "file").s) in {Str("text/markdown"), Str("application/x-yaml"), Bool(false)}
    ensures Transformed(s, props, json) == Err(UnsupportedMime(Stringify(s.host.mimeLookup(Get(props, "file").s))))
  {
    Plugin.OthersUnsupported();
    UnsupportedRejected(s, props, json);
  }

  /** A YAML file passes the type check but is always rejected: its content is never read. */
  lemma YamlRejected(s: Setup, props: Value, json: Result<Value>)
    requires Get(props, "file").Str? && s.host.mimeLookup(Get(props, "file").s) == Str("text/yaml")
    ensures Transformed(s, props, json) == Err(TypeError(Widgets.PathTypeError))
  {
    Plugin.JsonAndYamlSupported();
  }

  /**
   * A transformed file keeps its configuration, is routed by its own
   * directory and name, and its data holds exactly one key per field name.
   */
  lemma TransformedData(s: Setup, props: Value, json: Result<Value>)
    ensures var r := Transformed(s, props, json);
      r.Ok? ==>
        r.value.props == props
        && r.value.path == Routes.Route(RouteOptionsOf(s), ParseDir(Get(props, "file").s), ParseName(Get(props, "file").s))
        && WellFormed(r.value.data)
        && forall k :: Has(r.value.data, k) <==> k in Widgets.Names(Widgets.Iterate(Get(props, "fields")).value)
  {
    var r := Transformed(s, props, json);
    if r.Ok? {
      var fields := Widgets.Iterate(Get(props, "fields")).value;
      Widgets.RecordKeys(ParserOf(s), json.value, fields, Get(props, "fields"));
    }
  }

  /** A change to a folder file replaces the node adding it created: both have the same id. */
  lemma ChangeReplacesAdded(s: Setup, nodes: seq<Node>, file: string, before: string, after: string)
    requires forall j :: 0 <= j < |nodes| ==> nodes[j].id != FolderNodeOf(s, file, before).id
    ensures ReplaceId(nodes + [FolderNodeOf(s, file, before)], FolderNodeOf(s, file, after))
      == nodes + [FolderNodeOf(s, file, after)]
  {
    var all := nodes + [FolderNodeOf(s, file, before)];
    assert forall j :: 0 <= j < |nodes| ==> all[j] == nodes[j];
    FindIdAt(all, FolderNodeOf(s, file, after).id, |nodes|);
    assert all[|nodes| := FolderNodeOf(s, file, after)] == nodes + [FolderNodeOf(s, file, after)];
  }

  /** Removing a file removes the node adding it created, when no other node came from that file. */
  lemma UnlinkUndoesAdd(s: Setup, nodes: seq<Node>, file: string, content: string)
    requires forall j :: 0 <= j < |nodes| ==> !HasOrigin(nodes[j], Join([s.context, file]))
    ensures RemoveOrigin(nodes + [FolderNodeOf(s, file, content)], Join([s.context, file])) == nodes
  {
    RemoveAdded(nodes, FolderNodeOf(s, file, content));
  }

  // ---------------------------------------------------------------------------
  // The plugin object

  class NetlifyCmsSource {
    const setup: Setup
    /** `this.collections`: entries by path or folder glob. */
    var collections: map<Value, Entry>
    /** The host's node collections, by type name. */
    var store: map<string, seq<Node>>

    /** Every entry's node collection exists in the store. */
    ghost predicate Valid()
      reads this
    {
      forall k :: k in collections ==> collections[k].typeName in store
    }

    constructor(setup: Setup)
      ensures this.setup == setup && collections == map[] && store == map[]
      ensures Valid()
    {
      this.setup := setup;
      collections := map[];
      store := map[];
    }

    /** `createPath`: the route of a file in `dir` named `name`. */
    method CreatePath(dir: string, name: string) returns (r: string)
      ensures r == Routes.Route(RouteOptionsOf(setup), dir, name)
    {
      var pathPrefix := Trim(LodashString(setup.options.pathPrefix), '/');
      var pathSuffix := if setup.options.trailingSlash then "/" else "";
      var segments := Routes.Slugs(setup.host.slugify, Split(dir, '/'));
      ghost var slugs := segments;
      if name !in setup.options.index {
        segments := segments + [setup.host.slugify(name)];
      }
      Routes.SegmentsInSteps(RouteOptionsOf(setup), dir, name, slugs, segments);
      if pathPrefix != "" {
        segments := [pathPrefix] + segments;
      }
      var res := TrimEnd("/" + JoinWith(NonEmpty(segments), "/"), '/');
      r := if res + pathSuffix == "" then "/" else res + pathSuffix;
    }

    /** `createNodeOptions` for a file of a folder collection, read as `content`. */
    method CreateNodeOptions(file: string, content: string) returns (r: Node)
      ensures r == FolderNodeOf(setup, file, content)
    {
      var relPath := setup.host.relative(setup.context, file);
      var origin := Join([setup.context, file]);
      var dir, name, ext := ParseDir(file), ParseName(file), ParseExt(file);
      var mimeType := setup.host.mimeLookup(file);
      if !Truthy(mimeType) {
        mimeType := Str("application/x-" + RemoveFirst(ext, "."));
      }
      var path := CreatePath(dir, name);
      r := FolderNode(setup.host.md5(relPath), path, FileInfo(ext, dir, file, name), mimeType, content, origin);
    }

    /** `createNodeFileOptions`: sets the record's id from its name. */
    method CreateNodeFileOptions(rec: FileRecord) returns (r: Result<Node>)
      ensures r == WithId(setup, rec)
    {
      var name := Get(rec.props, "name");
      if !name.Str? {
        return Err(TypeError(DigestTypeError));
      }
      r := Ok(FileNode(setup.host.md5(name.s), rec.path, rec.props, rec.data));
    }

    /** `transformNodeFiles` for a single-file entry, given what reading its JSON yields. */
    method TransformNodeFiles(entry: Entry, json: Result<Value>) returns (r: Result<FileRecord>)
      ensures r == Transformed(setup, entry.props, json)
    {
      var file := Get(entry.props, "file");
      if !file.Str? {
        return Err(TypeError(Widgets.PathTypeError));
      }
      var dir, name := ParseDir(file.s), ParseName(file.s);
      var mimeType := setup.host.mimeLookup(file.s);
      if !Plugin.IsSupportedMime(mimeType) {
        return Err(UnsupportedMime(Stringify(mimeType)));
      }
      if mimeType != Str("application/json") {
        return Err(TypeError(Widgets.PathTypeError));
      }
      if json.Err? {
        return Err(json.error);
      }
      var path := CreatePath(dir, name);
      var data := Widgets.ParseFields(ParserOf(setup), json.value, Get(entry.props, "fields"));
      if data.Err? {
        return Err(data.error);
      }
      r := Ok(FileRecord(entry.props, path, data.value));
    }

    /** One `this.collections.set(key, {nodeCollection: addCollection(...), ...})`. */
    method Register(reg: Registration)
      requires Valid()
      modifies this
      ensures Valid()
      ensures collections == old(collections)[reg.key := reg.entry]
      ensures store == if reg.entry.typeName in old(store) then old(store) else old(store)[reg.entry.typeName := []]
    {
      if reg.entry.typeName !in store {
        store := store[reg.entry.typeName := []];
      }
      collections := collections[reg.key := reg.entry];
    }

    /** One pass of the outer loop of `createCollections`. */
    method RegisterCollection(c: Value) returns (failure: Option<Error>)
      requires Valid()
      modifies this
      ensures Valid()
      ensures var plan := CollectionPlan(setup.host.camelCase, setup.options.typeName, c);
        failure == plan.failure
        && collections == Registered(old(collections), plan.regs)
        && store == WithCollections(old(store), plan.regs)
    {
      var camelCase, base := setup.host.camelCase, setup.options.typeName;
      if !(c.Obj? || c.List?) {
        return Some(TypeError(HasError));
      }
      if !Has(c, "files") {
        var folder := Get(c, "folder");
        if !folder.Str? {
          return Some(TypeError(Widgets.PathTypeError));
        }
        var reg := Registration(Str(FolderGlob(folder.s)), Entry(TypeName(camelCase, base, Get(c, "name")), c, false));
        Register(reg);
        RegisterOne(old(collections), old(store), [], reg);
        return None;
      }
      var it := Widgets.Iterate(Get(c, "files"));
      if it.Err? {
        return Some(it.error);
      }
      var files := it.value;
      var cname := Get(c, "name");
      var i := 0;
      while i < |files|
        invariant 0 <= i <= |files|
        invariant Valid()
        invariant FilesPlan(camelCase, base, cname, files[..i]).failure == None
        invariant collections == Registered(old(collections), FilesPlan(camelCase, base, cname, files[..i]).regs)
        invariant store == WithCollections(old(store), FilesPlan(camelCase, base, cname, files[..i]).regs)
      {
        var file := files[i];
        if !(file.Obj? || file.List?) {
          FilesFailStep(camelCase, base, cname, files, i);
          FilesStopped(camelCase, base, cname, files, i + 1);
          return Some(TypeError(FileGetError));
        }
        var reg := FileRegistration(camelCase, base, cname, file);
        RegisterOne(old(collections), old(store), FilesPlan(camelCase, base, cname, files[..i]).regs, reg);
        Register(reg);
        FilesOkStep(camelCase, base, cname, files, i);
        i := i + 1;
      }
      assert files[..i] == files;
      failure := None;
    }

    /** `createCollections`: registers every collection of the loaded configuration, up to the first error. */
    method CreateCollections() returns (failure: Option<Error>)
      requires Valid()
      modifies this
      ensures Valid()
      ensures failure == PlanOf(setup).failure
      ensures collections == Registered(old(collections), PlanOf(setup).regs)
      ensures store == WithCollections(old(store), PlanOf(setup).regs)
    {
      var camelCase, base := setup.host.camelCase, setup.options.typeName;
      var it := Widgets.Iterate(Get(setup.config, "collections"));
      if it.Err? {
        return Some(it.error);
      }
      var cs := it.value;
      var i := 0;
      while i < |cs|
        invariant 0 <= i <= |cs|
        invariant Valid()
        invariant PlanAll(camelCase, base, cs[..i]).failure == None
        invariant collections == Registered(old(collections), PlanAll(camelCase, base, cs[..i]).regs)
        invariant store == WithCollections(old(store), PlanAll(camelCase, base, cs[..i]).regs)
      {
        ghost var done := PlanAll(camelCase, base, cs[..i]).regs;
        failure := RegisterCollection(cs[i]);
        ghost var step := CollectionPlan(camelCase, base, cs[i]);
        RegisteredAppend(old(collections), done, step.regs);
        WithCollectionsAppend(old(store), done, step.regs);
        PlanAllStep(camelCase, base, cs, i);
        if failure.Some? {
          PlanAllStopped(camelCase, base, cs, i + 1);
          return;
        }
        i := i + 1;
      }
      assert cs[..i] == cs;
      failure := None;
    }

    /** Removes the nodes of collection `tn` one by one, by id. */
    method EmptyCollection(tn: string)
      requires Valid() && tn in store
      modifies this
      ensures Valid() && collections == old(collections)
      ensures store == old(store)[tn := []]
    {
      var nodes := store[tn];
      var j := 0;
      while j < |nodes|
        invariant 0 <= j <= |nodes|
        invariant collections == old(collections)
        invariant store == old(store)[tn := nodes[j..]]
      {
        RemoveFirstId(nodes[j..]);
        assert nodes[j..][1..] == nodes[j + 1..];
        store := store[tn := RemoveId(store[tn], nodes[j].id)];
        j := j + 1;
      }
    }

    /** Empties every collection of the table. */
    method ClearCollections()
      requires Valid()
      modifies this
      ensures Valid() && collections == old(collections)
      ensures store == Cleared(old(store), TypesOf(collections, collections.Keys))
    {
      var pending := collections.Keys;
      while pending != {}
        invariant pending <= collections.Keys && collections == old(collections)
        invariant Valid()
        invariant store == Cleared(old(store), TypesOf(collections, collections.Keys - pending))
        decreases |pending|
      {
        var k :| k in pending;
        ClearedStep(old(store), collections, collections.Keys - pending, k);
        EmptyCollection(collections[k].typeName);
        assert collections.Keys - (pending - {k}) == (collections.Keys - pending) + {k};
        pending := pending - {k};
      }
      assert collections.Keys - pending == collections.Keys;
    }

    /**
     * The config-change handler, up to its final `createNodes`: empties
     * every collection of the table and registers the configuration again.
     * The configuration is not read again and the table is not cleared.
     * Refilling the collections from disk is `createNodes`, which is not
     * part of this model.
     */
    method OnConfigChange() returns (failure: Option<Error>)
      requires Valid()
      modifies this
      ensures Valid()
      ensures failure == PlanOf(setup).failure
      ensures collections == Registered(old(collections), PlanOf(setup).regs)
      ensures store == WithCollections(Cleared(old(store), TypesOf(old(collections), old(collections).Keys)), PlanOf(setup).regs)
    {
      ClearCollections();
      failure := CreateCollections();
    }

    /** The `add` watch handler, for `file` read as `content`. */
    method OnAdd(file: string, content: string)
      requires Valid()
      modifies this
      ensures Valid() && collections == old(collections)
      ensures var owner := Owner(collections, file);
        if owner.Some? && !owner.value.isFile then
          owner.value.typeName in old(store)
          && store == old(store)[owner.value.typeName := old(store)[owner.value.typeName] + [FolderNodeOf(setup, file, content)]]
        else store == old(store)
    {
      var owner := Owner(collections, file);
      if owner.Some? && !owner.value.isFile {
        var options := CreateNodeOptions(file, content);
        var tn := owner.value.typeName;
        store := store[tn := store[tn] + [options]];
      }
    }

    /** The `unlink` watch handler. */
    method OnUnlink(file: string)
      requires Valid()
      modifies this
      ensures Valid() && collections == old(collections)
      ensures var owner := Owner(collections, file);
        if owner.Some? && !owner.value.isFile then
          owner.value.typeName in old(store)
          && store == old(store)[owner.value.typeName := RemoveOrigin(old(store)[owner.value.typeName], Join([setup.context, file]))]
        else store == old(store)
    {
      var owner := Owner(collections, file);
      if owner.Some? && !owner.value.isFile {
        var absPath := Join([setup.context, file]);
        var tn := owner.value.typeName;
        store := store[tn := RemoveOrigin(store[tn], absPath)];
      }
    }

    /** `node.collection.updateNode(options)` on collection `tn`. */
    method ReplaceNode(tn: string, n: Node)
      requires Valid() && tn in store
      modifies this
      ensures Valid() && collections == old(collections)
      ensures store == old(store)[tn := ReplaceId(old(store)[tn], n)]
    {
      store := store[tn := ReplaceId(store[tn], n)];
    }

    /** The `change` handler for a single-file entry: the file's JSON, read as `json`, is parsed again. */
    method ChangeFile(entry: Entry, json: Result<Value>) returns (failure: Option<Error>)
      requires Valid() && entry.typeName in store
      modifies this
      ensures Valid() && collections == old(collections)
      ensures match FileNodeOf(setup, entry.props, json)
        case Err(e) => failure == Some(e) && store == old(store)
        case Ok(n) => failure == None && store == old(store)[entry.typeName := ReplaceId(old(store)[entry.typeName], n)]
    {
      var rec := TransformNodeFiles(entry, json);
      if rec.Err? {
        return Some(rec.error);
      }
      var options := CreateNodeFileOptions(rec.value);
      if options.Err? {
        return Some(options.error);
      }
      ReplaceNode(entry.typeName, options.value);
      failure := None;
    }

    /**
     * The `change` watch handler, for `file` read as `content` and, for a
     * single-file entry, its JSON read as `json`.
     */
    method OnChange(file: string, content: string, json: Result<Value>) returns (failure: Option<Error>)
      requires Valid()
      modifies this
      ensures Valid() && collections == old(collections)
      ensures var owner := Owner(collections, file);
        if owner.None? then failure == None && store == old(store)
        else
          var tn := owner.value.typeName;
          tn in old(store)
          && if !owner.value.isFile then
               failure == None && store == old(store)[tn := ReplaceId(old(store)[tn], FolderNodeOf(setup, file, content))]
             else
               match FileNodeOf(setup, owner.value.props, json)
               case Err(e) => failure == Some(e) && store == old(store)
               case Ok(n) => failure == None && store == old(store)[tn := ReplaceId(old(store)[tn], n)]
    {
      var owner := Owner(collections, file);
      if owner.None? {
        return None;
      }
      if !owner.value.isFile {
        var options := CreateNodeOptions(file, content);
        ReplaceNode(owner.value.typeName, options);
        return None;
      }
      failure := ChangeFile(owner.value, json);
    }
  }
}

=== FILE: strings.dfy ===
/**
 * The string helpers the plugin takes from lodash (`trim`, `trimStart`,
 * `trimEnd` with one character to strip) and from the JavaScript string
 * prototype (`replace` with a string pattern, `split`, `Array.join`).
 */
module Strings {

  predicate Occurs(s: string, pat: string, i: int)
  {
    0 <= i && i + |pat| <= |s| && s[i..i + |pat|] == pat
  }

  predicate Contains(s: string, pat: string)
  {
    exists i :: 0 <= i <= |s| && Occurs(s, pat, i)
  }

  /** lodash `trimStart(s, c)`: drop every leading `c`. */
  function TrimStart(s: string, c: char): (r: string)
    ensures |r| <= |s|
    ensures r == [] || r[0] != c
    ensures s == [] || s[0] != c ==> r == s
  {
    if s != [] && s[0] == c then TrimStart(s[1..], c) else s
  }

  /** What `trimStart` drops is a run of `c`, and what it keeps is the rest of `s`. */
  lemma {:induction false} TrimStartSpec(s: string, c: char)
    ensures var r := TrimStart(s, c);
      r == s[|s| - |r|..] && forall i :: 0 <= i < |s| - |r| ==> s[i] == c
  {
    if s != [] && s[0] == c {
      TrimStartSpec(s[1..], c);
    }
  }

  /** lodash `trimEnd(s, c)`: drop every trailing `c`. */
  function TrimEnd(s: string, c: char): (r: string)
    ensures |r| <= |s|
    ensures r == [] || r[|r| - 1] != c
    ensures s == [] || s[|s| - 1] != c ==> r == s
  {
    if s != [] && s[|s| - 1] == c then TrimEnd(s[..|s| - 1], c) else s
  }

  /** What `trimEnd` drops is a run of `c`, and what it keeps is the front of `s`. */
  lemma {:induction false} TrimEndSpec(s: string, c: char)
    ensures var r := TrimEnd(s, c);
      r == s[..|r|] && forall i :: |r| <= i < |s| ==> s[i] == c
  {
    if s != [] && s[|s| - 1] == c {
      TrimEndSpec(s[..|s| - 1], c);
    }
  }

  /** lodash `trim(s, c)`. */
  function Trim(s: string, c: char): (r: string)
    ensures r == [] || (r[0] != c && r[|r| - 1] != c)
    ensures |r| <= |s|
    ensures s == [] || (s[0] != c && s[|s| - 1] != c) ==> r == s
  {
    var t := TrimStart(s, c);
    TrimEndSpec(t, c);
    TrimEnd(t, c)
  }

  /** Index of the first occurrence of `pat` in `s`, searching from `from`. */
  function IndexOfFrom(s: string, pat: string, from: nat): (r: int)
    requires from <= |s| + 1
    ensures r == -1 || (from <= r && Occurs(s, pat, r))
    ensures r == -1 ==> forall i :: from <= i ==> !Occurs(s, pat, i)
    ensures r != -1 ==> forall i :: from <= i < r ==> !Occurs(s, pat, i)
    decreases |s| + 1 - from
  {
    if from + |pat| > |s| then -1
    else if s[from..from + |pat|] == pat then from
    else IndexOfFrom(s, pat, from + 1)
  }

  /** `String.prototype.indexOf` with a string pattern. */
  function IndexOf(s: string, pat: string): (r: int)
    ensures r == -1 <==> !Contains(s, pat)
    ensures r != -1 ==> Occurs(s, pat, r) && forall i :: 0 <= i < r ==> !Occurs(s, pat, i)
  {
    IndexOfFrom(s, pat, 0)
  }

  /**
   * `s.replace(pat, '')` with a string pattern: the FIRST occurrence of
   * `pat`, wherever it is, is removed; without an occurrence `s` is kept.
   */
  function RemoveFirst(s: string, pat: string): (r: string)
    ensures !Contains(s, pat) ==> r == s
    ensures Contains(s, pat) ==> |r| == |s| - |pat|
  {
    var i := IndexOf(s, pat);
    if i == -1 then s else s[..i] + s[i + |pat|..]
  }

  /** Index of the last `c` in `s`, or -1. */
  function LastIndexOf(s: string, c: char): (r: int)
    ensures -1 <= r < |s|
    ensures r >= 0 ==> s[r] == c
    ensures forall i :: r < i < |s| ==> s[i] != c
  {
    if s == [] then -1
    else if s[|s| - 1] == c then |s| - 1
    else LastIndexOf(s[..|s| - 1], c)
  }

  /** `s.split(c)`: the pieces between the occurrences of `c`. */
  function Split(s: string, c: char): (r: seq<string>)
    ensures |r| >= 1
    ensures forall j :: 0 <= j < |r| ==> c !in r[j]
    decreases |s|
  {
    var k := LastIndexOf(s, c);
    if k < 0 then
      assert forall i :: 0 <= i < |s| ==> s[i] != c;
      [s]
    else
      var last := s[k + 1..];
      assert forall i :: 0 <= i < |last| ==> last[i] == s[k + 1 + i];
      Split(s[..k], c) + [last]
  }

  /** `parts.join(sep)`. */
  function JoinWith(parts: seq<string>, sep: string): string
  {
    if parts == [] then ""
    else if |parts| == 1 then parts[0]
    else JoinWith(parts[..|parts| - 1], sep) + sep + parts[|parts| - 1]
  }

  /** Splitting at `c` and joining again with `c` gives the string back. */
  lemma {:induction false} SplitJoin(s: string, c: char)
    ensures JoinWith(Split(s, c), [c]) == s
    decreases |s|
  {
    var k := LastIndexOf(s, c);
    if k >= 0 {
      SplitJoin(s[..k], c);
      var front := Split(s[..k], c);
      var parts := front + [s[k + 1..]];
      assert parts[..|parts| - 1] == front;
      assert s == s[..k] + [c] + s[k + 1..];
    }
  }

  /** Appending a piece without `c` appends one part to the split. */
  lemma SplitAppend(s: string, c: char, piece: string)
    requires c !in piece
    ensures Split(s + [c] + piece, c) == Split(s, c) + [piece]
  {
    var t := s + [c] + piece;
    assert t[..|s|] == s;
    assert t[|s| + 1..] == piece;
    assert t[|s|] == c;
    assert forall i :: |s| < i < |t| ==> t[i] == piece[i - |s| - 1];
  }

  /** Joining pieces without `c` with `c` and splitting again gives the pieces back. */
  lemma {:induction false} JoinSplit(parts: seq<string>, c: char)
    requires parts != []
    requires forall j :: 0 <= j < |parts| ==> c !in parts[j]
    ensures Split(JoinWith(parts, [c]), c) == parts
  {
    if |parts| > 1 {
      var init := parts[..|parts| - 1];
      var last := parts[|parts| - 1];
      JoinSplit(init, c);
      assert JoinWith(parts, [c]) == JoinWith(init, [c]) + [c] + last;
      SplitAppend(JoinWith(init, [c]), c, last);
      assert init + [last] == parts;
    }
  }

  /** Joining a list with a first element in front. */
  lemma {:induction false} JoinWithCons(a: string, parts: seq<string>, sep: string)
    requires parts != []
    ensures JoinWith([a] + parts, sep) == a + sep + JoinWith(parts, sep)
  {
    var all := [a] + parts;
    if |parts| == 1 {
      assert all[..1] == [a];
    } else {
      var init := parts[..|parts| - 1];
      var last := parts[|parts| - 1];
      assert all[..|all| - 1] == [a] + init;
      calc {
        JoinWith(all, sep);
        JoinWith([a] + init, sep) + sep + last;
        { JoinWithCons(a, init, sep); }
        (a + sep + JoinWith(init, sep)) + sep + last;
        a + sep + (JoinWith(init, sep) + sep + last);
        a + sep + JoinWith(parts, sep);
      }
    }
  }
}

=== FILE: values.dfy ===
/**
 * JavaScript values as the plugin sees them: the Immutable.js maps and lists
 * the configuration is made of after `fromJS`/`mergeDeep`, and the plain
 * objects and arrays that JSON/YAML content parses into.  Both kinds of
 * map are an `Obj` (its values by key, and its keys in insertion order)
 * and both kinds of list are a `List`.
 */
module Values {

  datatype Value =
    | Undefined
    | Null
    | Bool(b: bool)
    | Num(n: int)
    | Str(s: string)
    | List(items: seq<Value>)
    | Obj(keys: seq<string>, vals: map<string, Value>)

  /** What a JavaScript `throw` or a rejected promise carries in this model. */
  datatype Error =
    | TypeError(reason: string)
    | Thrown(message: string)   // a plain `Error`, not a `TypeError`
    | UnsupportedMime(mime: string)
    | IoError(path: string)

  datatype Result<T> = Ok(value: T) | Err(error: Error)

  datatype Option<T> = None | Some(value: T)

  /** JavaScript truthiness: `undefined`, `null`, `false`, `0` and `''` are falsy. */
  predicate Truthy(v: Value)
  {
    match v
    case Undefined => false
    case Null => false
    case Bool(b) => b
    case Num(n) => n != 0
    case Str(s) => s != ""
    case List(_) => true
    case Obj(_, _) => true
  }

  // ---------------------------------------------------------------------------
  // Maps: has / get / set / delete.  `keys` is the insertion order of the
  // keys of `vals`.

  /** A map whose key order lists each of its keys exactly once. */
  predicate WellFormed(o: Value)
  {
    o.Obj?
    && (forall i :: 0 <= i < |o.keys| ==> o.keys[i] in o.vals)
    && (forall k :: k in o.vals ==> k in o.keys)
    && forall i, j :: 0 <= i < j < |o.keys| ==> o.keys[i] != o.keys[j]
  }

  /** An empty map. */
  function EmptyObj(): (r: Value)
    ensures WellFormed(r) && forall k :: !Has(r, k)
  {
    Obj([], map[])
  }

  /** A map with the one entry `k: v`. */
  function Singleton(k: string, v: Value): (r: Value)
    ensures WellFormed(r) && Has(r, k) && Get(r, k) == v
    ensures forall k' :: k' != k ==> !Has(r, k')
  {
    Obj([k], map[k := v])
  }

  /** `map.has(k)`; only maps have keys. */
  predicate Has(o: Value, k: string)
  {
    o.Obj? && k in o.vals
  }

  /** `map.get(k)`: `undefined` when the key is absent. */
  function Get(o: Value, k: string): (r: Value)
    ensures !Has(o, k) ==> r == Undefined
  {
    if o.Obj? && k in o.vals then o.vals[k] else Undefined
  }

  /**
   * `map.set(k, v)` on an Immutable map: an existing key keeps its position,
   * a new key is appended.
   */
  function Set(o: Value, k: string, v: Value): (r: Value)
    requires o.Obj?
    ensures r.Obj? && Has(r, k) && Get(r, k) == v
    ensures forall k' :: k' != k ==> Has(r, k') == Has(o, k') && Get(r, k') == Get(o, k')
    ensures r.keys == if Has(o, k) then o.keys else o.keys + [k]
  {
    Obj(if k in o.vals then o.keys else o.keys + [k], o.vals[k := v])
  }

  /** `set` keeps every key listed exactly once. */
  lemma SetWellFormed(o: Value, k: string, v: Value)
    requires WellFormed(o)
    ensures WellFormed(Set(o, k, v))
  {
  }

  /** The key order without `k`. */
  function RemoveKey(keys: seq<string>, k: string): (r: seq<string>)
    ensures forall i :: 0 <= i < |r| ==> r[i] != k && r[i] in keys
    ensures forall k' :: k' in keys && k' != k ==> k' in r
  {
    if keys == [] then []
    else if keys[|keys| - 1] == k then RemoveKey(keys[..|keys| - 1], k)
    else RemoveKey(keys[..|keys| - 1], k) + [keys[|keys| - 1]]
  }

  /** `map.delete(k)`. */
  function Delete(o: Value, k: string): (r: Value)
    requires o.Obj?
    ensures r.Obj? && !Has(r, k)
    ensures forall k' :: k' != k ==> Has(r, k') == Has(o, k') && Get(r, k') == Get(o, k')
  {
    Obj(RemoveKey(o.keys, k), o.vals - {k})
  }

  /** Writing back the value a key already holds gives the same map. */
  lemma SetSame(o: Value, k: string)
    requires Has(o, k)
    ensures Set(o, k, Get(o, k)) == o
  {
    assert o.vals[k := o.vals[k]] == o.vals;
  }

  /** A value held under a key is below the map holding it, in the order used for termination. */
  lemma GetSmaller(o: Value, k: string)
    requires Has(o, k)
    ensures Get(o, k) < o
  {
  }

  /** `c` differs from `c0` at most at `keys`: every other key is present in both or in neither, with the same value. */
  ghost predicate Frame(c0: Value, c: Value, keys: set<string>)
  {
    c0.Obj? && c.Obj? && c.vals - keys == c0.vals - keys
  }

  lemma FrameGet(c0: Value, c: Value, keys: set<string>, k: string)
    requires Frame(c0, c, keys) && k !in keys
    ensures Has(c, k) == Has(c0, k) && Get(c, k) == Get(c0, k)
  {
    assert k in c.vals <==> k in c.vals - keys;
    assert k in c0.vals <==> k in c0.vals - keys;
    if k in c.vals {
      assert c.vals[k] == (c.vals - keys)[k];
      assert c0.vals[k] == (c0.vals - keys)[k];
    }
  }

  lemma FrameSet(o: Value, k: string, v: Value, keys: set<string>)
    requires o.Obj? && k in keys
    ensures Frame(o, Set(o, k, v), keys)
  {
  }

  lemma FrameDelete(o: Value, k: string, keys: set<string>)
    requires o.Obj? && k in keys
    ensures Frame(o, Delete(o, k), keys)
  {
  }

  lemma FrameTrans(a: Value, b: Value, c: Value, keys: set<string>)
    requires Frame(a, b, keys) && Frame(b, c, keys)
    ensures Frame(a, c, keys)
  {
  }

  lemma FrameWiden(a: Value, b: Value, k1: set<string>, k2: set<string>)
    requires Frame(a, b, k1) && k1 <= k2
    ensures Frame(a, b, k2)
  {
    forall x | x !in k2
      ensures (x in b.vals <==> x in a.vals) && (x in b.vals ==> b.vals[x] == a.vals[x])
    {
      FrameGet(a, b, k1, x);
    }
    assert b.vals - k2 == a.vals - k2;
  }

  // ---------------------------------------------------------------------------
  // String conversion

  function DigitChar(d: nat): char
    requires d < 10
  {
    "0123456789"[d]
  }

  function NatToDecimal(n: nat): (r: string)
    ensures r != []
    ensures forall i :: 0 <= i < |r| ==> '0' <= r[i] <= '9'
    decreases n
  {
    if n < 10 then [DigitChar(n)] else NatToDecimal(n / 10) + [DigitChar(n % 10)]
  }

  /**
   * What a template literal `${v}` makes of a value.  Lists and maps become
   * fixed placeholder texts (Immutable.js' own rendering is not modelled).
   */
  function Stringify(v: Value): string
  {
    match v
    case Undefined => "undefined"
    case Null => "null"
    case Bool(b) => if b then "true" else "false"
    case Num(n) => if n < 0 then "-" + NatToDecimal(-n) else NatToDecimal(n)
    case Str(s) => s
    case List(_) => "List []"
    case Obj(_, _) => "Map {}"
  }

  /** lodash's `toString`: `null` and `undefined` become the empty string. */
  function LodashString(v: Value): (r: string)
    ensures v.Str? ==> r == v.s
    ensures v.Undefined? || v.Null? ==> r == ""
  {
    if v.Undefined? || v.Null? then "" else Stringify(v)
  }

  // ---------------------------------------------------------------------------
  // Own properties of plain content values (`Object.prototype.hasOwnProperty`)

  predicate IsDigit(c: char) { '0' <= c <= '9' }

  /** A canonical array index: decimal digits, no leading zero. */
  function ArrayIndex(s: string): Option<nat>
  {
    if s == "" || (|s| > 1 && s[0] == '0') then None
    else if forall i :: 0 <= i < |s| ==> IsDigit(s[i]) then Some(DecimalValue(s))
    else None
  }

  function DecimalValue(s: string): nat
    requires forall i :: 0 <= i < |s| ==> IsDigit(s[i])
  {
    if s == "" then 0
    else
      assert IsDigit(s[|s| - 1]);
      10 * DecimalValue(s[..|s| - 1]) + (s[|s| - 1] as int - '0' as int)
  }

  /**
   * Whether `name` is an own property of `content`: a key of a map, an index
   * or `length` of an array or a string; numbers and booleans have none.
   */
  predicate OwnKey(content: Value, name: string)
  {
    match content
    case Obj(_, vals) => name in vals
    case List(items) =>
      name == "length" || (ArrayIndex(name).Some? && ArrayIndex(name).value < |items|)
    case Str(s) =>
      name == "length" || (ArrayIndex(name).Some? && ArrayIndex(name).value < |s|)
    case _ => false
  }

  /** `content[name]` for an own property `name`. */
  function Member(content: Value, name: string): (r: Value)
    requires OwnKey(content, name)
    ensures content.Obj? ==> r == Get(content, name)
  {
    match content
    case Obj(_, vals) => vals[name]
    case List(items) =>
      if name == "length" then Num(|items|) else items[ArrayIndex(name).value]
    case Str(s) =>
      if name == "length" then Num(|s|) else Str([s[ArrayIndex(name).value]])
  }
}

=== FILE: walker.dfy ===
/**
 * `traverseFields` (config.js): a recursive map over a field tree.  Every
 * field is a map; its children sit under `fields` (a list of fields),
 * `field` (one nested field) or `types` (a list of fields), looked at in
 * that order.  The updater receives each field and its dotted path; the
 * `done` predicate can stop the walk.
 *
 * The JavaScript `updater` and `done` are closures that may share state
 * (a counter, a result found so far).  Here that state is explicit: it is
 * threaded through the walk, the updater returns the new state with the
 * new field, and `done` looks at the state.
 */
module Walker {
  import opened Values
  import opened Strings

  datatype Walk<S> = Walk(state: S, out: Result<Value>)

  type Updater<!S> = (S, Value, string) -> (S, Value)

  /** The three child keys, and what they hold, are the same in `a` and `b`. */
  ghost predicate SameChildren(a: Value, b: Value)
  {
    && Has(a, "fields") == Has(b, "fields") && Get(a, "fields") == Get(b, "fields")
    && Has(a, "field") == Has(b, "field") && Get(a, "field") == Get(b, "field")
    && Has(a, "types") == Has(b, "types") && Get(a, "types") == Get(b, "types")
  }

  /**
   * The updater leaves the children of a field alone.  Without this an
   * updater could grow the tree under the walk and the walk would not end.
   */
  ghost predicate KeepsChildren<S(!new)>(upd: Updater<S>)
  {
    forall s: S, f: Value, p: string :: f.Obj? && upd(s, f, p).1.Obj? ==> SameChildren(f, upd(s, f, p).1)
  }

  /** The path handed to the updater: `trimStart(trimEnd(prefix, '.') + '.' + name, '.')`. */
  function NodePath(prefix: string, f: Value): string
  {
    TrimStart(TrimEnd(prefix, '.') + "." + Stringify(Get(f, "name")), '.')
  }

  /** The prefix handed to the children of `g`: `prefix + name + '.'`. */
  function ChildPrefix(prefix: string, g: Value): string
  {
    prefix + Stringify(Get(g, "name")) + "."
  }

  /** `traverseFields(fields, updater, done, prefix)`. */
  function Traverse<S(!new)>(s: S, fields: Value, upd: Updater<S>, done: S -> bool, prefix: string): (w: Walk<S>)
    requires KeepsChildren(upd)
    ensures done(s) ==> w == Walk(s, Ok(fields))
    ensures !done(s) && w.out.Ok? ==> fields.List? && w.out.value.List? && |w.out.value.items| == |fields.items|
    decreases fields, 2
  {
    if done(s) then Walk(s, Ok(fields))
    else if !fields.List? then Walk(s, Err(TypeError("fields.map is not a function")))
    else
      var w := MapItems(s, fields.items, upd, done, prefix);
      Walk(w.0, if w.1.Ok? then Ok(List(w.1.value)) else Err(w.1.error))
  }

  /** The `fields.map(...)` of `traverseFields`: every item is visited, in order, until one throws. */
  function MapItems<S(!new)>(s: S, items: seq<Value>, upd: Updater<S>, done: S -> bool, prefix: string)
    : (w: (S, Result<seq<Value>>))
    requires KeepsChildren(upd)
    ensures w.1.Ok? ==> |w.1.value| == |items|
    decreases items, 1
  {
    if items == [] then (s, Ok([]))
    else
      var first := VisitNode(s, items[0], upd, done, prefix);
      if first.out.Err? then (first.state, Err(first.out.error))
      else
        var rest := MapItems(first.state, items[1..], upd, done, prefix);
        if rest.1.Err? then rest
        else (rest.0, Ok([first.out.value] + rest.1.value))
  }

  /** The callback of that `map`: update one field, then descend into one child branch. */
  function VisitNode<S(!new)>(s: S, f: Value, upd: Updater<S>, done: S -> bool, prefix: string): (w: Walk<S>)
    requires KeepsChildren(upd)
    ensures f.Obj? && done(upd(s, f, NodePath(prefix, f)).0) ==>
      w == Walk(upd(s, f, NodePath(prefix, f)).0, Ok(upd(s, f, NodePath(prefix, f)).1))
    ensures f.Obj? && Has(f, "field") && !Has(f, "fields") && !done(upd(s, f, NodePath(prefix, f)).0) ==> w.out.Err?
    decreases f, 0
  {
    if !f.Obj? then Walk(s, Err(TypeError("f.get is not a function")))
    else
      var (s1, g) := upd(s, f, NodePath(prefix, f));
      if done(s1) then Walk(s1, Ok(g))
      else if !g.Obj? then Walk(s1, Err(TypeError("field.has is not a function")))
      else
        assert SameChildren(f, g);
        var cp := ChildPrefix(prefix, g);
        if Has(g, "fields") then
          GetSmaller(f, "fields");
          var w := Traverse(s1, Get(g, "fields"), upd, done, cp);
          Walk(w.state, if w.out.Ok? then Ok(Set(g, "fields", w.out.value)) else w.out)
        else if Has(g, "field") then
          GetSmaller(f, "field");
          // The child is wrapped in a one-element plain array, so the walk of
          // that array (not yet done) is the visit of the child alone; if
          // that does not throw, `.get(0)` on the plain array it returns does.
          var w := VisitNode(s1, Get(g, "field"), upd, done, cp);
          Walk(w.state, if w.out.Err? then w.out else Err(TypeError("traverseFields(...).get is not a function")))
        else if Has(g, "types") then
          GetSmaller(f, "types");
          var w := Traverse(s1, Get(g, "types"), upd, done, cp);
          Walk(w.state, if w.out.Ok? then Ok(Set(g, "types", w.out.value)) else w.out)
        else Walk(s1, Ok(g))
  }

  /** One step of the `map`: the first item, then the rest from the state it left. */
  lemma MapItemsCons<S(!new)>(s: S, items: seq<Value>, upd: Updater<S>, done: S -> bool, prefix: string)
    requires KeepsChildren(upd)
    requires items != []
    ensures var first := VisitNode(s, items[0], upd, done, prefix);
      var rest := MapItems(first.state, items[1..], upd, done, prefix);
      MapItems(s, items, upd, done, prefix) ==
        if first.out.Err? then (first.state, Err(first.out.error))
        else if rest.1.Err? then rest
        else (rest.0, Ok([first.out.value] + rest.1.value))
  {
  }

  // ---------------------------------------------------------------------------
  // Trees the walk gets through

  /** A field name that neither is empty nor starts or ends with a dot. */
  predicate CleanName(n: string)
  {
    n != "" && n[0] != '.' && n[|n| - 1] != '.'
  }

  /**
   * A list of fields the walk maps without throwing: every field is a map,
   * `fields` and `types` children are lists of such fields, and no field
   * reaches the `field` branch.  With `named`, every field also has a
   * clean string name.
   */
  predicate WalkableList(v: Value, named: bool)
    decreases v, 2
  {
    v.List? && WalkableItems(v.items, named)
  }

  predicate WalkableItems(items: seq<Value>, named: bool)
    decreases items, 1
  {
    items != [] ==> WalkableNode(items[0], named) && WalkableItems(items[1..], named)
  }

  predicate WalkableNode(f: Value, named: bool)
    decreases f, 0
  {
    && f.Obj?
    && (named ==> Get(f, "name").Str? && CleanName(Get(f, "name").s))
    && if Has(f, "fields") then
         GetSmaller(f, "fields");
         WalkableList(Get(f, "fields"), named)
       else if Has(f, "field") then false
       else if Has(f, "types") then
         GetSmaller(f, "types");
         WalkableList(Get(f, "types"), named)
       else true
  }
}

=== FILE: walker_laws.dfy ===
/**
 * Laws of `traverseFields`: the identity updater gives the tree back, the
 * paths the updater sees are the dotted name paths in pre-order, and a
 * `done` that turns true does not stop the siblings of a field.
 */
module WalkerLaws {
  import opened Values
  import opened Strings
  import opened Walker

  // ---------------------------------------------------------------------------
  // The identity law

  /** The identity updater: the state and the field are passed through. */
  function Same<S>(): Updater<S>
  {
    (s: S, f: Value, p: string) => (s, f)
  }

  function NotDone<S>(): S -> bool
  {
    (s: S) => false
  }

  lemma SameKeepsChildren<S(!new)>()
    ensures KeepsChildren(Same<S>())
  {
  }

  /**
   * With the identity updater and a `done` that never holds, the walk gives
   * back exactly the trees it can get through (no `field` child anywhere)
   * and throws on every other input.
   */
  lemma {:induction false} IdentityTraverse<S(!new)>(s: S, v: Value, prefix: string)
    ensures KeepsChildren(Same<S>())
    ensures Traverse<S>(s, v, Same(), NotDone(), prefix).state == s
    ensures Traverse<S>(s, v, Same(), NotDone(), prefix).out.Ok? <==> WalkableList(v, false)
    ensures WalkableList(v, false) ==> Traverse<S>(s, v, Same(), NotDone(), prefix).out == Ok(v)
    decreases v, 2
  {
    SameKeepsChildren<S>();
    if v.List? {
      IdentityItems(s, v.items, prefix);
    }
  }

  lemma IdentityStep<S(!new)>(s: S, items: seq<Value>, prefix: string)
    requires items != []
    requires KeepsChildren(Same<S>())
    requires VisitNode<S>(s, items[0], Same(), NotDone(), prefix).state == s
    requires VisitNode<S>(s, items[0], Same(), NotDone(), prefix).out.Ok? <==> WalkableNode(items[0], false)
    requires WalkableNode(items[0], false) ==> VisitNode<S>(s, items[0], Same(), NotDone(), prefix).out == Ok(items[0])
    requires MapItems<S>(s, items[1..], Same(), NotDone(), prefix).0 == s
    requires MapItems<S>(s, items[1..], Same(), NotDone(), prefix).1.Ok? <==> WalkableItems(items[1..], false)
    requires WalkableItems(items[1..], false) ==> MapItems<S>(s, items[1..], Same(), NotDone(), prefix).1 == Ok(items[1..])
    ensures MapItems<S>(s, items, Same(), NotDone(), prefix).0 == s
    ensures MapItems<S>(s, items, Same(), NotDone(), prefix).1.Ok? <==> WalkableItems(items, false)
    ensures WalkableItems(items, false) ==> MapItems<S>(s, items, Same(), NotDone(), prefix).1 == Ok(items)
  {
    MapItemsCons<S>(s, items, Same(), NotDone(), prefix);
    assert [items[0]] + items[1..] == items;
  }

  lemma {:induction false} IdentityItems<S(!new)>(s: S, items: seq<Value>, prefix: string)
    ensures KeepsChildren(Same<S>())
    ensures MapItems<S>(s, items, Same(), NotDone(), prefix).0 == s
    ensures MapItems<S>(s, items, Same(), NotDone(), prefix).1.Ok? <==> WalkableItems(items, false)
    ensures WalkableItems(items, false) ==> MapItems<S>(s, items, Same(), NotDone(), prefix).1 == Ok(items)
    decreases items, 1
  {
    SameKeepsChildren<S>();
    if items != [] {
      IdentityNode(s, items[0], prefix);
      IdentityItems(s, items[1..], prefix);
      IdentityStep(s, items, prefix);
    }
  }

  lemma {:induction false} IdentityNode<S(!new)>(s: S, f: Value, prefix: string)
    ensures KeepsChildren(Same<S>())
    ensures VisitNode<S>(s, f, Same(), NotDone(), prefix).state == s
    ensures VisitNode<S>(s, f, Same(), NotDone(), prefix).out.Ok? <==> WalkableNode(f, false)
    ensures WalkableNode(f, false) ==> VisitNode<S>(s, f, Same(), NotDone(), prefix).out == Ok(f)
    decreases f, 0
  {
    SameKeepsChildren<S>();
    if f.Obj? {
      assert Same<S>()(s, f, NodePath(prefix, f)) == (s, f);
      var cp := ChildPrefix(prefix, f);
      if Has(f, "fields") {
        GetSmaller(f, "fields");
        IdentityTraverse(s, Get(f, "fields"), cp);
        SetSame(f, "fields");
      } else if Has(f, "field") {
        GetSmaller(f, "field");
        IdentityNode(s, Get(f, "field"), cp);
      } else if Has(f, "types") {
        GetSmaller(f, "types");
        IdentityTraverse(s, Get(f, "types"), cp);
        SetSame(f, "types");
      }
    }
  }

  // ---------------------------------------------------------------------------
  // The paths the updater is called with

  predicate AllClean(names: seq<string>)
  {
    forall i :: 0 <= i < |names| ==> CleanName(names[i])
  }

  /** The prefix a field at depth |anc| is visited with: every ancestor name followed by a dot. */
  function DotPrefix(anc: seq<string>): string
  {
    if anc == [] then "" else DotPrefix(anc[..|anc| - 1]) + anc[|anc| - 1] + "."
  }

  /** The names of the ancestors and of the field itself, joined by dots. */
  function Dotted(names: seq<string>): string
  {
    JoinWith(names, ".")
  }

  /** Every path of the tree, in the pre-order the walk visits fields. */
  function PathsList(anc: seq<string>, v: Value): seq<string>
    requires WalkableList(v, true)
    decreases v, 2
  {
    PathsItems(anc, v.items)
  }

  function PathsItems(anc: seq<string>, items: seq<Value>): seq<string>
    requires WalkableItems(items, true)
    decreases items, 1
  {
    if items == [] then []
    else
      PathsNode(anc, items[0]) + PathsItems(anc, items[1..])
  }

  function PathsNode(anc: seq<string>, f: Value): seq<string>
    requires WalkableNode(f, true)
    decreases f, 0
  {
    var n := Get(f, "name").s;
    [Dotted(anc + [n])] +
      if Has(f, "fields") then
        GetSmaller(f, "fields");
        PathsList(anc + [n], Get(f, "fields"))
      else if Has(f, "types") then
        GetSmaller(f, "types");
        PathsList(anc + [n], Get(f, "types"))
      else []
  }

  lemma {:induction false} DotPrefixJoin(anc: seq<string>)
    requires AllClean(anc) && anc != []
    ensures DotPrefix(anc) == Dotted(anc) + "."
    ensures Dotted(anc) != "" && Dotted(anc)[0] != '.' && Dotted(anc)[|Dotted(anc)| - 1] != '.'
  {
    var init := anc[..|anc| - 1];
    var last := anc[|anc| - 1];
    assert CleanName(last);
    if init != [] {
      assert AllClean(init) by {
        forall i | 0 <= i < |init| ensures CleanName(init[i]) {
          assert init[i] == anc[i];
        }
      }
      DotPrefixJoin(init);
      assert Dotted(anc) == Dotted(init) + "." + last;
    } else {
      assert Dotted(anc) == last;
    }
  }

  /** The path the walk computes for a field is its dotted name path. */
  lemma NodePathIsDotted(anc: seq<string>, n: string)
    requires AllClean(anc) && CleanName(n)
    ensures NodePath(DotPrefix(anc), Singleton("name", Str(n))) == Dotted(anc + [n])
    ensures TrimStart(TrimEnd(DotPrefix(anc), '.') + "." + n, '.') == Dotted(anc + [n])
  {
    assert Get(Singleton("name", Str(n)), "name") == Str(n);
    assert (anc + [n])[..|anc|] == anc;
    if anc == [] {
      assert [] + [n] == [n];
      var t := "." + n;
      assert TrimStart(t, '.') == TrimStart(t[1..], '.');
      assert t[1..] == n;
    } else {
      DotPrefixJoin(anc);
      var d := Dotted(anc);
      assert TrimEnd(d + ".", '.') == TrimEnd(d, '.');
      assert TrimEnd(d, '.') == d;
      assert (d + "." + n)[0] == d[0];
      assert Dotted(anc + [n]) == d + "." + n;
    }
  }

  lemma NodePathOf(prefix: string, f: Value, n: string)
    requires Get(f, "name") == Str(n)
    ensures NodePath(prefix, f) == TrimStart(TrimEnd(prefix, '.') + "." + n, '.')
    ensures ChildPrefix(prefix, f) == prefix + n + "."
  {
  }

  lemma AllCleanAppend(anc: seq<string>, n: string)
    requires AllClean(anc) && CleanName(n)
    ensures AllClean(anc + [n])
    ensures DotPrefix(anc + [n]) == DotPrefix(anc) + n + "."
  {
    assert (anc + [n])[..|anc|] == anc;
  }

  /** An updater that appends its path argument to a log and changes no field. */
  function Record(): Updater<seq<string>>
  {
    (l: seq<string>, f: Value, p: string) => (l + [p], f)
  }

  function Never(): seq<string> -> bool
  {
    (l: seq<string>) => false
  }

  lemma RecordKeepsChildren()
    ensures KeepsChildren(Record())
  {
  }

  /**
   * With an updater that records its path argument, the walk records the
   * dotted path of every field (ancestor names and its own name joined by
   * dots), in pre-order, and returns the tree unchanged.
   */
  lemma {:induction false} RecordedTraverse(log: seq<string>, v: Value, anc: seq<string>)
    requires AllClean(anc) && WalkableList(v, true)
    ensures KeepsChildren(Record())
    ensures Traverse<seq<string>>(log, v, Record(), Never(), DotPrefix(anc)) == Walk(log + PathsList(anc, v), Ok(v))
    decreases v, 2
  {
    RecordedItems(log, v.items, anc);
  }

  lemma {:induction false} RecordedItems(log: seq<string>, items: seq<Value>, anc: seq<string>)
    requires AllClean(anc) && WalkableItems(items, true)
    ensures KeepsChildren(Record())
    ensures MapItems<seq<string>>(log, items, Record(), Never(), DotPrefix(anc)) == (log + PathsItems(anc, items), Ok(items))
    decreases items, 1
  {
    RecordKeepsChildren();
    if items != [] {
      RecordedNode(log, items[0], anc);
      var log1 := log + PathsNode(anc, items[0]);
      RecordedItems(log1, items[1..], anc);
      MapItemsCons<seq<string>>(log, items, Record(), Never(), DotPrefix(anc));
      assert [items[0]] + items[1..] == items;
      assert PathsItems(anc, items) == PathsNode(anc, items[0]) + PathsItems(anc, items[1..]);
      Associative(log, PathsNode(anc, items[0]), PathsItems(anc, items[1..]));
    } else {
      assert log + PathsItems(anc, items) == log;
    }
  }

  /** The visit of a field with a `fields` or `types` child, given what the walk of that child gives. */
  lemma RecordedParent(log: seq<string>, f: Value, prefix: string, n: string, path: string, key: string, tail: seq<string>)
    requires f.Obj? && Get(f, "name") == Str(n) && NodePath(prefix, f) == path
    requires key == "fields" || key == "types"
    requires Has(f, key) && (key == "types" ==> !Has(f, "fields") && !Has(f, "field"))
    requires KeepsChildren(Record())
    requires Traverse<seq<string>>(log + [path], Get(f, key), Record(), Never(), prefix + n + ".")
      == Walk(log + [path] + tail, Ok(Get(f, key)))
    ensures VisitNode<seq<string>>(log, f, Record(), Never(), prefix) == Walk(log + [path] + tail, Ok(f))
  {
    assert Record()(log, f, path) == (log + [path], f);
    SetSame(f, key);
  }

  lemma Associative(a: seq<string>, b: seq<string>, c: seq<string>)
    ensures a + b + c == a + (b + c)
  {
  }

  /** The visit of a field without children. */
  lemma RecordedLeaf(log: seq<string>, f: Value, prefix: string, path: string)
    requires f.Obj? && NodePath(prefix, f) == path
    requires !Has(f, "fields") && !Has(f, "field") && !Has(f, "types")
    requires KeepsChildren(Record())
    ensures VisitNode<seq<string>>(log, f, Record(), Never(), prefix) == Walk(log + [path], Ok(f))
  {
    assert Record()(log, f, path) == (log + [path], f);
  }

  lemma {:induction false} RecordedNode(log: seq<string>, f: Value, anc: seq<string>)
    requires AllClean(anc) && WalkableNode(f, true)
    ensures KeepsChildren(Record())
    ensures VisitNode<seq<string>>(log, f, Record(), Never(), DotPrefix(anc)) == Walk(log + PathsNode(anc, f), Ok(f))
    decreases f, 0
  {
    RecordKeepsChildren();
    var n := Get(f, "name").s;
    var prefix := DotPrefix(anc);
    NodePathOf(prefix, f, n);
    NodePathIsDotted(anc, n);
    var path := Dotted(anc + [n]);
    AllCleanAppend(anc, n);
    if Has(f, "fields") || Has(f, "types") {
      var key := if Has(f, "fields") then "fields" else "types";
      GetSmaller(f, key);
      RecordedTraverse(log + [path], Get(f, key), anc + [n]);
      var tail := PathsList(anc + [n], Get(f, key));
      RecordedParent(log, f, prefix, n, path, key, tail);
      assert PathsNode(anc, f) == [path] + tail;
      Associative(log, [path], tail);
    } else {
      RecordedLeaf(log, f, prefix, path);
      assert PathsNode(anc, f) == [path];
      assert log + [path] == log + PathsNode(anc, f);
    }
  }

  // ---------------------------------------------------------------------------
  // Order of the map

  /**
   * Where the map succeeds, its item `i` is the visit of input item `i`
   * from the state the visits of `items[..i]` left behind: the items are
   * visited front to back and the state flows from each to the next.
   */
  lemma {:induction false} MapItemsAt<S(!new)>(s: S, items: seq<Value>, upd: Updater<S>, done: S -> bool, prefix: string, i: nat)
    requires KeepsChildren(upd)
    requires i < |items|
    requires MapItems(s, items, upd, done, prefix).1.Ok?
    ensures MapItems(s, items[..i], upd, done, prefix).1.Ok?
    ensures var before := MapItems(s, items[..i], upd, done, prefix).0;
      var v := VisitNode(before, items[i], upd, done, prefix);
      v.out.Ok? && MapItems(s, items, upd, done, prefix).1.value[i] == v.out.value
    decreases i
  {
    var first := VisitNode(s, items[0], upd, done, prefix);
    var rest := MapItems(first.state, items[1..], upd, done, prefix);
    assert first.out.Ok? && rest.1.Ok?;
    if i > 0 {
      MapItemsAt(first.state, items[1..], upd, done, prefix, i - 1);
      assert items[..i][0] == items[0];
      assert items[..i][1..] == items[1..][..i - 1];
      assert items[1..][i - 1] == items[i];
    }
  }

  // ---------------------------------------------------------------------------
  // Stopping early

  /** Once `done` holds, no update makes it false again. */
  ghost predicate StaysDone<S(!new)>(upd: Updater<S>, done: S -> bool)
  {
    forall s: S, f: Value, p: string :: done(s) ==> done(upd(s, f, p).0)
  }

  /** Every item updated once, in order, with the state threaded through and nothing descended into. */
  function UpdateEach<S>(s: S, items: seq<Value>, upd: Updater<S>, prefix: string): (r: (S, seq<Value>))
    ensures |r.1| == |items|
  {
    if items == [] then (s, [])
    else
      var (s1, g) := upd(s, items[0], NodePath(prefix, items[0]));
      var rest := UpdateEach(s1, items[1..], upd, prefix);
      (rest.0, [g] + rest.1)
  }

  predicate AllMaps(items: seq<Value>)
  {
    items != [] ==> items[0].Obj? && AllMaps(items[1..])
  }

  /**
   * Once `done()` is true, the map still passes every remaining sibling to
   * the updater, in order, but descends into none of them and cannot throw.
   */
  lemma {:induction false} StoppedItems<S(!new)>(s: S, items: seq<Value>, upd: Updater<S>, done: S -> bool, prefix: string)
    requires KeepsChildren(upd) && StaysDone(upd, done)
    requires done(s) && AllMaps(items)
    ensures var u := UpdateEach(s, items, upd, prefix);
      MapItems(s, items, upd, done, prefix) == (u.0, Ok(u.1))
    decreases |items|
  {
    if items != [] {
      var (s1, g) := upd(s, items[0], NodePath(prefix, items[0]));
      assert done(s1);
      StoppedItems(s1, items[1..], upd, done, prefix);
    }
  }

  /**
   * A `done` that turns true at the first update: the first field is
   * updated and not descended into, and the walk does NOT halt there:
   * every later sibling is still passed to the updater (and returned as
   * updated), none of them descended into.
   */
  lemma StopAfterFirstUpdate<S(!new)>(s: S, items: seq<Value>, upd: Updater<S>, done: S -> bool, prefix: string)
    requires KeepsChildren(upd) && StaysDone(upd, done)
    requires !done(s) && AllMaps(items) && items != []
    requires done(upd(s, items[0], NodePath(prefix, items[0])).0)
    ensures var u := UpdateEach(s, items, upd, prefix);
      Traverse(s, List(items), upd, done, prefix) == Walk(u.0, Ok(List(u.1)))
  {
    var (s1, g) := upd(s, items[0], NodePath(prefix, items[0]));
    StoppedItems(s1, items[1..], upd, done, prefix);
  }
}

=== FILE: widgets.dfy ===
/**
 * The widgets that turn the content of a file into the data of a node:
 * one widget per field of the collection schema, chosen by the field's
 * `widget` setting, and `parseFields`, which runs the widget of every field
 * and collects the results into a record keyed by field name.
 *
 * Fields are configuration maps; content is whatever the JSON/YAML file
 * parsed into.  Every widget first checks that the content is truthy and
 * has the field's name as an own property, and answers `null` otherwise.
 */
module Widgets {
  import opened Values
  import opened Strings
  import opened Paths

  datatype WidgetKind = ListWidget | MarkdownWidget | ImageWidget | FileWidget | PlainWidget

  /**
   * What a widget reads from the source plugin: the site directory, the
   * CMS configuration, and the Markdown renderer (`marked`, which may throw).
   */
  datatype Parser = Parser(context: string, config: Value, markdown: Value -> Result<Value>)

  const FieldGetError := "field.get is not a function"
  const PathTypeError := "The \"path\" argument must be of type string"
  const ReplaceError := "replace is not a function"
  const NotIterableError := "object is not iterable"

  /** The widget `getWidget` builds for a field: by its `widget` setting, compared strictly. */
  function KindOf(field: Value): (r: WidgetKind)
    requires field.Obj?
    ensures r == ListWidget <==> Get(field, "widget") == Str("list")
    ensures r == MarkdownWidget <==> Get(field, "widget") == Str("markdown")
    ensures r == ImageWidget <==> Get(field, "widget") == Str("image")
    ensures r == FileWidget <==> Get(field, "widget") == Str("file")
  {
    var w := Get(field, "widget");
    if w == Str("list") then ListWidget
    else if w == Str("markdown") then MarkdownWidget
    else if w == Str("image") then ImageWidget
    else if w == Str("file") then FileWidget
    else PlainWidget
  }

  /** The property key `field.get('name')` stands for. */
  function FieldName(field: Value): string
  {
    Stringify(Get(field, "name"))
  }

  /** The guard every widget starts with: truthy content holding the field as an own property. */
  predicate Present(content: Value, name: string)
  {
    Truthy(content) && OwnKey(content, name)
  }

  // ---------------------------------------------------------------------------
  // The leaf widgets

  /** The base widget: the content's own value for the field, else `null`. */
  function ParsePlain(field: Value, content: Value): (r: Value)
    ensures !Present(content, FieldName(field)) ==> r == Null
    ensures content.Obj? && Truthy(content) ==> r == if Has(content, FieldName(field)) then Get(content, FieldName(field)) else Null
  {
    var name := FieldName(field);
    if Present(content, name) then Member(content, name) else Null
  }

  /** The Markdown widget: the field's value rendered by the parser's renderer, else `null`. */
  function ParseMarkdown(p: Parser, field: Value, content: Value): (r: Result<Value>)
    ensures !Present(content, FieldName(field)) ==> r == Ok(Null)
    ensures Present(content, FieldName(field)) ==> r == p.markdown(Member(content, FieldName(field)))
  {
    var name := FieldName(field);
    if Present(content, name) then p.markdown(Member(content, name)) else Ok(Null)
  }

  /**
   * The image widget: the file name of the stored path, placed in the
   * configured media folder under the site directory.
   */
  function ParseImage(p: Parser, field: Value, content: Value): (r: Result<Value>)
    ensures !Present(content, FieldName(field)) ==> r == Ok(Null)
    ensures Present(content, FieldName(field)) ==>
      (r.Err? <==> !Member(content, FieldName(field)).Str? || !Get(p.config, "media_folder").Str?)
    ensures r.Ok? && Present(content, FieldName(field)) ==> r.value.Str?
  {
    var name := FieldName(field);
    if !Present(content, name) then Ok(Null)
    else
      var v := Member(content, name);
      if !v.Str? then Err(TypeError(PathTypeError))
      else
        var media := Get(p.config, "media_folder");
        if !media.Str? then Err(TypeError(PathTypeError))
        else Ok(Str(ImagePath(p.context, media.s, v.s)))
  }

  /** `path.join(path.join(context, mediaFolder, path.basename(stored)))`. */
  function ImagePath(context: string, mediaFolder: string, stored: string): string
  {
    Join([Join([context, mediaFolder, Basename(stored)])])
  }

  /**
   * The image widget keeps only the file name and puts it directly inside
   * `join(context, media_folder)`, one slash between, whatever directories
   * the stored path named.
   */
  lemma ImageInMediaFolder(context: string, mediaFolder: string, stored: string)
    requires context != [] && context[0] == '/'
    requires PlainSegment(Basename(stored))
    ensures var b := Basename(stored);
      var D := Join([context, mediaFolder]);
      ImagePath(context, mediaFolder, stored) == D + (if EndsWithSlash(D) then "" else "/") + b
      && Basename(ImagePath(context, mediaFolder, stored)) == b
  {
    JoinInside(context, mediaFolder, Basename(stored));
    BasenameInside(Join([context, mediaFolder]), Basename(stored));
  }

  /** The directories of the stored path are discarded: `dir/b` lands where `b` does. */
  lemma ImageIgnoresDirectories(context: string, mediaFolder: string, dir: string, b: string)
    requires b != "" && '/' !in b
    ensures ImagePath(context, mediaFolder, dir + "/" + b) == ImagePath(context, mediaFolder, b)
  {
    BasenameOfChild(dir, b);
  }

  /** What the file widget makes of a stored path: the first occurrence of the public folder removed, then leading slashes. */
  function StripPublicFolder(url: string, publicFolder: string): (r: string)
    ensures r == [] || r[0] != '/'
    ensures !Contains(url, publicFolder) ==> r == TrimStart(url, '/')
  {
    TrimStart(RemoveFirst(url, publicFolder), '/')
  }

  /** A path under the public folder becomes relative to it. */
  lemma StripUnderPublicFolder(publicFolder: string, rest: string)
    requires rest == [] || rest[0] != '/'
    ensures StripPublicFolder(publicFolder + "/" + rest, publicFolder) == rest
  {
    var url := publicFolder + "/" + rest;
    assert url[..|publicFolder|] == publicFolder;
    assert Occurs(url, publicFolder, 0);
    assert IndexOf(url, publicFolder) == 0;
    assert RemoveFirst(url, publicFolder) == "/" + rest;
    assert ("/" + rest)[1..] == rest;
  }

  /** `replace` removes the occurrence at `k` when none comes before it. */
  lemma RemoveFirstAt(s: string, pat: string, k: nat)
    requires Occurs(s, pat, k) && forall i :: 0 <= i < k ==> !Occurs(s, pat, i)
    ensures RemoveFirst(s, pat) == s[..k] + s[k + |pat|..]
  {
    assert IndexOf(s, pat) == k;
  }

  /**
   * The public folder is removed wherever it first occurs, not only at the
   * start: text before it stays, so `/images/uploads/a.png` with public
   * folder `/uploads` gives `images/a.png`.
   */
  lemma StripInsidePath(before: string, publicFolder: string, rest: string)
    requires forall i :: 0 <= i < |before| ==> !Occurs(before + publicFolder + rest, publicFolder, i)
    ensures StripPublicFolder(before + publicFolder + rest, publicFolder) == TrimStart(before + rest, '/')
  {
    var s := before + publicFolder + rest;
    assert s[|before|..|before| + |publicFolder|] == publicFolder;
    RemoveFirstAt(s, publicFolder, |before|);
    assert s[..|before|] == before;
    assert s[|before| + |publicFolder|..] == rest;
  }

  /** The file widget: the stored path with the configured public folder stripped, else `null`. */
  function ParseFile(p: Parser, field: Value, content: Value): (r: Result<Value>)
    ensures !Present(content, FieldName(field)) ==> r == Ok(Null)
    ensures Present(content, FieldName(field)) ==> (r.Err? <==> !Member(content, FieldName(field)).Str?)
    ensures r.Ok? && Present(content, FieldName(field)) ==>
      r.value.Str? && (r.value.s == [] || r.value.s[0] != '/')
  {
    var name := FieldName(field);
    if !Present(content, name) then Ok(Null)
    else
      var v := Member(content, name);
      if !v.Str? then Err(TypeError(ReplaceError))
      else Ok(Str(StripPublicFolder(v.s, Stringify(Get(p.config, "public_folder")))))
  }

  // ---------------------------------------------------------------------------
  // The list widget and `parseFields`

  /** Every field in `fields` that is a map lies below `parent`. */
  ghost predicate Below(fields: seq<Value>, parent: Value)
  {
    forall i :: 0 <= i < |fields| ==> fields[i].Obj? ==> fields[i] < parent
  }

  /**
   * What spreading or `for..of` yields: a list's items, a map's `[key,
   * value]` entries in key order, a string's characters; anything else
   * throws.
   */
  function Iterate(v: Value): (r: Result<seq<Value>>)
    ensures r.Ok? ==> Below(r.value, v)
  {
    match v
    case List(items) => Ok(items)
    case Obj(keys, _) =>
      Ok(seq(|keys|, i requires 0 <= i < |keys| => List([Str(keys[i]), Get(v, keys[i])])))
    case Str(s) => Ok(seq(|s|, i requires 0 <= i < |s| => Str([s[i]])))
    case _ => Err(TypeError(NotIterableError))
  }

  /** Lists, maps and strings can be spread, nothing else; what each yields. */
  lemma IterateSpec(v: Value)
    ensures Iterate(v).Err? <==> !(v.List? || v.Obj? || v.Str?)
    ensures v.List? ==> Iterate(v) == Ok(v.items)
    ensures v.Obj? ==> |Iterate(v).value| == |v.keys|
    ensures v.Obj? ==> forall i :: 0 <= i < |v.keys| ==> Iterate(v).value[i] == List([Str(v.keys[i]), Get(v, v.keys[i])])
    ensures v.Str? ==> |Iterate(v).value| == |v.s| && forall i :: 0 <= i < |v.s| ==> Iterate(v).value[i] == Str([v.s[i]])
  {
  }

  /** The list widget's subfields: the first truthy of `fields` and `field`, spread. */
  function GetFields(field: Value): (r: Result<seq<Value>>)
    requires field.Obj?
    ensures r.Ok? ==> Below(r.value, field)
  {
    if Truthy(Get(field, "fields")) then Iterate(Get(field, "fields"))
    else if Truthy(Get(field, "field")) then Iterate(Get(field, "field"))
    else Ok([])
  }

  /** A list value's rows are its items; any other value is a list of one row. */
  function Rows(data: Value): seq<Value>
  {
    if data.List? then data.items else [data]
  }

  /** A field's widget applied to the content. */
  function ParseWith(p: Parser, field: Value, content: Value): (r: Result<Value>)
    requires field.Obj?
    ensures !Present(content, FieldName(field)) ==> r == Ok(Null)
    decreases field, 5, 0
  {
    match KindOf(field)
    case ListWidget => ParseList(p, field, content)
    case MarkdownWidget => ParseMarkdown(p, field, content)
    case ImageWidget => ParseImage(p, field, content)
    case FileWidget => ParseFile(p, field, content)
    case PlainWidget => Ok(ParsePlain(field, content))
  }

  /**
   * The list widget: a list value's rows, or a bare value as one row, each
   * parsed against the subfields into a record, all of them awaited together.
   * The subfields are only looked at when there is a row.
   */
  function ParseList(p: Parser, field: Value, content: Value): (r: Result<Value>)
    requires field.Obj?
    ensures !Present(content, FieldName(field)) ==> r == Ok(Null)
    ensures r.Ok? && Present(content, FieldName(field)) ==> r.value.List?
    decreases field, 4, 0
  {
    var name := FieldName(field);
    if !Present(content, name) then Ok(Null)
    else
      var rows := Rows(Member(content, name));
      if rows == [] then Ok(List([]))
      else
        match GetFields(field)
        case Err(e) => Err(e)
        case Ok(fs) =>
          match AllOk(RowResults(p, field, rows, fs))
          case Err(e) => Err(e)
          case Ok(records) => Ok(List(records))
  }

  /** What `parseFields` gives for each row, in order. */
  function RowResults(p: Parser, field: Value, rows: seq<Value>, fs: seq<Value>): (r: seq<Result<Value>>)
    requires Below(fs, field)
    ensures |r| == |rows|
    decreases field, 3, |rows|
  {
    if rows == [] then []
    else RowResults(p, field, rows[..|rows| - 1], fs) + [ParseRecord(p, rows[|rows| - 1], fs, field)]
  }

  /**
   * `parseFields`: the record of the content under `fields`, each field's
   * widget result stored under its name, a later field of the same name
   * overwriting an earlier one; the first failing field's error otherwise.
   */
  function ParseRecord(p: Parser, content: Value, fields: seq<Value>, ghost parent: Value): (r: Result<Value>)
    requires Below(fields, parent)
    ensures r.Ok? ==> r.value.Obj?
    decreases parent, 2, 0
  {
    Assemble(fields, Results(p, content, fields, parent))
  }

  /** What each field's widget gives for the content; a field that is not a map gives nothing to look at. */
  function Results(p: Parser, content: Value, fields: seq<Value>, ghost parent: Value): (r: seq<Result<Value>>)
    requires Below(fields, parent)
    ensures |r| == |fields|
    decreases parent, 1, |fields|
  {
    if fields == [] then []
    else
      var f := fields[|fields| - 1];
      Results(p, content, fields[..|fields| - 1], parent) + [if f.Obj? then ParseWith(p, f, content) else Ok(Null)]
  }

  // ---------------------------------------------------------------------------
  // Collecting results

  /**
   * `Promise.all` over results taken in order: every value when all
   * succeed, the first failure's error otherwise.
   */
  function AllOk(outs: seq<Result<Value>>): (r: Result<seq<Value>>)
  {
    if outs == [] then Ok([])
    else
      match AllOk(outs[..|outs| - 1])
      case Err(e) => Err(e)
      case Ok(init) =>
        match outs[|outs| - 1]
        case Err(e) => Err(e)
        case Ok(v) => Ok(init + [v])
  }

  /**
   * The loop of `parseFields` over given field results: a field that is not
   * a map throws, a failing widget's error is passed on, and otherwise the
   * result is set under the field's name.
   */
  function Assemble(fields: seq<Value>, outs: seq<Result<Value>>): (r: Result<Value>)
    requires |outs| == |fields|
    ensures r.Ok? ==> r.value.Obj?
  {
    if fields == [] then Ok(EmptyObj())
    else
      var n := |fields| - 1;
      match Assemble(fields[..n], outs[..n])
      case Err(e) => Err(e)
      case Ok(rec) =>
        if !fields[n].Obj? then Err(TypeError(FieldGetError))
        else
          match outs[n]
          case Err(e) => Err(e)
          case Ok(v) => Ok(Set(rec, FieldName(fields[n]), v))
  }

  /** All results succeeded. */
  ghost predicate AllSucceed(outs: seq<Result<Value>>)
  {
    forall i :: 0 <= i < |outs| ==> outs[i].Ok?
  }

  /** `Promise.all` resolves exactly when every result does. */
  lemma AllOkIff(outs: seq<Result<Value>>)
    ensures AllOk(outs).Ok? <==> forall i :: 0 <= i < |outs| ==> outs[i].Ok?
  {
    if AllOk(outs).Ok? {
      AllOkSucceed(outs);
    } else if AllSucceed(outs) {
      SucceedAllOk(outs);
    }
  }

  lemma {:induction false} AllOkSucceed(outs: seq<Result<Value>>)
    requires AllOk(outs).Ok?
    ensures AllSucceed(outs)
  {
    if outs != [] {
      var n := |outs| - 1;
      AllOkSucceed(outs[..n]);
      assert forall i :: 0 <= i < n ==> outs[..n][i] == outs[i];
    }
  }

  lemma {:induction false} SucceedAllOk(outs: seq<Result<Value>>)
    requires AllSucceed(outs)
    ensures AllOk(outs).Ok?
  {
    if outs != [] {
      var n := |outs| - 1;
      assert forall i :: 0 <= i < n ==> outs[..n][i] == outs[i];
      SucceedAllOk(outs[..n]);
    }
  }

  /** `Promise.all` keeps the results one to one and in order. */
  lemma {:induction false} AllOkValues(outs: seq<Result<Value>>)
    requires AllOk(outs).Ok?
    ensures |AllOk(outs).value| == |outs|
    ensures forall i :: 0 <= i < |outs| ==> outs[i] == Ok(AllOk(outs).value[i])
  {
    if outs != [] {
      var n := |outs| - 1;
      AllOkValues(outs[..n]);
      assert forall i :: 0 <= i < n ==> outs[..n][i] == outs[i];
    }
  }

  /** `Promise.all` fails with the error of the first failing result. */
  lemma {:induction false} AllOkFirstError(outs: seq<Result<Value>>) returns (i: nat)
    requires AllOk(outs).Err?
    ensures i < |outs| && outs[i] == Err(AllOk(outs).error)
    ensures forall j :: 0 <= j < i ==> outs[j].Ok?
  {
    var n := |outs| - 1;
    if AllOk(outs[..n]).Err? {
      i := AllOkFirstError(outs[..n]);
      assert outs[..n][i] == outs[i];
      assert forall j :: 0 <= j < i ==> outs[..n][j] == outs[j];
    } else {
      i := n;
      AllOkSucceed(outs[..n]);
      assert forall j :: 0 <= j < n ==> outs[..n][j] == outs[j];
    }
  }

  // ---------------------------------------------------------------------------
  // Properties of assembled records

  /** Every field is a map and every result succeeded. */
  ghost predicate AllFieldsParse(fields: seq<Value>, outs: seq<Result<Value>>)
    requires |outs| == |fields|
  {
    forall i :: 0 <= i < |fields| ==> fields[i].Obj? && outs[i].Ok?
  }

  lemma {:induction false} AssembleOkFields(fields: seq<Value>, outs: seq<Result<Value>>)
    requires |outs| == |fields| && Assemble(fields, outs).Ok?
    ensures AllFieldsParse(fields, outs)
  {
    if fields != [] {
      var n := |fields| - 1;
      AssembleOkFields(fields[..n], outs[..n]);
      assert forall i :: 0 <= i < n ==> fields[..n][i] == fields[i] && outs[..n][i] == outs[i];
    }
  }

  lemma {:induction false} FieldsAssembleOk(fields: seq<Value>, outs: seq<Result<Value>>)
    requires |outs| == |fields| && AllFieldsParse(fields, outs)
    ensures Assemble(fields, outs).Ok?
  {
    if fields != [] {
      var n := |fields| - 1;
      assert forall i :: 0 <= i < n ==> fields[..n][i] == fields[i] && outs[..n][i] == outs[i];
      FieldsAssembleOk(fields[..n], outs[..n]);
    }
  }

  /** The names of the fields, in order. */
  function Names(fields: seq<Value>): (r: seq<string>)
    ensures |r| == |fields| && forall i :: 0 <= i < |fields| ==> r[i] == FieldName(fields[i])
  {
    if fields == [] then [] else Names(fields[..|fields| - 1]) + [FieldName(fields[|fields| - 1])]
  }

  lemma {:induction false} AssembleKeys(fields: seq<Value>, outs: seq<Result<Value>>)
    requires |outs| == |fields|
    ensures var r := Assemble(fields, outs);
      r.Ok? ==> WellFormed(r.value) && forall k :: Has(r.value, k) <==> k in Names(fields)
  {
    var r := Assemble(fields, outs);
    if fields != [] && r.Ok? {
      var n := |fields| - 1;
      AssembleKeys(fields[..n], outs[..n]);
      var rec := Assemble(fields[..n], outs[..n]).value;
      var name := FieldName(fields[n]);
      var v := outs[n].value;
      assert r.value == Set(rec, name, v);
      SetWellFormed(rec, name, v);
      assert Names(fields) == Names(fields[..n]) + [name];
      forall k
        ensures Has(r.value, k) <==> k in Names(fields)
      {
        assert k in Names(fields) <==> k in Names(fields[..n]) || k == name;
      }
    }
  }

  lemma {:induction false} AssembleValue(fields: seq<Value>, outs: seq<Result<Value>>, i: nat)
    requires |outs| == |fields| && Assemble(fields, outs).Ok?
    requires i < |fields|
    requires forall j :: i < j < |fields| ==> FieldName(fields[j]) != FieldName(fields[i])
    ensures fields[i].Obj? && outs[i].Ok?
    ensures Get(Assemble(fields, outs).value, FieldName(fields[i])) == outs[i].value
  {
    var n := |fields| - 1;
    if i < n {
      assert fields[..n][i] == fields[i] && outs[..n][i] == outs[i];
      AssembleValue(fields[..n], outs[..n], i);
    }
  }

  /** Every key of the map holds `null`. */
  ghost predicate AllNull(o: Value)
  {
    forall k :: Has(o, k) ==> Get(o, k) == Null
  }

  lemma SetNull(o: Value, k: string)
    requires o.Obj? && AllNull(o)
    ensures AllNull(Set(o, k, Null))
  {
  }

  lemma {:induction false} AssembleNull(fields: seq<Value>, outs: seq<Result<Value>>)
    requires |outs| == |fields|
    requires forall i :: 0 <= i < |fields| && fields[i].Obj? ==> outs[i] == Ok(Null)
    ensures Assemble(fields, outs).Ok? ==> AllNull(Assemble(fields, outs).value)
  {
    if fields != [] && Assemble(fields, outs).Ok? {
      var n := |fields| - 1;
      assert forall i :: 0 <= i < n ==> fields[..n][i] == fields[i] && outs[..n][i] == outs[i];
      AssembleNull(fields[..n], outs[..n]);
      var rec := Assemble(fields[..n], outs[..n]).value;
      SetNull(rec, FieldName(fields[n]));
    }
  }

  /** An error in the first fields is the error of the whole record. */
  lemma {:induction false} AssembleErrPrefix(fields: seq<Value>, outs: seq<Result<Value>>, i: nat)
    requires |outs| == |fields| && i <= |fields|
    requires Assemble(fields[..i], outs[..i]).Err?
    ensures Assemble(fields, outs) == Assemble(fields[..i], outs[..i])
    decreases |fields| - i
  {
    if i < |fields| {
      var n := |fields| - 1;
      assert fields[..n][..i] == fields[..i] && outs[..n][..i] == outs[..i];
      AssembleErrPrefix(fields[..n], outs[..n], i);
    } else {
      assert fields[..i] == fields && outs[..i] == outs;
    }
  }

  /** One more field: its result stored under its name, or the error it raises. */
  lemma AssembleStep(fields: seq<Value>, outs: seq<Result<Value>>, i: nat, rec: Value)
    requires |outs| == |fields| && i < |fields|
    requires Assemble(fields[..i], outs[..i]) == Ok(rec)
    ensures Assemble(fields[..i + 1], outs[..i + 1])
      == if !fields[i].Obj? then Err(TypeError(FieldGetError))
         else if outs[i].Err? then Err(outs[i].error)
         else Ok(Set(rec, FieldName(fields[i]), outs[i].value))
  {
    assert fields[..i + 1][..i] == fields[..i];
    assert outs[..i + 1][..i] == outs[..i];
  }

  // ---------------------------------------------------------------------------
  // Properties of `parseFields` and the list widget

  /** The result of each field is its widget's. */
  lemma {:induction false} ResultsAt(p: Parser, content: Value, fields: seq<Value>, parent: Value)
    requires Below(fields, parent)
    ensures forall i :: 0 <= i < |fields| && fields[i].Obj? ==>
      Results(p, content, fields, parent)[i] == ParseWith(p, fields[i], content)
  {
    if fields != [] {
      var n := |fields| - 1;
      ResultsAt(p, content, fields[..n], parent);
      assert forall i :: 0 <= i < n ==> fields[..n][i] == fields[i];
    }
  }

  /** A record succeeds exactly when every field is a map whose widget succeeds. */
  lemma RecordOk(p: Parser, content: Value, fields: seq<Value>, parent: Value)
    requires Below(fields, parent)
    ensures ParseRecord(p, content, fields, parent).Ok? <==>
      forall i :: 0 <= i < |fields| ==> fields[i].Obj? && ParseWith(p, fields[i], content).Ok?
  {
    var outs := Results(p, content, fields, parent);
    ResultsAt(p, content, fields, parent);
    if Assemble(fields, outs).Ok? {
      AssembleOkFields(fields, outs);
    } else if AllFieldsParse(fields, outs) {
      FieldsAssembleOk(fields, outs);
    }
  }

  /** A record's keys are exactly the names of the fields, each once. */
  lemma RecordKeys(p: Parser, content: Value, fields: seq<Value>, parent: Value)
    requires Below(fields, parent)
    ensures var r := ParseRecord(p, content, fields, parent);
      r.Ok? ==> WellFormed(r.value) && forall k :: Has(r.value, k) <==> k in Names(fields)
  {
    AssembleKeys(fields, Results(p, content, fields, parent));
  }

  /** The value under a field's name is that field's widget result, when no later field has the same name. */
  lemma RecordValue(p: Parser, content: Value, fields: seq<Value>, parent: Value, i: nat)
    requires Below(fields, parent)
    requires ParseRecord(p, content, fields, parent).Ok?
    requires i < |fields|
    requires forall j :: i < j < |fields| ==> FieldName(fields[j]) != FieldName(fields[i])
    ensures fields[i].Obj? && ParseWith(p, fields[i], content).Ok?
    ensures Get(ParseRecord(p, content, fields, parent).value, FieldName(fields[i])) == ParseWith(p, fields[i], content).value
  {
    AssembleValue(fields, Results(p, content, fields, parent), i);
    ResultsAt(p, content, fields, parent);
  }

  /** Content that is falsy yields a record with `null` for every field. */
  lemma RecordOfFalsy(p: Parser, content: Value, fields: seq<Value>, parent: Value)
    requires Below(fields, parent)
    requires !Truthy(content)
    ensures var r := ParseRecord(p, content, fields, parent);
      r.Ok? ==> AllNull(r.value)
  {
    ResultsAt(p, content, fields, parent);
    AssembleNull(fields, Results(p, content, fields, parent));
  }

  /** The records of the rows, one per row and in order. */
  lemma {:induction false} RowResultsAt(p: Parser, field: Value, rows: seq<Value>, fs: seq<Value>)
    requires Below(fs, field)
    ensures forall i :: 0 <= i < |rows| ==> RowResults(p, field, rows, fs)[i] == ParseRecord(p, rows[i], fs, field)
  {
    if rows != [] {
      var n := |rows| - 1;
      RowResultsAt(p, field, rows[..n], fs);
      assert forall i :: 0 <= i < n ==> rows[..n][i] == rows[i];
    }
  }

  /**
   * The list widget on present content with at least one row: it succeeds
   * exactly when every row's record does, and then lists those records in
   * row order.
   */
  lemma ListRecords(p: Parser, field: Value, content: Value)
    requires field.Obj? && Present(content, FieldName(field))
    requires Rows(Member(content, FieldName(field))) != [] && GetFields(field).Ok?
    ensures var rows := Rows(Member(content, FieldName(field)));
      ParseList(p, field, content).Ok? <==>
        forall i :: 0 <= i < |rows| ==> ParseRecord(p, rows[i], GetFields(field).value, field).Ok?
    ensures var rows := Rows(Member(content, FieldName(field)));
      ParseList(p, field, content).Ok? ==>
        |ParseList(p, field, content).value.items| == |rows| &&
        forall i :: 0 <= i < |rows| ==>
          Ok(ParseList(p, field, content).value.items[i]) == ParseRecord(p, rows[i], GetFields(field).value, field)
  {
    var rows := Rows(Member(content, FieldName(field)));
    var fs := GetFields(field).value;
    var outs := RowResults(p, field, rows, fs);
    RowResultsAt(p, field, rows, fs);
    AllOkIff(outs);
    if AllOk(outs).Ok? {
      AllOkValues(outs);
    }
  }

  /** An empty list of rows gives an empty list, whatever the subfields are. */
  lemma ListOfNoRows(p: Parser, field: Value, content: Value)
    requires field.Obj? && Present(content, FieldName(field))
    requires Member(content, FieldName(field)) == List([])
    ensures ParseList(p, field, content) == Ok(List([]))
  {
  }

  /**
   * `parseFields` as the plugin runs it: the fields are iterated, each
   * field's widget parses the content, and its result is stored in the
   * record under the field's name.
   */
  method ParseFields(p: Parser, content: Value, fields: Value) returns (r: Result<Value>)
    ensures Iterate(fields).Err? ==> r == Err(Iterate(fields).error)
    ensures Iterate(fields).Ok? ==> r == ParseRecord(p, content, Iterate(fields).value, fields)
  {
    var it := Iterate(fields);
    if it.Err? {
      return Err(it.error);
    }
    ResultsAt(p, content, it.value, fields);
    r := ParseEach(p, content, it.value, Results(p, content, it.value, fields));
  }

  /** The loop of `parseFields` over the iterated fields, `outs` being what their widgets give. */
  method ParseEach(p: Parser, content: Value, fs: seq<Value>, ghost outs: seq<Result<Value>>) returns (r: Result<Value>)
    requires |outs| == |fs|
    requires forall i :: 0 <= i < |fs| && fs[i].Obj? ==> outs[i] == ParseWith(p, fs[i], content)
    ensures r == Assemble(fs, outs)
  {
    var parsed := EmptyObj();
    var i := 0;
    assert fs[..0] == [] && outs[..0] == [];
    while i < |fs|
      invariant 0 <= i <= |fs|
      invariant Assemble(fs[..i], outs[..i]) == Ok(parsed)
    {
      var field := fs[i];
      AssembleStep(fs, outs, i, parsed);
      if !field.Obj? {
        AssembleErrPrefix(fs, outs, i + 1);
        return Err(TypeError(FieldGetError));
      }
      var v := ParseWith(p, field, content);
      if v.Err? {
        AssembleErrPrefix(fs, outs, i + 1);
        return Err(v.error);
      }
      parsed := Set(parsed, FieldName(field), v.value);
      i := i + 1;
    }
    assert fs[..i] == fs && outs[..i] == outs;
    r := Ok(parsed);
  }
}
